=== FILE: README.md ===
# A verified model of the fsim block-allocation simulator

fsim compares allocation strategies for files on a simulated disk. The disk
is a fixed array of blocks. Each block holds an optional byte payload of at
most `block_size` bytes. A free-space manager keeps one bit per block and
hands out blocks in two ways:
- a first-fit contiguous run;
- the lowest free blocks, scattered.

Two strategies keep a catalog from file name to metadata:
- **Contiguous allocation** maps logical block `k` to `start + k`.
- **Indexed allocation** keeps one index block per file. That block holds the
  file's data-block pointers, packed as big-endian signed 64-bit integers and
  zero-padded to the block size.

The linked strategy is an unfinished stub.

A workload generator turns a scenario configuration and a random source into
a list of create, delete, read and write operations. The runner replays that
list on every selected strategy. For each operation it records:
- a hit or a miss;
- the seeks estimated from the physical block lists the strategy reports;
- the number of blocks touched;
- a per-file manifest.

The model is functional throughout:
- Every Python mutation returns a new immutable state.
- Every raised exception is an `Err` that carries the name of the exception
  class (`Wrappers.Error`).
- The random generator is an explicit stream of draws (`RandomSource.Rng`).
- Floating-point values are exact reals.

Modules, in dependency order:

| file | module | models |
|---|---|---|
| wrappers.dfy | Wrappers | `Option`, `Result`, `Outcome` and the exception kinds |
| codec.dfy | Codec | `struct.pack`/`unpack` with format `!q` |
| block.dfy | Blocks | `Block` |
| disk.dfy | Disks | `Disk` |
| bitmap.dfy | Bitmaps | facts about the bitmap: counts, bulk updates, maximal free runs |
| free_space.dfy | FreeSpace | `FreeSpaceManager` |
| filesystem.dfy | FileSystems | `FilesystemBase`, its argument checks and the shared state |
| contiguous.dfy | Contiguous | `ContiguousFS` |
| indexed.dfy | Indexed | `IndexedFS` |
| literals.dfy | Literals | the texts Python's `int()` and `float()` accept, and their values |
| values.dfy | Values | the dynamically typed values of a configuration dictionary |
| scenario.dfy | Scenarios | `scenario_definitions.py` |
| names.dfy | Names | `_new_name`, `_next_unique_name` |
| random_source.dfy | RandomSource | `randint`, `random`, `choice`, `choices` over a stream of draws |
| workload.dfy | Workload | `workload_generators.py` |
| manifest.dfy | Manifests | the runner's per-file manifest |
| runner.dfy | Runner | `run_simulation` without clocks, and `build_config` |

## Model

| member | source | states |
|---|---|---|
| Wrappers.Need | src/fsim/core/disk.py:125-129 | A check passes exactly when its condition holds; otherwise it fails with the given exception kind. |
| Blocks.SizeBytes | src/fsim/core/block.py:19-27 | The size is 0 exactly when the block is empty (absent or zero-length); otherwise it is the payload length. |
| Blocks.Clear | src/fsim/core/block.py:34-36 | Clearing makes the payload absent and keeps the block's index. |
| Blocks.SetBytes | src/fsim/core/block.py:38-43 | `None` clears the block; a payload is stored exactly. |
| Blocks.FillZeros | src/fsim/core/block.py:45-49 | A negative size is a ValueError. Otherwise the block holds exactly that many zero bytes, and it is empty only for size 0. |
| Blocks.WritePartial | src/fsim/core/block.py:51-74 | Fails with ValueError exactly when a block size is given and is negative or shorter than the payload. On success the payload is a prefix of the stored bytes. Padding fills with zeros up to exactly the block size; otherwise the payload is stored verbatim. |
| Disks.CheckIndex | src/fsim/core/disk.py:125-129 | Passes exactly for indices in `[0, n_blocks)`; otherwise IndexError. |
| Disks.CheckIndices | src/fsim/core/disk.py:131-133 | Passes exactly when every index is in range; otherwise IndexError. |
| Disks.NewDisk | src/fsim/core/disk.py:14-37 | Succeeds exactly when `n_blocks > 0`, `block_size > 0` and the prefill is None or "zeros"; otherwise ValueError. The result is valid with the requested geometry. Every block is absent, or holds `block_size` zero bytes with "zeros". |
| Disks.ReadBlock | src/fsim/core/disk.py:42-45 | Fails with IndexError outside the disk; otherwise returns the stored payload, with absent kept distinct from empty. |
| Disks.Store | src/fsim/core/disk.py:61-64 | After the store, block `i` holds the new payload and every other block is unchanged. A payload that fits keeps the disk valid. |
| Disks.WriteBlock | src/fsim/core/disk.py:47-64 | Succeeds exactly when the index is in range and the payload is None or fits the block size. The error is IndexError for a bad index, else ValueError, and a failed write changes nothing. |
| Disks.ClearBlock | src/fsim/core/disk.py:69-72 | An in-range block becomes absent and reads back as absent; outside the disk, IndexError. |
| Disks.FillBlockZeros | src/fsim/core/disk.py:74-77 | An in-range block holds `block_size` zero bytes; outside the disk, IndexError. |
| Disks.ReadBlocks | src/fsim/core/disk.py:79-82 | Fails with IndexError unless every index is in range. On success it returns, position by position, what `read_block` returns. |
| Disks.StoreAll | src/fsim/core/disk.py:101-104 | After the write loop, each index holds the payload of its last write in the list. Blocks not named are unchanged, and fitting payloads keep the disk valid. |
| Disks.ReadBackStore | src/fsim/core/disk.py:79-104 | Reading back distinct blocks just written returns exactly the written payloads. |
| Disks.WriteBlocks | src/fsim/core/disk.py:84-104 | Succeeds exactly when all indices are in range, the lengths match and every payload fits. IndexError comes before ValueError, and a failed call changes nothing. |
| Disks.UsedBlocksCount | src/fsim/core/disk.py:106-108 | The count is at most `n_blocks`. |
| Disks.EmptyBlocksCount | src/fsim/core/disk.py:110-112 | Used and empty blocks add up to `n_blocks`. |
| Disks.CountPresentIsCardinality | src/fsim/core/disk.py:106-108 | The used count is the number of distinct blocks whose payload is present, empty bytes included. |
| Disks.UsedCountAfterStore | src/fsim/core/disk.py:47-64 | A store changes the used count only through block `i`: by +1 when it becomes present, by -1 when it becomes absent, otherwise by 0. |
| Disks.PresentAfterStore | src/fsim/core/disk.py:47-64 | A store changes the set of present blocks at `i` only. |
| Codec.EncodeUnsigned | src/fsim/fs_strategies/indexed.py:54 | A big-endian encoding has exactly the requested width. |
| Codec.DecodeUnsigned | src/fsim/fs_strategies/indexed.py:43 | A big-endian value is below 256 to the power of its width. |
| Codec.DecodeEncodeUnsigned | src/fsim/fs_strategies/indexed.py:43-54 | Decoding the encoding of a value that fits gives the value back. |
| Codec.EncodeDecodeUnsigned | src/fsim/fs_strategies/indexed.py:43-54 | Encoding the decoded value of a byte string at its own width gives the bytes back. |
| Codec.EncodeInt64 | src/fsim/fs_strategies/indexed.py:12-13 | `struct.pack("!q", x)` is 8 bytes long. |
| Codec.DecodeInt64 | src/fsim/fs_strategies/indexed.py:12-13 | `struct.unpack("!q", b)` yields a signed 64-bit value. |
| Codec.Int64RoundTrip | src/fsim/fs_strategies/indexed.py:43-54 | Unpacking a packed signed 64-bit pointer gives the pointer back. |
| Codec.EncodeTable | src/fsim/fs_strategies/indexed.py:50-54 | Packing succeeds exactly when every pointer fits in 64 signed bits, else `struct.error`, reported as IOError. The result is 8 bytes per pointer. |
| Codec.DecodeChunks | src/fsim/fs_strategies/indexed.py:43-44 | Unpacking gives one signed 64-bit value per 8 bytes. |
| Codec.DecodeTable | src/fsim/fs_strategies/indexed.py:39-46 | Unpacking `count` pointers succeeds exactly when `count >= 0` and the data holds at least `8 * count` bytes, else IOError. It yields `count` values. |
| Codec.DecodeEncodeChunks | src/fsim/fs_strategies/indexed.py:43-54 | Unpacking a packed table gives the pointers back. |
| Codec.TableRoundTrip | src/fsim/fs_strategies/indexed.py:43-59 | Whatever padding follows a packed table, decoding its length gives the pointers back. |
| Codec.Zeros | src/fsim/fs_strategies/indexed.py:57-59 | The padding is exactly the requested number of zero bytes. |
| Bitmaps.UsedCount | src/fsim/core/free_space.py:135-137 | The used count is at most the number of blocks. |
| Bitmaps.FreeCount | src/fsim/core/free_space.py:139-141 | Free and used blocks add up to the number of blocks. |
| Bitmaps.UsedBetweenSplit | src/fsim/core/free_space.py:135-137 | Counts over adjacent ranges add up. |
| Bitmaps.UsedCountFlip | src/fsim/core/free_space.py:113-117 | Flipping one bit changes the used count by exactly one, in the direction of the flip. |
| Bitmaps.SetBits | src/fsim/core/free_space.py:52-53 | Setting a list of bits gives the new value at listed positions and the old one elsewhere. |
| Bitmaps.SetBitsCount | src/fsim/core/free_space.py:52-53 | Setting `m` distinct bits that all held the opposite value moves the used count by exactly `m`. |
| Bitmaps.SetBitsUndo | src/fsim/core/free_space.py:73-87 | Setting the same positions back, in any order, restores the bitmap exactly. |
| Bitmaps.FreeList | src/fsim/core/free_space.py:54-60 | The free indices at or after `i` are ascending and in range. Each is free, and every free index there is listed. |
| Bitmaps.FreeListLength | src/fsim/core/free_space.py:139-141 | There are as many free indices as the free count. |
| Bitmaps.RunLength | src/fsim/core/free_space.py:153-163 | The blocks counted from `i` are free, and the run ends at the disk's end or at a used block. |
| Bitmaps.RunsFromMaximal | src/fsim/core/free_space.py:149-165 | The runs found from `i` on are maximal, start at or after `i`, and are separated in ascending order. |
| Bitmaps.RunsFromCover | src/fsim/core/free_space.py:149-165 | Every free block at or after `i` lies inside one of the runs found. |
| Bitmaps.RunsFromSum | src/fsim/core/free_space.py:149-165 | The lengths of the runs found from `i` add up to the free blocks at or after `i`. |
| Bitmaps.FreeRunUnused | src/fsim/core/free_space.py:98-111 | A free run contains no used block. |
| Bitmaps.FreeRuns | src/fsim/core/free_space.py:149-165 | Every listed run is maximal: non-empty, free, and bounded by used blocks or the disk's ends. The runs come in ascending order with gaps between them. |
| Bitmaps.FreeRunsCover | src/fsim/core/free_space.py:149-165 | Every free block lies in some listed run. |
| Bitmaps.FreeRunsSum | src/fsim/core/free_space.py:149-165 | The run lengths sum to the free count. |
| Bitmaps.MaxLength | src/fsim/core/free_space.py:167-170 | The maximum bounds every run length and is attained by some run; it is 0 for no runs. |
| Bitmaps.LargestRunBounds | src/fsim/core/free_space.py:167-170 | The largest run is at most the free count, and it is 0 exactly when no block is free. |
| Bitmaps.RunInsideMaximal | src/fsim/core/free_space.py:149-170 | Any free stretch lies inside one listed maximal run. |
| Bitmaps.FitIffLargest | src/fsim/core/free_space.py:98-111 | Some `n` consecutive free blocks exist exactly when `n` is at most the largest free run. |
| FreeSpace.NewFsm | src/fsim/core/free_space.py:14-34 | Construction succeeds exactly when `n_blocks > 0` and every preoccupied index is in range. Otherwise it is ValueError for the size, else IndexError. A block is used exactly when it was preoccupied. |
| FreeSpace.ScanFit | src/fsim/core/free_space.py:98-111 | The scan loop finds the lowest start of `needed` consecutive free blocks, or reports that there is none. |
| FreeSpace.FindFirstFitRun | src/fsim/core/free_space.py:98-111 | The answer is a free run of exactly `needed` blocks with no such run starting earlier. None means no such run exists anywhere. |
| FreeSpace.CollectFree | src/fsim/core/free_space.py:54-60 | The scattered loop appends the lowest free indices from `i` on, stopping once it has `n`. |
| FreeSpace.LowestFree | src/fsim/core/free_space.py:54-60 | Every free index not taken lies above the last index taken. |
| FreeSpace.FreePrefix | src/fsim/core/free_space.py:54-60 | The first `n` free indices are in range, strictly ascending, distinct and free. |
| FreeSpace.ScatteredPrefix | src/fsim/core/free_space.py:54-64 | The first `n` free indices are ascending, distinct, in range and free. Every other free block lies above the last of them. |
| FreeSpace.MarkUsed | src/fsim/core/free_space.py:52-53 | Marking distinct free blocks used sets exactly those bits and raises the used count by their number. |
| FreeSpace.PickContiguous | src/fsim/core/free_space.py:46-53 | A run is found exactly when `n` consecutive free blocks exist. It is `[s, s+n)` for the lowest such `s`. |
| FreeSpace.PickScattered | src/fsim/core/free_space.py:54-64 | Indices are found exactly when at least `n` blocks are free. They are the `n` lowest free ones, ascending. |
| FreeSpace.Allocate | src/fsim/core/free_space.py:39-71 | `n <= 0` is a ValueError. A contiguous request succeeds exactly when `n` consecutive free blocks exist, and a scattered one exactly when `n` blocks are free. Otherwise it is MemoryError with the bitmap unchanged. On success exactly the returned blocks flip from free to used and the used count grows by `n`. The returned blocks are the first-fit run, or the `n` lowest free indices in ascending order. |
| FreeSpace.DistinctIffSetSize | src/fsim/core/free_space.py:78-80 | A list has no duplicates exactly when its set of elements is as large as the list. |
| FreeSpace.Free | src/fsim/core/free_space.py:73-87 | An empty list changes nothing. Otherwise it succeeds exactly when every entry is in range, distinct and used. The error is IndexError before ValueError, and a failed call changes nothing. On success exactly the listed bits are cleared and the used count drops by their number. |
| FreeSpace.FreeUndoesAllocate | src/fsim/core/free_space.py:39-87 | Freeing what an allocation returned, in any order, restores the bitmap exactly. |
| FreeSpace.FreeUndoesMark | src/fsim/core/free_space.py:52-53 | Freeing, in any order, exactly the free blocks that were marked used gives back the manager as it was. |
| FreeSpace.ReserveExact | src/fsim/core/free_space.py:187-195 | Succeeds exactly when every target is in range and free. The error is IndexError before ValueError, and a failed call changes nothing. On success exactly the targets become used. |
| FreeSpace.OccupancyPct | src/fsim/core/free_space.py:143-147 | The percentage lies in [0, 100]. It is 0 exactly when nothing is used, and 100 exactly when nothing is free. |
| FreeSpace.ExternalFragmentationRatio | src/fsim/core/free_space.py:172-178 | The ratio lies in [0, 1). It is 0 exactly when nothing is free or all free blocks form one run. Otherwise it is `1 - largest/free`. |
| FreeSpace.SnapshotBitmap | src/fsim/core/free_space.py:180-182 | One entry per block: 1 for used, 0 for free. |
| FreeSpace.AllocateSucceedsIff | src/fsim/core/free_space.py:46-64 | A contiguous request succeeds exactly when it fits in the largest free run, and a scattered one exactly when it fits in the free count. |
| FileSystems.NewFs | src/fsim/core/filesystem_base.py:11-14 | A new strategy works on the given disk and manager, and its catalog is empty. |
| FileSystems.AssertNewFile | src/fsim/fs_strategies/contiguous.py:24 | Passes exactly for a name absent from the catalog; otherwise FileExists. |
| FileSystems.AssertFileExists | src/fsim/fs_strategies/contiguous.py:62 | Passes exactly for a catalogued name; otherwise FileNotFound. |
| FileSystems.AssertPositiveBlocks | src/fsim/fs_strategies/contiguous.py:25 | Passes exactly for `n > 0`; otherwise ValueError. |
| FileSystems.AssertNonNegative | src/fsim/fs_strategies/contiguous.py:82 | Passes exactly for `offset >= 0`; otherwise ValueError. |
| FileSystems.AssertRangeWithinSize | src/fsim/fs_strategies/contiguous.py:84 | Passes exactly when `offset + n <= size_blocks`; otherwise ValueError. |
| FileSystems.PySlice | src/fsim/fs_strategies/indexed.py:160 | A slice within bounds is the plain subsequence; no slice is longer than the list. |
| FileSystems.EmptyPayloads | src/fsim/fs_strategies/contiguous.py:129-130 | Writing without data gives one `b""` per block. |
| FileSystems.FirstRejected | src/fsim/fs_strategies/indexed.py:218-223 | Every write before this position is accepted, and the one at it is rejected. It equals the list length exactly when all indices are in range and all payloads fit. |
| FileSystems.WriteEach | src/fsim/fs_strategies/indexed.py:218-223 | A loop of single writes stores every write before the first rejected one. It then stops with that write's error, or passes when none is rejected. |
| FileSystems.WholePrefix | src/fsim/fs_strategies/indexed.py:218-223 | When no write is rejected, the loop stores the whole list. |
| FileSystems.Then | src/fsim/fs_strategies/contiguous.py:81-84 | Two checks in a row pass exactly when both do, and the first failure is reported. |
| FileSystems.PyRange | src/fsim/fs_strategies/contiguous.py:67 | `range(lo, hi)` lists `lo, lo+1, ...` and is empty when `hi <= lo`. |
| FileSystems.SumOverRemove | src/fsim/fs_strategies/contiguous.py:73 | Removing a catalog entry removes its weight from the total. |
| FileSystems.SumOverInsert | src/fsim/fs_strategies/contiguous.py:38-43 | Adding a new catalog entry adds its weight to the total. |
| Contiguous.Create | src/fsim/fs_strategies/contiguous.py:23-56 | An existing name is FileExists and a non-positive size is ValueError, both before the allocator is touched. No free run is MemoryError after the start event, with nothing recorded. On success the entry has start = first allocated block and length = size, and the events are `create:start` then `create:done`. |
| Contiguous.Absent | src/fsim/fs_strategies/contiguous.py:46-47 | The creation payloads are all None. |
| Contiguous.Delete | src/fsim/fs_strategies/contiguous.py:61-75 | An unknown name is FileNotFound. Otherwise the file's run goes to `free`: on success the entry is removed and the events are `delete:start` then `delete:done`; on refusal the error propagates after the start event alone and nothing changes. The disk is never touched. |
| Contiguous.ResolveRange | src/fsim/fs_strategies/contiguous.py:151-159 | Succeeds exactly when the name exists, `offset >= 0`, `n > 0` and `offset + n <= size_blocks`. The result is `start+offset, ..., start+offset+n-1`. |
| Contiguous.Read | src/fsim/fs_strategies/contiguous.py:80-107 | Reading changes nothing, and a failed check emits nothing. On success it returns each block's payload, with absent read as `b""`. Both events carry the physical list and the count. |
| Contiguous.Write | src/fsim/fs_strategies/contiguous.py:112-146 | Catalog and bitmap never change. A data count other than `n` is a ValueError after the start event. Otherwise the writes are all-or-nothing, as in `write_blocks`: a block outside the disk is IndexError and an oversized payload ValueError, and a failure changes nothing. |
| Contiguous.FreshInv | src/fsim/fs_strategies/contiguous.py:38-43 | An empty catalog over an all-free bitmap satisfies the invariant: runs are used and disjoint, and the used count equals the total length of live files. |
| Contiguous.ContigAllocation | src/fsim/fs_strategies/contiguous.py:30-35 | A contiguous allocation returns a free run starting at its first index, and it marks exactly that run used. |
| Contiguous.CreateKeepsInv | src/fsim/fs_strategies/contiguous.py:23-56 | `create` keeps the invariant. Under it, `create` succeeds exactly when the name is new, the size positive and a free run of that size exists, and the new file's blocks then read as absent. |
| Contiguous.CreateSucceeds | src/fsim/fs_strategies/contiguous.py:30-47 | With a new name, a positive size and a successful allocation, `create` succeeds, keeps the invariant and leaves the run absent. |
| Contiguous.CreatedInv | src/fsim/fs_strategies/contiguous.py:38-43 | Adding a placed, disjoint run whose blocks were counted keeps the invariant. |
| Contiguous.CreateWrites | src/fsim/fs_strategies/contiguous.py:46-47 | The creation writes land inside the disk, keep it valid and leave the run absent. |
| Contiguous.CreatePlaced | src/fsim/fs_strategies/contiguous.py:30-43 | A run that was free is disjoint from every existing file's run. |
| Contiguous.DeleteKeepsInv | src/fsim/fs_strategies/contiguous.py:61-75 | `delete` keeps the invariant. Under it, delete succeeds exactly for a catalogued name, and then frees exactly that file's run. |
| Contiguous.DeleteFrees | src/fsim/fs_strategies/contiguous.py:66-73 | Under the invariant, the file's run is a valid argument to `free`. |
| Contiguous.DeletePlaced | src/fsim/fs_strategies/contiguous.py:70-73 | The remaining files keep their runs used and disjoint. |
| Contiguous.WriteKeepsInv | src/fsim/fs_strategies/contiguous.py:112-146 | `write` keeps the invariant. |
| Contiguous.WriteSucceedsIff | src/fsim/fs_strategies/contiguous.py:112-137 | A write succeeds exactly when the range resolves, the data count is `n` and every payload fits a block. |
| Contiguous.WriteThenRead | src/fsim/fs_strategies/contiguous.py:97-137 | Reading the range after a successful write returns the written payloads. None reads back as `b""`, so a write without data reads back as `n` times `b""`. |
| Contiguous.DeleteTwice | src/fsim/fs_strategies/contiguous.py:61-73 | After a successful delete, deleting the same name again is FileNotFound. |
| Indexed.MaxFileBlocks | src/fsim/fs_strategies/indexed.py:27 | The cap is `floor(block_size / 8)`: that many pointers fit in a block, and one more does not. |
| Indexed.ReadIndexBlock | src/fsim/fs_strategies/indexed.py:33-46 | Decoding succeeds exactly when the block is in range, present, and long enough for `size` pointers. An absent or short block is IOError. It yields `size` signed 64-bit pointers. |
| Indexed.IndexImage | src/fsim/fs_strategies/indexed.py:48-59 | The index image is the packed table, zero-padded to the block size when shorter, and it decodes back to the pointers. A pointer outside 64 signed bits is IOError. |
| Indexed.WriteIndexBlock | src/fsim/fs_strategies/indexed.py:48-63 | Succeeds exactly when every pointer fits and the block is in range. The disk's own errors pass through. On success the block holds the image, and reading it back gives the pointers. |
| Indexed.Create | src/fsim/fs_strategies/indexed.py:69-118 | An existing name is FileExists and a non-positive size is ValueError. A size above the cap is MemoryError before any allocation, and too few free blocks is MemoryError after the start event; nothing is recorded in either case. After an IOError rollback the bitmap and catalog are as before. A success emits `create:start` then `create:done`. |
| Indexed.Place | src/fsim/fs_strategies/indexed.py:91-109 | After the allocation, the entry is recorded and the index written. If that write raises IOError, every allocated block is freed and the entry removed, leaving the bitmap and catalog as before. A success emits `create:start` then `create:done`. |
| Indexed.Unallocate | src/fsim/fs_strategies/indexed.py:107 | The rollback's `free` always succeeds and restores the bitmap as before the allocation. |
| Indexed.RollbackFrees | src/fsim/fs_strategies/indexed.py:107 | Freeing the data blocks and then the index block undoes a scattered allocation exactly. |
| Indexed.DeleteBlocks | src/fsim/fs_strategies/indexed.py:126-136 | `delete` frees the decoded pointers plus the index block, or only the index block when decoding fails. |
| Indexed.Delete | src/fsim/fs_strategies/indexed.py:120-147 | An unknown name is FileNotFound. An IOError while decoding is tolerated, other decode errors propagate after the start event alone, and the disk is never touched. A completed delete emits `delete:start` then `delete:done`. The entry is always removed before `free`, whose IndexError or ValueError is swallowed with the bitmap unchanged. |
| Indexed.ResolveRange | src/fsim/fs_strategies/indexed.py:149-160 | An unknown name is FileNotFound and a range past the size is ValueError. An index that cannot be decoded raises its error. Otherwise the result is the Python slice `[offset : offset+n]` of the decoded table, which is the plain subsequence when `offset` and `n` are non-negative. |
| Indexed.CheckAccess | src/fsim/fs_strategies/indexed.py:163-165 | Passes exactly when the name exists, `n > 0` and `offset >= 0`, with errors reported in that order. |
| Indexed.Read | src/fsim/fs_strategies/indexed.py:162-188 | Reading changes nothing, and a failed check emits nothing. On success it returns each resolved block's payload, with absent read as `b""`. A resolved pointer outside the disk is IndexError, after the start event alone. Only the start event carries the physical list and the count. |
| Indexed.Write | src/fsim/fs_strategies/indexed.py:190-225 | Catalog and bitmap never change. A failed check or range passes its error on with no event. A data count other than `n` is ValueError before the start event. The blocks then go one `write_block` at a time: exactly those before the first rejected block are stored. The call returns exactly when none is rejected, and otherwise raises that block's IndexError or ValueError after the start event only. |
| Indexed.CreateLayout | src/fsim/fs_strategies/indexed.py:84-103 | After `create`, the index block is the lowest allocated block. The data pointers follow in ascending order, are all above it, and the index decodes to them. |
| Indexed.CreatedWith | src/fsim/fs_strategies/indexed.py:84-103 | A successful `create` came from a scattered allocation of `size + 1` blocks. The entry names its first block, and the index lists the rest. |
| Indexed.DeleteUndoes | src/fsim/fs_strategies/indexed.py:120-147 | Deleting a file whose index lists an allocation's data blocks frees that allocation exactly and drops the entry. |
| Indexed.CreateThenDelete | src/fsim/fs_strategies/indexed.py:69-147 | Deleting a file right after creating it leaves the bitmap and catalog exactly as before the create. |
| Indexed.DeleteTwice | src/fsim/fs_strategies/indexed.py:120-139 | After a successful delete, deleting the same name again is FileNotFound. |
| Indexed.WrittenWith | src/fsim/fs_strategies/indexed.py:190-223 | A successful write resolved its range and stored every payload, in order. |
| Indexed.ReadAfterStore | src/fsim/fs_strategies/indexed.py:162-188 | Storing payloads at distinct resolved blocks that miss the index block leaves the index intact. The same range then reads back the payloads. |
| Indexed.IndexUntouched | src/fsim/fs_strategies/indexed.py:33-46 | Writes to other blocks leave the decoded index table unchanged. |
| Indexed.WriteThenRead | src/fsim/fs_strategies/indexed.py:162-225 | Under the catalog invariant, reading the range after a successful write returns the written payloads, with None read as `b""`. |
| Indexed.FreshInv | src/fsim/core/filesystem_base.py:11-14 | A fresh strategy satisfies the catalog invariant, and every block of its bitmap is free. The strategy has a valid disk, an all-free bitmap and an empty catalog. Under the invariant, every file's index decodes, the blocks it owns are distinct and used, no block is owned twice, and the used count is the total footprint of the files. |
| Indexed.CreateKeepsInv | src/fsim/fs_strategies/indexed.py:69-118 | `create` keeps the invariant. A failed create leaves the strategy unchanged, and a successful one uses exactly `size + 1` more blocks. |
| Indexed.CreateSucceedsIff | src/fsim/fs_strategies/indexed.py:69-118 | Under the invariant, on a disk whose block numbers fit 64 signed bits, `create` succeeds exactly when three things hold: the name is new, `0 < size <= max_file_blocks`, and `size + 1` blocks are free. |
| Indexed.DeleteKeepsInv | src/fsim/fs_strategies/indexed.py:120-147 | `delete` keeps the invariant. It succeeds exactly for a catalogued name. It then frees exactly the blocks that file owns, drops its entry, and lowers the used count by the file's footprint. |
| Indexed.WriteKeepsInv | src/fsim/fs_strategies/indexed.py:190-225 | `write` keeps the invariant, also when it stops part-way. |
| Indexed.StoredReadsBack | src/fsim/fs_strategies/indexed.py:162-225 | After a successful write to distinct blocks that miss the file's index block, reading the same range returns the written payloads. |
| Values.Get | src/fsim/sim/workload_generators.py:136-143 | `d.get(key, default)` is the stored value for a present key, else the default. |
| Values.Trunc | src/fsim/sim/workload_generators.py:136 | `int()` on a float truncates toward zero. |
| Values.ToInt | src/fsim/sim/workload_generators.py:136-143 | `int(v)` succeeds exactly on numbers and on the strings `Literals.ParseInt` accepts. A string it rejects is ValueError, and any other value is TypeError. An int maps to itself, a float is truncated, and a string gives the integer it denotes. |
| Values.ToReal | src/fsim/sim/scenario_definitions.py:107-108 | `float(v)` succeeds exactly on numbers and on the strings `Literals.ParseReal` accepts. A string it rejects is ValueError, and any other value is TypeError. A number keeps its value, and a string gives the decimal value it denotes. |
| Values.RealAcceptsInt | src/fsim/sim/workload_generators.py:136-143 | Every value other than a float that `int()` accepts, `float()` accepts with the same value. |
| Values.IntOfString | src/fsim/sim/workload_generators.py:136 | `int("4")` is 4. |
| Values.IntRejectsString | src/fsim/sim/workload_generators.py:136 | `int("x")` raises ValueError. |
| Values.IntRejectsSeparator | src/fsim/sim/workload_generators.py:136-143 | `int("\x1c4")` is ValueError: the separator U+001C is not whitespace to `int()`, although `str.isspace` counts it. |
| Values.RealOfDecimalString | src/fsim/sim/scenario_definitions.py:107-108 | `float("a.b")` accepts any digit strings `a` and `b`. The value minus `a`, shifted up by the number of digits of `b`, is `b`; so `float("0.6")` is 6 tenths. |
| Literals.StripLeftShape | src/fsim/sim/workload_generators.py:136 | `int()` and `float()` ignore leading ASCII whitespace (the space and `\t` to `\r`, not the separators U+001C to U+001F that `str.isspace` also counts): what is removed is whitespace only, and the rest starts with a non-whitespace character or is empty. |
| Literals.StripRightShape | src/fsim/sim/workload_generators.py:136 | Trailing whitespace is ignored the same way: what is removed is whitespace only, and the rest ends with a non-whitespace character or is empty. |
| Literals.IntTextRoundTrip | src/fsim/sim/workload_generators.py:136 | `int(str(i)) == i` for every integer. |
| Literals.LeadingSpace | src/fsim/sim/workload_generators.py:136 | A leading whitespace character changes nothing that `int()` or `float()` makes of a text. |
| Literals.IntRejectsOther | src/fsim/sim/workload_generators.py:136 | A text that contains a character other than whitespace, a digit, an underscore or a sign is rejected by `int()`. |
| Literals.ParseRealExtendsInt | src/fsim/sim/scenario_definitions.py:107-108 | Every text `int()` accepts, `float()` accepts with the same value. |
| Literals.Fraction | src/fsim/sim/scenario_definitions.py:107-108 | The digits after a decimal point denote a value in [0, 1). |
| Literals.ParseRealExponent | src/fsim/sim/scenario_definitions.py:107-108 | `float(f"{a}e{e}")` is exactly `a * 10**e`, for negative exponents too. |
| Literals.ParseRealFraction | src/fsim/sim/scenario_definitions.py:107-108 | For digit strings `m` and `f`, `float("m.f")` is `m`'s value plus the fraction `f` denotes. That fraction, shifted up by the number of digits in `f`, is `f`'s value. |
| Scenarios.Defaults | src/fsim/sim/scenario_definitions.py:11-48 | There are exactly three built-in scenarios: mix-small-large, seq-vs-rand and frag-intensive. |
| Scenarios.CheckKeys | src/fsim/sim/scenario_definitions.py:119-123 | The key loop passes exactly when every required key is present with its type; otherwise ValueError. |
| Scenarios.RequiredKeysAreWellTyped | src/fsim/sim/scenario_definitions.py:51-62 | The loop over `_REQUIRED_KEYS` passes exactly when the ten keys have their types: str, int, list/tuple, dict, or int/float. |
| Scenarios.AsRangePair | src/fsim/sim/scenario_definitions.py:88-100 | Accepts exactly a two-element list or tuple of ints with `1 <= min <= max`, and returns them. Anything else is a ValueError. |
| Scenarios.NormalizeAccessPattern | src/fsim/sim/scenario_definitions.py:102-113 | Missing keys count as 0, and each weight goes through `float()`. A weight it rejects raises its error: ValueError for a string, TypeError otherwise. A non-positive total gives (1, 0); otherwise each weight is divided by the total, so the two sum to exactly 1. |
| Scenarios.Weights | src/fsim/sim/scenario_definitions.py:109-113 | The two shares always sum to 1. A non-positive total gives (1, 0). Otherwise each share times the total is its own weight. |
| Scenarios.Shares | src/fsim/sim/scenario_definitions.py:113 | Dividing two weights by their positive sum gives shares that add to 1. |
| Scenarios.ValidateSchema | src/fsim/sim/scenario_definitions.py:115-145 | Validation passes exactly when every key is present and typed, both sizes and `ops` are positive, both counts are non-negative, both ranges are accepted, and `delete_rate` is in [0, 1]. Every failure is ValueError. |
| Scenarios.NormalizeConfig | src/fsim/sim/scenario_definitions.py:147-157 | On a valid configuration, normalisation replaces only the two ranges (by integer pairs) and the access pattern (by normalised weights). Every other key is copied unchanged. |
| Scenarios.Combined | src/fsim/sim/scenario_definitions.py:186-188 | External scenarios replace same-named defaults; the other defaults stay. |
| Scenarios.AvailableScenarios | src/fsim/sim/scenario_definitions.py:163-171 | Every known scenario maps to its description, or "" without one. |
| Scenarios.Resolve | src/fsim/sim/scenario_definitions.py:186-200 | An unknown scenario is KeyError, and neither a scenario nor overrides is ValueError. Otherwise the overrides win over the scenario's values, and no other key appears. |
| Scenarios.GetConfig | src/fsim/sim/scenario_definitions.py:173-205 | An unknown scenario is KeyError, and a resolved configuration that fails validation is ValueError. A returned configuration was resolved and validated. It keeps the resolved keys, and the override values outside the normalised fields. |
| Scenarios.GetConfigSucceeds | src/fsim/sim/scenario_definitions.py:173-205 | Every resolved configuration that passes validation, and whose access weights `float()` accepts, yields a configuration. |
| Scenarios.DefaultsAreValid | src/fsim/sim/scenario_definitions.py:11-48 | Each built-in scenario passes `get_config`. |
| Scenarios.ResolveBuiltIn | src/fsim/sim/scenario_definitions.py:186-194 | Without a file or overrides, a built-in name resolves to its own entry. |
| Scenarios.DefaultValid | src/fsim/sim/scenario_definitions.py:11-48 | Each built-in scenario satisfies the schema. |
| Names.Dec | src/fsim/sim/workload_generators.py:37 | The decimal form of a number is a non-empty string of digits. |
| Names.Pad6 | src/fsim/sim/workload_generators.py:37 | `:06d` left-pads with zeros to six characters and leaves longer strings alone. |
| Names.DecRoundTrip | src/fsim/sim/workload_generators.py:37 | Reading the decimal form back gives the number. |
| Names.PaddedRoundTrip | src/fsim/sim/workload_generators.py:37 | Reading the zero-padded form back gives the number. |
| Names.NewNameInjective | src/fsim/sim/workload_generators.py:35-37 | Distinct counters give distinct names of one kind. A name has at least six digits after `kind_`. |
| Names.NextUniqueName | src/fsim/sim/workload_generators.py:39-48 | The name is `kind_NNNNNN` for the first counter from `counter` on whose name is not taken. The returned counter is one past it, so strictly larger. |
| RandomSource.RandBelow | src/fsim/sim/workload_generators.py:13 | The draw lies in `[0, n)` and consumes one value. |
| RandomSource.RandInt | src/fsim/sim/workload_generators.py:13 | `randint(a, b)` lies in `[a, b]`; an empty range is ValueError. |
| RandomSource.Random | src/fsim/sim/workload_generators.py:17 | `random()` lies in `[0, 1)`. |
| RandomSource.Accumulate | src/fsim/sim/workload_generators.py:217 | Each cumulative weight is the previous one plus its own weight. |
| RandomSource.Bisect | src/fsim/sim/workload_generators.py:217 | The binary search stays within `[lo, hi]`. |
| RandomSource.BisectFindsFirstAbove | src/fsim/sim/workload_generators.py:217 | On a sorted list the search returns the first position above `x`: every element before it is at most `x`. |
| RandomSource.Choose | src/fsim/sim/workload_generators.py:217-220 | `choices` fails on an empty population (IndexError) or a non-positive total (ValueError). Otherwise it returns a valid position, and with non-negative weights never one of weight 0. |
| RandomSource.AccumulateSorted | src/fsim/sim/workload_generators.py:217 | Non-negative weights give non-decreasing cumulative weights. |
| Workload.OpWeights | src/fsim/sim/workload_generators.py:19-33 | Create weighs 0.25 and delete weighs `min(0.1 + 0.8 * delete_rate, 0.45)`; read and write weigh the same. |
| Workload.OpWeightsDistribution | src/fsim/sim/workload_generators.py:19-33 | For `delete_rate` in [0, 1] the four weights are non-negative and sum to 1, and read = write = half of the remainder. |
| Workload.OpChoiceSucceeds | src/fsim/sim/workload_generators.py:19-33 | The operation weights always have a positive total, so choosing the next operation never fails. |
| Workload.RandSize | src/fsim/sim/workload_generators.py:10-13 | A pair of ints yields a size between them. A wrong count is ValueError and a non-int member is TypeError. |
| Workload.ComputeOffsetAndLen | src/fsim/sim/workload_generators.py:56-94 | Size 0 gives (0, 0, cursor). Otherwise the range stays inside the file with `1 <= n <= min(max_io, size)`. In sequential mode the offset is the cursor (reset to 0 at the end) and the new cursor is `(offset + n) mod size`. In random mode the cursor is unchanged, and a full-size read starts at 0. |
| Workload.TupleOf | src/fsim/sim/workload_generators.py:139-140 | `tuple(v)` gives the items of a list or tuple, and the characters of a string one by one. Any other value is a TypeError. |
| Workload.SeqWeight | src/fsim/sim/workload_generators.py:141 | The weight is `float()` of the access pattern's `seq` entry, or 0.5 when that is absent. A string `float()` rejects is ValueError. Any other unconvertible value is TypeError, and so is an access pattern that is not a dictionary. |
| Workload.ParamsOf | src/fsim/sim/workload_generators.py:136-143 | Reading succeeds exactly when every value converts: counts through `int()`, ranges through `tuple()` and weights through `float()`. Each field is the conversion of its key, or of its documented default. An `ops` that does not convert raises its own conversion error, and every error is TypeError or ValueError. |
| Workload.ParamsOfEmpty | src/fsim/sim/workload_generators.py:136-143 | An empty configuration gives the defaults: 1000 operations, no population, ranges (1, 4) and (16, 128), weight 0.5, delete rate 0.1 and 8 blocks per I/O. |
| Workload.IndexOf | src/fsim/sim/workload_generators.py:267 | The first occurrence of an element is found. |
| Workload.RemoveFirstUnique | src/fsim/sim/workload_generators.py:267 | Removing a name from a duplicate-free list leaves a duplicate-free list of the other names. |
| Workload.ReplayValid | src/fsim/sim/workload_generators.py:212-313 | A sequence that replays from an empty catalog is valid at every step. Creates name non-live files; deletes, reads and writes name live files; reads and writes stay inside their file. |
| Workload.WithFileKeeps | src/fsim/sim/workload_generators.py:228-239 | Adding a file with a new name and emitting its create keeps the generator's bookkeeping consistent with the operations. |
| Workload.WithoutFileKeeps | src/fsim/sim/workload_generators.py:258-269 | Deleting a live file and emitting its delete keeps the bookkeeping consistent. |
| Workload.TouchedKeeps | src/fsim/sim/workload_generators.py:289-304 | An in-bounds read or write with a non-negative new cursor keeps the bookkeeping consistent. |
| Workload.CreateOfKind | src/fsim/sim/workload_generators.py:220-239 | A synthetic create appends exactly one create, with a fresh name and a size from that kind's range, and keeps consistency. It never fails for runnable parameters. |
| Workload.CreateStep | src/fsim/sim/workload_generators.py:219-239 | A create iteration appends exactly one create with a configured size and keeps consistency. It never fails for runnable parameters. |
| Workload.PickExisting | src/fsim/sim/workload_generators.py:50-54 | Returns None exactly for an empty list; otherwise a member of the list. |
| Workload.DeleteStep | src/fsim/sim/workload_generators.py:241-269 | With a live file, a delete iteration emits a delete of a live name; otherwise it falls back to a create. It appends exactly one operation and keeps consistency. It never fails for runnable parameters. |
| Workload.ReadWriteStep | src/fsim/sim/workload_generators.py:271-304 | With a live file, a read or write iteration emits that operation on a live name, inside its bounds. It appends exactly one operation and keeps consistency. From a consistent state with runnable parameters it never fails. |
| Workload.Iterate | src/fsim/sim/workload_generators.py:212-313 | Each loop iteration appends exactly one operation, a create when no file is live, and keeps consistency. From a consistent state with runnable parameters it never fails. |
| Workload.Dispatch | src/fsim/sim/workload_generators.py:219-313 | Whichever operation is chosen, one operation is appended and consistency is kept. From a consistent state with runnable parameters it never fails. |
| Workload.Populate | src/fsim/sim/workload_generators.py:186-203 | The initial population appends exactly `count` creates with configured sizes and keeps consistency. It never fails for runnable parameters. |
| Workload.Loop | src/fsim/sim/workload_generators.py:212-313 | The loop appends exactly `ops` operations and keeps consistency. From a consistent state with runnable parameters it never fails. |
| Workload.AddUser | src/fsim/sim/workload_generators.py:159-181 | A user entry is accepted exactly when it is a dict with a non-empty string name that is not taken and a positive int size; otherwise ValueError. It becomes a create. |
| Workload.AddUsers | src/fsim/sim/workload_generators.py:157-181 | The user files are accepted exactly when all are well formed and distinct, and become creates in the given order. |
| Workload.UsersStep | src/fsim/sim/workload_generators.py:159-181 | One more user entry is accepted exactly when the extended list is valid. |
| Workload.Generate | src/fsim/sim/workload_generators.py:98-315 | A parameter that does not convert raises its conversion error, and bad user files are ValueError. Runnable parameters with valid user files always give a workload. Runnable means both size ranges are usable by `randint` and `max_io_blocks >= 1`. Any output is well formed: user creates first and in order, the right number of operations, configured sizes, and a replay that succeeds from an empty catalog. |
| Workload.GenerateWith | src/fsim/sim/workload_generators.py:132-315 | With valid user files, the user creates, the population (unless `respect_user_files_only`) and the loop form a well-formed sequence. With runnable parameters this always succeeds, whatever the random stream. |
| Workload.Assemble | src/fsim/sim/workload_generators.py:157-313 | The three phases together give a well-formed sequence. |
| Workload.Populations | src/fsim/sim/workload_generators.py:186-203 | The small files, then the large ones, or nothing when only user files are wanted. It never fails for runnable parameters. |
| Manifests.RecordedSize | src/fsim/sim/runner.py:156-159 | The recorded size is at least 1, and it equals the requested size when that is positive. |
| Manifests.Update | src/fsim/sim/runner.py:154-193 | A create adds or resets the record of its name, keeping the counters. Other operations keep the names. Records of other names are untouched, and unknown operations change nothing. |
| Manifests.BuildDescribes | src/fsim/sim/runner.py:145-193 | After any operation list, the manifest has a record for exactly the names ever created. Each record describes the last create, the first later delete, `alive` as not deleted, and the reads and writes after the first create. |
| Manifests.DescribesStep | src/fsim/sim/runner.py:154-193 | One more operation keeps every record true. |
| Manifests.DescribesCreate | src/fsim/sim/runner.py:160-176 | A create starts a new history for its name and keeps its counters. |
| Manifests.DescribesKeep | src/fsim/sim/runner.py:179-193 | An operation that does not concern a record keeps it true. |
| Manifests.DescribesCount | src/fsim/sim/runner.py:179-186 | A read or write of a known name adds one to its counter. |
| Manifests.DescribesDelete | src/fsim/sim/runner.py:189-193 | The first delete after the last create stamps the record and marks it not alive. |
| Manifests.NeverCreated | src/fsim/sim/runner.py:181-186 | Reads and writes of a name never created are not counted. |
| Manifests.BelowTotal | src/fsim/sim/runner.py:281 | Any two names are ordered by Python's string comparison. |
| Manifests.BelowAntisymmetric | src/fsim/sim/runner.py:281 | Names ordered both ways are equal. |
| Manifests.BelowTransitive | src/fsim/sim/runner.py:281 | The name order is transitive. |
| Manifests.HasLeast | src/fsim/sim/runner.py:281 | A non-empty set of names has a least one. |
| Manifests.SortNames | src/fsim/sim/runner.py:281 | Sorting lists every name exactly once, in strictly ascending order. |
| Manifests.Listing | src/fsim/sim/runner.py:267-282 | The listing has one record per manifest entry, sorted by name, each with `alive` recomputed as "no deletion stamp". |
| Manifests.FinalManifest | src/fsim/sim/runner.py:145-282 | The reported manifest is sorted by name, lists exactly the names ever created, and each record describes the operations. |
| Manifests.ListingDescribes | src/fsim/sim/runner.py:267-268 | Recomputing `alive` keeps every record a true description of the operations. |
| Runner.Strategies | src/fsim/sim/runner.py:16-20 | A name other than contiguous, linked, indexed or all is a KeyError. "all" runs the three in registry order; any other name runs that one strategy. |
| Runner.BuildConfig | src/fsim/sim/runner.py:23-35 | A named scenario must exist (KeyError). Without a name the result is the overrides, and otherwise the overrides are applied last over the scenario. |
| Runner.NamedScenario | src/fsim/sim/runner.py:30-33 | A scenario from the file takes precedence over a built-in one of the same name. A built-in name is used otherwise, and an unknown name is KeyError. |
| Runner.SeeksCountJumps | src/fsim/sim/runner.py:41-47 | The seeks of a list are the positions where the next block is not the next on disk. |
| Runner.ConsecutiveNoSeeks | src/fsim/sim/runner.py:41-47 | A run of consecutive blocks costs no seek. |
| Runner.Observe | src/fsim/sim/runner.py:39-50 | One event adds its seeks to the counter, and adds its block count only when that is positive. |
| Runner.TallyAppend | src/fsim/sim/runner.py:146-150 | The counters add up over a split of one operation's events. |
| Runner.Score | src/fsim/sim/runner.py:150-208 | An operation is a hit exactly when the strategy call returned, and it is exactly one of hit and miss. Its counters are those of its own events. |
| Runner.LinkedCall | src/fsim/fs_strategies/linked.py:24-93 | Every call on the linked stub fails. |
| Runner.Apply | src/fsim/sim/runner.py:196-209 | Each operation is scored exactly once, as a hit or a miss. For each strategy and operation kind, the row records that strategy's call. The new state is the call's. The operation is a hit exactly when the call returned, and the counters are those of the call's events. The linked stub always misses. An unknown operation is a miss that calls nothing, and the strategy never changes. |
| Runner.Run | src/fsim/sim/runner.py:145-249 | One row per operation, in order, with the operation's kind, each scored exactly once. |
| Runner.TotalCountsEveryOp | src/fsim/sim/runner.py:255-264 | The TOTAL hits and misses add up to the number of operations. |
| Runner.DiskGeometry | src/fsim/sim/runner.py:103-116 | The disk size (default 50000) is clamped to 50000, and the block size defaults to 4096. A non-numeric value is TypeError and a non-positive one ValueError. |
| Runner.FreshStorage | src/fsim/sim/runner.py:112-127 | Each strategy starts from an all-absent disk of the configured geometry and an all-free bitmap of the same size. It fails exactly when the geometry fails or the block size truncates to zero. |
| Runner.SimulateOn | src/fsim/sim/runner.py:129-287 | A strategy's report has one row per operation, every operation counted once in the TOTAL row, and the manifest of the workload. |
| Runner.Prepare | src/fsim/sim/runner.py:82-93 | The strategy name is checked first, then the configuration is built, then the workload is generated once. |
| Runner.RunSimulation | src/fsim/sim/runner.py:68-287 | Every selected strategy replays the same operation list from the same fresh storage, and each report summarises that list. It fails only on a bad name, scenario, workload or geometry. |
| Runner.SimulateEach | src/fsim/sim/runner.py:103-287 | One report per strategy, in order, each from the same fresh storage. |
| Runner.ContiguousReadTally | src/fsim/fs_strategies/contiguous.py:86-106 | A successful contiguous read costs no seek and counts its blocks twice, once per event. |
| Runner.IndexedReadTally | src/fsim/fs_strategies/indexed.py:168-187 | A successful indexed read costs the seeks of its pointer slice and counts its blocks once. |

## Left out

- Clocks and timing: `perf_counter`, `process_time`, `time.sleep`, the per-operation times and the TOTAL row's averages.
- `_snapshot_state`: percentages for the results table, computed from members that are modelled here (`FreeSpace.OccupancyPct`, `FreeSpace.ExternalFragmentationRatio`).
- `metrics.py`: floating-point averages and standard deviations, outside the allocation logic.
- CSV and JSON output, `load_from_json` (the parsed scenario map is a parameter), the command line and the GUI.
- The `on_bitmap_update` observer. Events are modelled only as their name, physical list and block count, the fields the seek counter reads.
- The linked strategy: it ends in `NotImplementedError` after its argument checks, so there is no chain. The model keeps only the stub's observable behaviour (`Runner.LinkedCall`), with an empty catalog.
- `filesystem_base.py` defines neither the argument checks (`_assert_new_file`, `_assert_file_exists`, `_assert_positive_blocks`, `_assert_non_negative`, `_assert_range_within_size`) nor `_emit` and `on_event`. They are modelled from their names and call sites in the two strategies.
- Runtime `TypeError` checks on block payloads and indices: the static types rule them out.
- The Mersenne Twister: randomness is an explicit stream of draws, and an exhausted stream yields 0. `randint`, `random` and `choices` follow CPython's construction from raw draws, not its exact bit usage.
- `overhead_blocks`: a constant per strategy (0 and 1) that nothing reads, so the metadata records omit it.
- Runner.FreshStorage: Python checks `block_size > 0` on the raw value and then truncates with `int()`. A block size strictly between 0 and 1 therefore gives a zero-byte disk in Python. The model maps it to a ValueError, because its `NewDisk` re-checks the truncated size. `Runner.DiskGeometry` itself checks the raw value and then truncates, as Python does.
- Workload.SeqWeight: when an access pattern is not a dictionary, `.get` raises AttributeError in Python. The model reports TypeError; both mean that the generator fails.
- Runner.RunSimulation: the fix-up that recomputes `alive` at the end changes nothing, because the manifest already keeps `alive` equal to "no deletion stamp". `Manifests.Listing` applies it anyway.
- Names.NextUniqueName: Python retries with the same `existing` set. The model drops each name it finds taken before the next try, which gives the same answer (later counters give other names) and makes termination evident.
- Indexed.Create: the rollback is modelled for IOError, the only error the source catches there. It happens only for a pointer outside the signed 64-bit range, which an allocation on a disk of at most 50000 blocks never returns.
- Contiguous.Read: both events carry the physical list and the block count, so the blocks-touched counter counts a contiguous read or write twice. This is what the source does.
- Literals.ParseReal: a `float()` text denotes its exact decimal value. The rounding to the nearest binary double and the overflow to `inf` are not modelled. The texts `inf`, `infinity` and `nan` (any case, optionally signed) are rejected here, where Python accepts them.
- Literals.ParseInt: only ASCII digits and ASCII whitespace are recognised. Python also accepts other Unicode decimal digits and spaces.
- Workload.TupleOf: a dictionary is a TypeError here. Python's `tuple()` takes its keys in insertion order, which a map does not keep. Keys read from JSON are strings, so such a range then fails in `_rand_size` anyway.
- Workload.RandSize: the behaviour of `random.randint` in Python 3.12 is assumed, where any non-int bound is a TypeError. Python 3.10 and 3.11 accept an integral float such as `4.0` as its integer and raise ValueError for a non-integral one. Those versions are not modelled.
- Workload.GenerateWith: success is proved for runnable parameters only. A size range that is never drawn from also goes unnoticed in Python and in the model, but no lemma states that case.

=== FILE: bitmap.dfy ===
/** Pure facts about the free-space bitmap: `true` marks a used block and
    `false` a free one. Counting, bulk updates, the ascending list of free
    indices and the maximal free runs are defined here once, together with
    the lemmas that relate them. */
module Bitmaps {

  type Bitmap = seq<bool>

  /** Number of used blocks in `[lo, hi)`. */
  function UsedBetween(bm: Bitmap, lo: nat, hi: nat): (r: nat)
    requires lo <= hi <= |bm|
    ensures r <= hi - lo
    decreases hi - lo
  {
    if lo == hi then 0 else (if bm[lo] then 1 else 0) + UsedBetween(bm, lo + 1, hi)
  }

  /** `FreeSpaceManager.used_count`: the sum of the bitmap. */
  function UsedCount(bm: Bitmap): (r: nat)
    ensures r <= |bm|
  {
    UsedBetween(bm, 0, |bm|)
  }

  /** `FreeSpaceManager.free_count`. */
  function FreeCount(bm: Bitmap): (r: nat)
    ensures r + UsedCount(bm) == |bm|
  {
    |bm| - UsedCount(bm)
  }

  lemma {:induction false} UsedBetweenSplit(bm: Bitmap, lo: nat, mid: nat, hi: nat)
    requires lo <= mid <= hi <= |bm|
    ensures UsedBetween(bm, lo, hi) == UsedBetween(bm, lo, mid) + UsedBetween(bm, mid, hi)
    decreases mid - lo
  {
    if lo < mid {
      UsedBetweenSplit(bm, lo + 1, mid, hi);
    }
  }

  lemma {:induction false} UsedBetweenSame(bm: Bitmap, bm': Bitmap, lo: nat, hi: nat)
    requires lo <= hi <= |bm| && hi <= |bm'|
    requires forall k :: lo <= k < hi ==> bm[k] == bm'[k]
    ensures UsedBetween(bm, lo, hi) == UsedBetween(bm', lo, hi)
    decreases hi - lo
  {
    if lo < hi {
      UsedBetweenSame(bm, bm', lo + 1, hi);
    }
  }

  /** Flipping one bit changes the used count by exactly one. */
  lemma UsedCountFlip(bm: Bitmap, i: nat, v: bool)
    requires i < |bm| && bm[i] == !v
    ensures UsedCount(bm[i := v]) == if v then UsedCount(bm) + 1 else UsedCount(bm) - 1
  {
    var bm' := bm[i := v];
    UsedBetweenSplit(bm, 0, i, |bm|);
    UsedBetweenSplit(bm', 0, i, |bm|);
    UsedBetweenSplit(bm, i, i + 1, |bm|);
    UsedBetweenSplit(bm', i, i + 1, |bm|);
    UsedBetweenSame(bm, bm', 0, i);
    UsedBetweenSame(bm, bm', i + 1, |bm|);
  }

  /** An all-free bitmap has no used block in any suffix. */
  lemma {:induction false} UsedBetweenZero(bm: Bitmap, lo: nat)
    requires lo <= |bm|
    requires forall j :: 0 <= j < |bm| ==> !bm[j]
    ensures UsedBetween(bm, lo, |bm|) == 0
    decreases |bm| - lo
  {
    if lo < |bm| {
      UsedBetweenZero(bm, lo + 1);
    }
  }

  predicate IndicesIn(bm: Bitmap, idxs: seq<int>) {
    forall k :: 0 <= k < |idxs| ==> 0 <= idxs[k] < |bm|
  }

  predicate Distinct(s: seq<int>) {
    forall i, j :: 0 <= i < j < |s| ==> s[i] != s[j]
  }

  /** Sets each listed bit to `v`, one after another, as `_set_used` and
      `_set_free` do in the source's loops. */
  function SetBits(bm: Bitmap, idxs: seq<int>, v: bool): (r: Bitmap)
    requires IndicesIn(bm, idxs)
    ensures |r| == |bm|
    ensures forall j :: 0 <= j < |bm| ==> r[j] == (if j in idxs then v else bm[j])
    decreases |idxs|
  {
    if idxs == [] then bm
    else
      var r := SetBits(bm[idxs[0] := v], idxs[1..], v);
      assert forall j :: j in idxs <==> j == idxs[0] || j in idxs[1..];
      r
  }

  /** Setting `|idxs|` distinct bits that all held `!v` moves the used count
      by exactly `|idxs|`. */
  lemma {:induction false} SetBitsCount(bm: Bitmap, idxs: seq<int>, v: bool)
    requires IndicesIn(bm, idxs) && Distinct(idxs)
    requires forall k :: 0 <= k < |idxs| ==> bm[idxs[k]] == !v
    ensures UsedCount(SetBits(bm, idxs, v)) == if v then UsedCount(bm) + |idxs| else UsedCount(bm) - |idxs|
    decreases |idxs|
  {
    if idxs != [] {
      var bm' := bm[idxs[0] := v];
      UsedCountFlip(bm, idxs[0], v);
      assert forall k :: 0 <= k < |idxs[1..]| ==> idxs[1..][k] == idxs[k + 1] && idxs[k + 1] != idxs[0];
      SetBitsCount(bm', idxs[1..], v);
    }
  }

  /** Undoing a bulk update: setting bits back to their common prior value
      restores the bitmap exactly. */
  lemma SetBitsUndo(bm: Bitmap, idxs: seq<int>, undo: seq<int>, v: bool)
    requires IndicesIn(bm, idxs) && IndicesIn(bm, undo)
    requires forall j :: j in idxs <==> j in undo
    requires forall k :: 0 <= k < |idxs| ==> bm[idxs[k]] == !v
    ensures SetBits(SetBits(bm, idxs, v), undo, !v) == bm
  {
    var r := SetBits(SetBits(bm, idxs, v), undo, !v);
    assert forall j :: 0 <= j < |bm| ==> r[j] == bm[j];
  }

  // ---------------------------------------------------------------------
  // Free indices and free runs
  // ---------------------------------------------------------------------

  /** All `n` blocks `[s, s+n)` exist and are free. */
  predicate FreeRun(bm: Bitmap, s: int, n: int) {
    0 <= s && 0 <= n && s + n <= |bm| && forall k :: s <= k < s + n ==> !bm[k]
  }

  predicate Increasing(s: seq<int>) {
    forall i, j :: 0 <= i < j < |s| ==> s[i] < s[j]
  }

  /** The free indices at or after `i`, ascending: the reference list that
      scattered allocation takes its prefix of. */
  function FreeList(bm: Bitmap, i: nat): (r: seq<int>)
    requires i <= |bm|
    ensures |r| == (|bm| - i) - UsedBetween(bm, i, |bm|)
    ensures Increasing(r)
    ensures forall k :: 0 <= k < |r| ==> i <= r[k] < |bm| && !bm[r[k]]
    ensures forall j :: i <= j < |bm| && !bm[j] ==> j in r
    decreases |bm| - i
  {
    if i == |bm| then [] else (if bm[i] then [] else [i]) + FreeList(bm, i + 1)
  }

  lemma FreeListLength(bm: Bitmap)
    ensures |FreeList(bm, 0)| == FreeCount(bm)
  {}

  /** Number of consecutive free blocks starting at `i`. */
  function RunLength(bm: Bitmap, i: nat): (r: nat)
    requires i <= |bm|
    ensures FreeRun(bm, i, r)
    ensures i + r == |bm| || bm[i + r]
    decreases |bm| - i
  {
    if i == |bm| || bm[i] then 0 else 1 + RunLength(bm, i + 1)
  }

  datatype Run = Run(start: nat, length: nat)

  /** A maximal free run: non-empty, free, bounded by used blocks or the
      ends of the bitmap. */
  predicate MaximalRun(bm: Bitmap, run: Run) {
    && run.length > 0
    && FreeRun(bm, run.start, run.length)
    && (run.start == 0 || bm[run.start - 1])
    && (run.start + run.length == |bm| || bm[run.start + run.length])
  }

  /** Runs in ascending order, each ending at least one block before any
      later one starts. */
  predicate Separated(runs: seq<Run>) {
    forall a, b :: 0 <= a < b < |runs| ==> runs[a].start + runs[a].length < runs[b].start
  }

  predicate InRun(run: Run, j: int) {
    run.start <= j < run.start + run.length
  }

  predicate Covered(runs: seq<Run>, j: int) {
    exists k :: 0 <= k < |runs| && InRun(runs[k], j)
  }

  function SumLengths(runs: seq<Run>): nat {
    if runs == [] then 0 else runs[0].length + SumLengths(runs[1..])
  }

  /** The maximal free runs at or after `i`, where block `i - 1` (if any) is
      used, so the first run found is maximal on its left. */
  function RunsFrom(bm: Bitmap, i: nat): seq<Run>
    requires i == 0 || i > |bm| || bm[i - 1]
    decreases |bm| + 1 - i
  {
    if i >= |bm| then []
    else if bm[i] then RunsFrom(bm, i + 1)
    else
      var l := RunLength(bm, i);
      [Run(i, l)] + RunsFrom(bm, i + l + 1)
  }

  /** The runs found at or after `i` are maximal, start at or after `i`,
      and come in ascending, separated order. */
  lemma {:induction false} RunsFromMaximal(bm: Bitmap, i: nat)
    requires i == 0 || i > |bm| || bm[i - 1]
    ensures var r := RunsFrom(bm, i);
            && (forall k :: 0 <= k < |r| ==> MaximalRun(bm, r[k]) && r[k].start >= i)
            && Separated(r)
    decreases |bm| + 1 - i, 1
  {
    if i < |bm| {
      if bm[i] {
        RunsFromAtUsed(bm, i);
        RunsFromMaximal(bm, i + 1);
      } else {
        RunMaximal(bm, i);
      }
    }
  }

  /** The case where a run starts at `i`. */
  lemma {:induction false} RunMaximal(bm: Bitmap, i: nat)
    requires i < |bm| && !bm[i] && (i == 0 || bm[i - 1])
    ensures var r := RunsFrom(bm, i);
            && (forall k :: 0 <= k < |r| ==> MaximalRun(bm, r[k]) && r[k].start >= i)
            && Separated(r)
    decreases |bm| + 1 - i, 0
  {
    var l := RunLength(bm, i);
    RunsFromAtRun(bm, i);
    RunsFromMaximal(bm, i + l + 1);
    assert MaximalRun(bm, Run(i, l));
    SeparatedCons(bm, Run(i, l), RunsFrom(bm, i + l + 1), i + l + 1);
  }

  lemma SeparatedCons(bm: Bitmap, run: Run, rest: seq<Run>, from: nat)
    requires MaximalRun(bm, run) && run.start + run.length < from
    requires forall k :: 0 <= k < |rest| ==> MaximalRun(bm, rest[k]) && rest[k].start >= from
    requires Separated(rest)
    ensures forall k :: 0 <= k < |[run] + rest| ==> MaximalRun(bm, ([run] + rest)[k]) && ([run] + rest)[k].start >= run.start
    ensures Separated([run] + rest)
  {
    var r := [run] + rest;
    assert forall k :: 1 <= k < |r| ==> r[k] == rest[k - 1];
  }

  lemma RunsFromAtRun(bm: Bitmap, i: nat)
    requires i < |bm| && (i == 0 || bm[i - 1]) && !bm[i]
    ensures RunsFrom(bm, i) == [Run(i, RunLength(bm, i))] + RunsFrom(bm, i + RunLength(bm, i) + 1)
  {}

  lemma RunsFromAtUsed(bm: Bitmap, i: nat)
    requires i < |bm| && (i == 0 || bm[i - 1]) && bm[i]
    ensures RunsFrom(bm, i) == RunsFrom(bm, i + 1)
  {}

  /** Every free block at or after `i` lies in one of the runs found: the
      run at position `k`. */
  lemma {:induction false} RunsFromCover(bm: Bitmap, i: nat, j: int) returns (k: nat)
    requires i == 0 || i > |bm| || bm[i - 1]
    requires i <= j < |bm| && !bm[j]
    ensures k < |RunsFrom(bm, i)| && InRun(RunsFrom(bm, i)[k], j)
    decreases |bm| + 1 - i, 1
  {
    if bm[i] {
      RunsFromAtUsed(bm, i);
      k := RunsFromCover(bm, i + 1, j);
    } else {
      k := RunCover(bm, i, j);
    }
  }

  /** The case where a run starts at `i`. */
  lemma {:induction false} RunCover(bm: Bitmap, i: nat, j: int) returns (k: nat)
    requires i <= j < |bm| && !bm[j] && !bm[i]
    requires i == 0 || bm[i - 1]
    ensures k < |RunsFrom(bm, i)| && InRun(RunsFrom(bm, i)[k], j)
    decreases |bm| + 1 - i, 0
  {
    var l := RunLength(bm, i);
    var rest := RunsFrom(bm, i + l + 1);
    RunsFromAtRun(bm, i);
    if j < i + l {
      k := 0;
    } else {
      var k' := RunsFromCover(bm, i + l + 1, j);
      k := k' + 1;
      assert ([Run(i, l)] + rest)[k] == rest[k'];
    }
  }

  /** The runs found at or after `i` add up to the free blocks there. */
  lemma {:induction false} RunsFromSum(bm: Bitmap, i: nat)
    requires i == 0 || i > |bm| || bm[i - 1]
    ensures SumLengths(RunsFrom(bm, i)) == FreeAfter(bm, i)
    decreases |bm| + 1 - i, 1
  {
    if i < |bm| {
      if bm[i] {
        RunsFromAtUsed(bm, i);
        RunsFromSum(bm, i + 1);
        UsedBetweenSplit(bm, i, i + 1, |bm|);
      } else {
        RunSum(bm, i);
      }
    }
  }

  /** The case where a run starts at `i`. */
  lemma {:induction false} RunSum(bm: Bitmap, i: nat)
    requires i < |bm| && !bm[i] && (i == 0 || bm[i - 1])
    ensures SumLengths(RunsFrom(bm, i)) == FreeAfter(bm, i)
    decreases |bm| + 1 - i, 0
  {
    var l := RunLength(bm, i);
    RunsFromAtRun(bm, i);
    SumCons(Run(i, l), RunsFrom(bm, i + l + 1));
    RunsFromSum(bm, i + l + 1);
    FreeAfterRun(bm, i, l);
  }

  /** The free blocks at or after `i`. */
  function FreeAfter(bm: Bitmap, i: nat): nat {
    if i >= |bm| then 0 else (|bm| - i) - UsedBetween(bm, i, |bm|)
  }

  lemma SumCons(run: Run, rest: seq<Run>)
    ensures SumLengths([run] + rest) == run.length + SumLengths(rest)
  {
    assert ([run] + rest)[1..] == rest;
  }

  /** A maximal run starting at `i` accounts for its own length of the
      free blocks from `i` on; the used block after it for none. */
  lemma FreeAfterRun(bm: Bitmap, i: nat, l: nat)
    requires FreeRun(bm, i, l) && (i + l == |bm| || bm[i + l])
    ensures FreeAfter(bm, i) == l + FreeAfter(bm, i + l + 1)
  {
    if i < |bm| {
      UsedBetweenSplit(bm, i, i + l, |bm|);
      FreeRunUnused(bm, i, l);
      if i + l < |bm| {
        UsedBetweenSplit(bm, i + l, i + l + 1, |bm|);
        assert UsedBetween(bm, i + l, i + l + 1) == 1;
      }
    }
  }

  lemma {:induction false} FreeRunUnused(bm: Bitmap, s: nat, n: nat)
    requires FreeRun(bm, s, n)
    ensures UsedBetween(bm, s, s + n) == 0
    decreases n
  {
    if n > 0 {
      FreeRunUnused(bm, s + 1, n - 1);
    }
  }

  /** `FreeSpaceManager.free_runs`: the maximal free runs as (start, length),
      in ascending start order. */
  function FreeRuns(bm: Bitmap): (r: seq<Run>)
    ensures forall k :: 0 <= k < |r| ==> MaximalRun(bm, r[k])
    ensures Separated(r)
  {
    RunsFromMaximal(bm, 0);
    RunsFrom(bm, 0)
  }

  /** Every free block lies in some free run. */
  lemma FreeRunsCover(bm: Bitmap, j: int)
    requires 0 <= j < |bm| && !bm[j]
    ensures Covered(FreeRuns(bm), j)
  {
    var k := RunsFromCover(bm, 0, j);
  }

  /** The lengths of the free runs sum to the free count. */
  lemma FreeRunsSum(bm: Bitmap)
    ensures SumLengths(FreeRuns(bm)) == FreeCount(bm)
  {
    RunsFromSum(bm, 0);
  }

  function MaxLength(runs: seq<Run>): (r: nat)
    ensures forall k :: 0 <= k < |runs| ==> runs[k].length <= r
    ensures runs == [] ==> r == 0
    ensures runs != [] ==> exists k :: 0 <= k < |runs| && runs[k].length == r
  {
    if runs == [] then 0
    else
      var m := MaxLength(runs[1..]);
      assert forall k :: 1 <= k < |runs| ==> runs[k] == runs[1..][k - 1];
      if runs[0].length >= m then runs[0].length else m
  }

  /** `FreeSpaceManager.largest_free_run_size`: 0 without free runs. */
  function LargestFreeRun(bm: Bitmap): nat {
    MaxLength(FreeRuns(bm))
  }

  lemma {:induction false} MaxAtMostSum(runs: seq<Run>)
    ensures MaxLength(runs) <= SumLengths(runs)
  {
    if runs != [] {
      MaxAtMostSum(runs[1..]);
    }
  }

  /** The largest run is bounded by the free count and is 0 exactly when no
      block is free. */
  lemma LargestRunBounds(bm: Bitmap)
    ensures LargestFreeRun(bm) <= FreeCount(bm)
    ensures LargestFreeRun(bm) == 0 <==> FreeCount(bm) == 0
  {
    var runs := FreeRuns(bm);
    MaxAtMostSum(runs);
    FreeRunsSum(bm);
    if FreeCount(bm) > 0 {
      FreeListLength(bm);
      var j := FreeList(bm, 0)[0];
      FreeRunsCover(bm, j);
    }
  }

  /** A free run of `n` blocks lies inside one maximal run. */
  lemma RunInsideMaximal(bm: Bitmap, s: int, n: int) returns (k: nat)
    requires FreeRun(bm, s, n) && n > 0
    ensures k < |FreeRuns(bm)|
    ensures FreeRuns(bm)[k].start <= s && s + n <= FreeRuns(bm)[k].start + FreeRuns(bm)[k].length
  {
    var runs := FreeRuns(bm);
    assert !bm[s];
    FreeRunsCover(bm, s);
    k :| 0 <= k < |runs| && runs[k].start <= s < runs[k].start + runs[k].length;
    var e := runs[k].start + runs[k].length;
    assert MaximalRun(bm, runs[k]);
    if e < |bm| {
      assert bm[e];
      assert !(s <= e < s + n);
    }
  }

  /** Some `n` consecutive free blocks exist exactly when `n` does not exceed
      the largest free run. */
  lemma FitIffLargest(bm: Bitmap, n: int)
    requires n > 0
    ensures (exists s :: FreeRun(bm, s, n)) <==> n <= LargestFreeRun(bm)
  {
    var runs := FreeRuns(bm);
    if exists s :: FreeRun(bm, s, n) {
      var s :| FreeRun(bm, s, n);
      var k := RunInsideMaximal(bm, s, n);
    }
    if n <= LargestFreeRun(bm) {
      var k :| 0 <= k < |runs| && runs[k].length == LargestFreeRun(bm);
      assert MaximalRun(bm, runs[k]);
      assert FreeRun(bm, runs[k].start, n);
    }
  }
}

=== FILE: block.dfy ===
/** One block of the simulated disk: its index and an optional payload.
    An absent payload (never written, or cleared) is kept distinct from a
    present payload of zero bytes. */
module Blocks {
  import opened Wrappers
  import opened Codec

  datatype Block = Block(index: int, data: Option<Bytes>)

  /** `Block.is_empty`: nothing stored, or zero bytes stored. */
  predicate IsEmpty(b: Block) {
    b.data.None? || |b.data.value| == 0
  }

  /** `Block.size_bytes`. */
  function SizeBytes(b: Block): (r: nat)
    ensures r == 0 <==> IsEmpty(b)
    ensures b.data.Some? ==> r == |b.data.value|
  {
    match b.data
    case None => 0
    case Some(p) => |p|
  }

  /** `Block.clear`: the payload becomes absent. */
  function Clear(b: Block): (r: Block)
    ensures r.index == b.index
    ensures r.data.None? && IsEmpty(r) && SizeBytes(r) == 0
  {
    b.(data := None)
  }

  /** `Block.set_bytes`: `None` clears, a payload is stored exactly. */
  function SetBytes(b: Block, payload: Option<Bytes>): (r: Block)
    ensures payload.None? ==> r == Clear(b)
    ensures payload.Some? ==> r.index == b.index && r.data == payload && SizeBytes(r) == |payload.value|
  {
    b.(data := payload)
  }

  /** `Block.fill_zeros(k)`: exactly `k` zero bytes; ValueError for negative `k`. */
  function FillZeros(b: Block, k: int): (r: Result<Block>)
    ensures r.Ok? <==> k >= 0
    ensures r.Err? ==> r.error == ValueError
    ensures r.Ok? ==> r.value.index == b.index && SizeBytes(r.value) == k
    ensures r.Ok? ==> r.value.data.Some? && forall i :: 0 <= i < k ==> r.value.data.value[i] == 0
    ensures r.Ok? ==> (IsEmpty(r.value) <==> k == 0)
  {
    if k < 0 then Err(ValueError) else Ok(b.(data := Some(Zeros(k))))
  }

  /** `Block.write_partial`: with a `blockSize` the payload must fit (and the
      size must not be negative), and `pad` fills the rest of the block with
      zeros; without a `blockSize` the payload is stored verbatim. */
  function WritePartial(b: Block, payload: Bytes, blockSize: Option<int>, pad: bool): (r: Result<Block>)
    ensures r.Ok? <==> blockSize.None? || (blockSize.value >= 0 && |payload| <= blockSize.value)
    ensures r.Err? ==> r.error == ValueError
    ensures r.Ok? ==> r.value.index == b.index && r.value.data.Some?
    ensures r.Ok? ==> |payload| <= |r.value.data.value| && r.value.data.value[..|payload|] == payload
    ensures r.Ok? && blockSize.Some? && pad ==>
              |r.value.data.value| == blockSize.value
              && forall i :: |payload| <= i < blockSize.value ==> r.value.data.value[i] == 0
    ensures r.Ok? && !(blockSize.Some? && pad) ==> r.value.data.value == payload
  {
    match blockSize
    case None => Ok(b.(data := Some(payload)))
    case Some(size) =>
      if size < 0 || |payload| > size then Err(ValueError)
      else if pad && |payload| < size then Ok(b.(data := Some(payload + Zeros(size - |payload|))))
      else Ok(b.(data := Some(payload)))
  }
}

=== FILE: codec.dfy ===
/** Bytes and the fixed-width pointer codec used by the indexed strategy.
    A pointer is packed as an 8-byte big-endian two's-complement integer,
    the layout of the Python `struct` format `!q`; a pointer table is the
    concatenation of its packed pointers. */
module Codec {
  import opened Wrappers

  type byte = b: int | 0 <= b < 256
  type Bytes = seq<byte>

  /** Width of one packed pointer, `struct.calcsize("q")`. */
  const POINTER_SIZE: nat := 8

  const INT64_MIN: int := -0x8000_0000_0000_0000
  const INT64_MAX: int := 0x7FFF_FFFF_FFFF_FFFF

  predicate InInt64(x: int) {
    INT64_MIN <= x <= INT64_MAX
  }

  function Zeros(k: nat): (r: Bytes)
    ensures |r| == k
    ensures forall i :: 0 <= i < k ==> r[i] == 0
  {
    seq(k, _ => 0)
  }

  function Pow256(k: nat): (r: nat)
    ensures r > 0
  {
    if k == 0 then 1 else 256 * Pow256(k - 1)
  }

  /** The `width` low-order base-256 digits of `n`, most significant first. */
  function EncodeUnsigned(n: nat, width: nat): (r: Bytes)
    ensures |r| == width
  {
    if width == 0 then [] else EncodeUnsigned(n / 256, width - 1) + [n % 256]
  }

  /** The unsigned value of a big-endian byte string. */
  function DecodeUnsigned(bs: Bytes): (r: nat)
    ensures r < Pow256(|bs|)
  {
    if |bs| == 0 then 0
    else
      var hi := DecodeUnsigned(bs[..|bs| - 1]);
      assert hi <= Pow256(|bs| - 1) - 1;
      assert hi * 256 <= Pow256(|bs|) - 256;
      hi * 256 + bs[|bs| - 1]
  }

  lemma {:induction false} DecodeEncodeUnsigned(n: nat, width: nat)
    requires n < Pow256(width)
    ensures DecodeUnsigned(EncodeUnsigned(n, width)) == n
  {
    if width > 0 {
      var e := EncodeUnsigned(n, width);
      assert e[..width - 1] == EncodeUnsigned(n / 256, width - 1);
      assert n / 256 < Pow256(width - 1);
      DecodeEncodeUnsigned(n / 256, width - 1);
    }
  }

  lemma {:induction false} EncodeDecodeUnsigned(bs: Bytes)
    ensures EncodeUnsigned(DecodeUnsigned(bs), |bs|) == bs
  {
    if |bs| > 0 {
      var front := bs[..|bs| - 1];
      var n := DecodeUnsigned(bs);
      assert n / 256 == DecodeUnsigned(front);
      assert n % 256 == bs[|bs| - 1];
      EncodeDecodeUnsigned(front);
      assert bs == front + [bs[|bs| - 1]];
    }
  }

  /** `struct.pack("!q", x)`. */
  function EncodeInt64(x: int): (r: Bytes)
    requires InInt64(x)
    ensures |r| == POINTER_SIZE
  {
    EncodeUnsigned(if x < 0 then x + Pow256(8) else x, 8)
  }

  /** `struct.unpack("!q", bs)`. */
  function DecodeInt64(bs: Bytes): (r: int)
    requires |bs| == POINTER_SIZE
    ensures InInt64(r)
  {
    var u := DecodeUnsigned(bs);
    if u > INT64_MAX then u - Pow256(8) else u
  }

  lemma Int64RoundTrip(x: int)
    requires InInt64(x)
    ensures DecodeInt64(EncodeInt64(x)) == x
  {
    assert Pow256(8) == 0x1_0000_0000_0000_0000;
    DecodeEncodeUnsigned(if x < 0 then x + Pow256(8) else x, 8);
  }

  /** Packs a pointer table; `struct.error` (reported as IOError) when a
      pointer does not fit in a signed 64-bit integer. */
  function EncodeTable(ptrs: seq<int>): (r: Result<Bytes>)
    ensures r.Ok? <==> forall i :: 0 <= i < |ptrs| ==> InInt64(ptrs[i])
    ensures r.Err? ==> r.error == IOError
    ensures r.Ok? ==> |r.value| == POINTER_SIZE * |ptrs|
  {
    if ptrs == [] then Ok([])
    else if !InInt64(ptrs[0]) then Err(IOError)
    else
      var rest :- EncodeTable(ptrs[1..]);
      Ok(EncodeInt64(ptrs[0]) + rest)
  }

  /** Unpacks consecutive 8-byte pointers. */
  function DecodeChunks(bs: Bytes): (r: seq<int>)
    requires |bs| % POINTER_SIZE == 0
    ensures |r| == |bs| / POINTER_SIZE
    ensures forall i :: 0 <= i < |r| ==> InInt64(r[i])
  {
    if |bs| == 0 then [] else [DecodeInt64(bs[..8])] + DecodeChunks(bs[8..])
  }

  /** `struct.unpack(f"!{count}q", data[:count * 8])`: the first `count`
      pointers of `data`, or IOError when `count` is negative or `data` is
      shorter than `count` pointers. */
  function DecodeTable(data: Bytes, count: int): (r: Result<seq<int>>)
    ensures r.Ok? <==> 0 <= count && POINTER_SIZE * count <= |data|
    ensures r.Err? ==> r.error == IOError
    ensures r.Ok? ==> |r.value| == count
  {
    if count < 0 || |data| < POINTER_SIZE * count then Err(IOError)
    else Ok(DecodeChunks(data[..POINTER_SIZE * count]))
  }

  lemma {:induction false} DecodeEncodeChunks(ptrs: seq<int>, e: Bytes)
    requires EncodeTable(ptrs) == Ok(e)
    ensures DecodeChunks(e) == ptrs
  {
    if ptrs != [] {
      var rest := EncodeTable(ptrs[1..]).value;
      assert e == EncodeInt64(ptrs[0]) + rest;
      assert e[..8] == EncodeInt64(ptrs[0]);
      assert e[8..] == rest;
      Int64RoundTrip(ptrs[0]);
      DecodeEncodeChunks(ptrs[1..], rest);
    }
  }

  /** Decoding the packed table, whatever follows it in the block, gives the
      pointers back. */
  lemma TableRoundTrip(ptrs: seq<int>, e: Bytes, padding: Bytes)
    requires EncodeTable(ptrs) == Ok(e)
    ensures DecodeTable(e + padding, |ptrs|) == Ok(ptrs)
  {
    assert (e + padding)[..POINTER_SIZE * |ptrs|] == e;
    DecodeEncodeChunks(ptrs, e);
  }
}

=== FILE: contiguous.dfy ===
/** Contiguous allocation: a file of `size_blocks` blocks occupies the
    first-fit run `[start, start + length)`, and logical block `k` lives in
    physical block `start + k`. */
module Contiguous {
  import opened Wrappers
  import opened Codec
  import opened Disks
  import opened Bitmaps
  import opened FreeSpace
  import opened FileSystems

  datatype ContigMeta = ContigMeta(sizeBlocks: int, start: int, length: int)

  type ContigFs = FsState<ContigMeta>

  function Length(m: ContigMeta): int {
    m.length
  }

  /** `ContiguousFS.create`: the name and size checks come before anything
      else; the allocator's first-fit run is recorded and its blocks are
      made absent one by one. */
  function Create(fs: ContigFs, name: string, size: int): (r: Step<ContigMeta, ()>)
    ensures name in fs.table ==> r == Step(fs, [], Err(FileExists))
    ensures name !in fs.table && size <= 0 ==> r == Step(fs, [], Err(ValueError))
    ensures name !in fs.table && size > 0 ==> |r.events| >= 1 && r.events[0] == Mark("create:start")
    ensures name !in fs.table && size > 0 && Allocate(fs.fsm, size, true).Err? ==>
              r == Step(fs, [Mark("create:start")], Err(MemoryError))
    ensures r.result.Ok? ==>
              && name !in fs.table && size > 0
              && Allocate(fs.fsm, size, true).Ok?
              && var s := Allocate(fs.fsm, size, true).value.indices[0];
                 && r.state.table == fs.table[name := ContigMeta(size, s, size)]
                 && r.state.fsm == Allocate(fs.fsm, size, true).value.fsm
    ensures r.result.Ok? ==> r.events == [Mark("create:start"), Mark("create:done")]
  {
    var check := Then(AssertNewFile(fs.table, name), AssertPositiveBlocks(size));
    if check.Fail? then Step(fs, [], Err(check.error))
    else
      var started := [Mark("create:start")];
      match Allocate(fs.fsm, size, true)
      case Err(e) => Step(fs, started, Err(e))
      case Ok(a) =>
        var s := a.indices[0];
        var fs1 := fs.(fsm := a.fsm, table := fs.table[name := ContigMeta(size, s, size)]);
        var written := WriteEach(fs.disk, a.indices, Absent(size));
        var fs2 := fs1.(disk := written.0);
        if written.1.Fail? then Step(fs2, started, Err(written.1.error))
        else Step(fs2, started + [Mark("create:done")], Ok(()))
  }

  /** `None` for each of `n` blocks. */
  function Absent(n: nat): (r: seq<Option<Bytes>>)
    ensures |r| == n && forall k :: 0 <= k < n ==> r[k].None?
  {
    seq(n, _ => None)
  }

  /** `ContiguousFS.delete`: frees `range(start, start + length)`; if the
      manager refuses, the error propagates and the entry stays. */
  function Delete(fs: ContigFs, name: string): (r: Step<ContigMeta, ()>)
    ensures name !in fs.table ==> r == Step(fs, [], Err(FileNotFound))
    ensures name in fs.table ==> |r.events| >= 1 && r.events[0] == Mark("delete:start")
    ensures name in fs.table ==>
              var m := fs.table[name];
              var freed := Free(fs.fsm, PyRange(m.start, m.start + m.length));
              && (freed.Err? ==> r.state == fs && r.result == Err(freed.error) && r.events == [Mark("delete:start")])
              && (freed.Ok? ==> r.result.Ok? && r.state == fs.(fsm := freed.value, table := fs.table - {name})
                                && r.events == [Mark("delete:start"), Mark("delete:done")])
    ensures r.state.disk == fs.disk
  {
    if AssertFileExists(fs.table, name).Fail? then Step(fs, [], Err(FileNotFound))
    else
      var m := fs.table[name];
      var started := [Mark("delete:start")];
      match Free(fs.fsm, PyRange(m.start, m.start + m.length))
      case Err(e) => Step(fs, started, Err(e))
      case Ok(f) => Step(fs.(fsm := f, table := fs.table - {name}), started + [Mark("delete:done")], Ok(()))
  }

  /** `ContiguousFS._resolve_range`: after the existence, offset, count and
      range checks, the physical blocks `start + offset, ..., start + offset
      + n - 1`. */
  function ResolveRange(fs: ContigFs, name: string, offset: int, n: int): (r: Result<seq<int>>)
    ensures r.Ok? <==> name in fs.table && offset >= 0 && n > 0 && offset + n <= fs.table[name].sizeBlocks
    ensures r.Err? ==> r.error == (if name !in fs.table then FileNotFound else ValueError)
    ensures r.Ok? ==> |r.value| == n && forall k :: 0 <= k < n ==> r.value[k] == fs.table[name].start + offset + k
  {
    match AssertFileExists(fs.table, name)
    case Fail(e) => Err(e)
    case Pass =>
      :- Then(Then(AssertNonNegative(offset), AssertPositiveBlocks(n)),
              AssertRangeWithinSize(fs.table[name].sizeBlocks, offset, n));
      Ok(PyRange(fs.table[name].start + offset, fs.table[name].start + offset + n))
  }

  /** `ContiguousFS.read`: nothing changes; absent blocks read as `b""`.
      Both events carry the physical list and the block count. */
  function Read(fs: ContigFs, name: string, offset: int, n: int): (r: Step<ContigMeta, seq<Bytes>>)
    ensures r.state == fs
    ensures ResolveRange(fs, name, offset, n).Err? ==> r.events == [] && r.result == Err(ResolveRange(fs, name, offset, n).error)
    ensures ResolveRange(fs, name, offset, n).Ok? ==>
              var phys := ResolveRange(fs, name, offset, n).value;
              && |r.events| >= 1 && r.events[0] == Event("read:start", phys, n)
              && (r.result.Ok? <==> AllInRange(fs.disk, phys))
              && (r.result.Ok? ==>
                    && r.events == [Event("read:start", phys, n), Event("read:done", phys, n)]
                    && |r.result.value| == n
                    && forall k :: 0 <= k < n ==> r.result.value[k] == OrEmpty(Payload(fs.disk, phys[k])))
              && (r.result.Err? ==> r.events == [Event("read:start", phys, n)] && r.result.error == IndexError)
  {
    match ResolveRange(fs, name, offset, n)
    case Err(e) => Step(fs, [], Err(e))
    case Ok(phys) =>
      var started := Event("read:start", phys, n);
      match ReadBlocks(fs.disk, phys)
      case Err(e) => Step(fs, [started], Err(e))
      case Ok(ps) =>
        Step(fs, [started, Event("read:done", phys, n)],
             Ok(seq(|ps|, k requires 0 <= k < |ps| => OrEmpty(ps[k]))))
  }

  /** The payload list of a write: `[b""] * n` without data, else the data. */
  function WritePayloads(n: int, data: Option<seq<Option<Bytes>>>): seq<Option<Bytes>> {
    if data.None? then EmptyPayloads(n) else data.value
  }

  /** `ContiguousFS.write`: after the checks and the start event, a data
      count other than `n` is a ValueError; otherwise one all-or-nothing
      `write_blocks`. */
  function Write(fs: ContigFs, name: string, offset: int, n: int, data: Option<seq<Option<Bytes>>>): (r: Step<ContigMeta, ()>)
    ensures r.state.fsm == fs.fsm && r.state.table == fs.table
    ensures ResolveRange(fs, name, offset, n).Err? ==> r == Step(fs, [], Err(ResolveRange(fs, name, offset, n).error))
    ensures ResolveRange(fs, name, offset, n).Ok? ==>
              var phys := ResolveRange(fs, name, offset, n).value;
              var payloads := WritePayloads(n, data);
              && |r.events| >= 1 && r.events[0] == Event("write:start", phys, n)
              && (r.result.Ok? <==> |payloads| == n && AllInRange(fs.disk, phys) && Fits(fs.disk, payloads))
              && (r.result.Err? ==> r.state == fs && r.events == [Event("write:start", phys, n)])
              && (|payloads| != n ==> r.result == Err(ValueError))
              && (|payloads| == n && r.result.Err? ==>
                    r.result.error == (if AllInRange(fs.disk, phys) then ValueError else IndexError))
              && (r.result.Ok? ==>
                    && r.state.disk == StoreAll(fs.disk, phys, payloads)
                    && r.events == [Event("write:start", phys, n), Event("write:done", phys, n)])
  {
    match ResolveRange(fs, name, offset, n)
    case Err(e) => Step(fs, [], Err(e))
    case Ok(phys) =>
      var started := Event("write:start", phys, n);
      var payloads := WritePayloads(n, data);
      if |payloads| != n then Step(fs, [started], Err(ValueError))
      else
        match WriteBlocks(fs.disk, phys, payloads)
        case Err(e) => Step(fs, [started], Err(e))
        case Ok(d) => Step(fs.(disk := d), [started, Event("write:done", phys, n)], Ok(()))
  }

  // ---------------------------------------------------------------------
  // The catalog invariant
  // ---------------------------------------------------------------------

  /** A file's run lies on the bitmap and is marked used. */
  ghost predicate Placed(bm: Bitmap, m: ContigMeta) {
    && m.sizeBlocks == m.length > 0
    && 0 <= m.start && m.start + m.length <= |bm|
    && forall k :: m.start <= k < m.start + m.length ==> bm[k]
  }

  predicate Disjoint(a: ContigMeta, b: ContigMeta) {
    a.start + a.length <= b.start || b.start + b.length <= a.start
  }

  /** Every file owns its own run, runs do not overlap, and the bitmap's
      used count is the total length of the live files. */
  ghost predicate Inv(fs: ContigFs) {
    && Valid(fs.disk)
    && fs.fsm.NBlocks() == NBlocks(fs.disk)
    && (forall name :: name in fs.table ==> Placed(fs.fsm.bitmap, fs.table[name]))
    && (forall a, b :: a in fs.table && b in fs.table && a != b ==> Disjoint(fs.table[a], fs.table[b]))
    && UsedCount(fs.fsm.bitmap) == SumOver(fs.table, Length)
  }

  /** A fresh disk with an empty bitmap of the same size and an empty
      catalog satisfies the invariant. */
  lemma FreshInv(d: Disk)
    requires Valid(d)
    ensures Inv(NewFs(d, NewFsm(NBlocks(d), []).value))
  {
    var f := NewFsm(NBlocks(d), []).value;
    UsedBetweenZero(f.bitmap, 0);
  }

  /** What a successful contiguous allocation does to the bitmap, in terms
      of the run it returns. */
  lemma ContigAllocation(f: Fsm, n: int)
    requires Allocate(f, n, true).Ok?
    ensures var a := Allocate(f, n, true).value;
            var s := a.indices[0];
            && n > 0 && a.indices == Range(s, n)
            && FreeRun(f.bitmap, s, n)
            && |a.fsm.bitmap| == |f.bitmap|
            && (forall j :: 0 <= j < |f.bitmap| ==> a.fsm.bitmap[j] == (f.bitmap[j] || s <= j < s + n))
            && UsedCount(a.fsm.bitmap) == UsedCount(f.bitmap) + n
  {
    var a := Allocate(f, n, true).value;
    var s := a.indices[0];
    assert forall j :: j in a.indices <==> s <= j < s + n by {
      forall j | s <= j < s + n ensures j in a.indices {
        assert a.indices[j - s] == j;
      }
    }
    assert forall k :: 0 <= k < n ==> !f.bitmap[a.indices[k]];
    assert FreeRun(f.bitmap, s, n) by {
      forall j | s <= j < s + n ensures !f.bitmap[j] {
        assert a.indices[j - s] == j;
      }
    }
  }

  /** `create` keeps the invariant, and under it succeeds exactly when the
      name is new, the size positive and a run of that size is free; the
      new file's blocks are then absent. */
  lemma CreateKeepsInv(fs: ContigFs, name: string, size: int)
    requires Inv(fs)
    ensures Inv(Create(fs, name, size).state)
    ensures Create(fs, name, size).result.Ok? <==>
              name !in fs.table && size > 0 && exists s :: FreeRun(fs.fsm.bitmap, s, size)
    ensures Create(fs, name, size).result.Ok? ==>
              var m := Create(fs, name, size).state.table[name];
              forall k :: m.start <= k < m.start + size ==> ReadBlock(Create(fs, name, size).state.disk, k) == Ok(None)
  {
    if name !in fs.table && size > 0 && Allocate(fs.fsm, size, true).Ok? {
      CreateSucceeds(fs, name, size);
    }
  }

  lemma CreateSucceeds(fs: ContigFs, name: string, size: int)
    requires Inv(fs) && name !in fs.table && size > 0 && Allocate(fs.fsm, size, true).Ok?
    ensures Create(fs, name, size).result.Ok? && Inv(Create(fs, name, size).state)
    ensures var m := Create(fs, name, size).state.table[name];
            forall k :: m.start <= k < m.start + size ==> ReadBlock(Create(fs, name, size).state.disk, k) == Ok(None)
  {
    ContigAllocation(fs.fsm, size);
    var a := Allocate(fs.fsm, size, true).value;
    var s := a.indices[0];
    var m := ContigMeta(size, s, size);
    var t := fs.table[name := m];
    CreateWrites(fs.disk, s, size);
    var d := StoreAll(fs.disk, Range(s, size), Absent(size));
    CreateOk(fs, name, size);
    CreatePlaced(fs, a.fsm, name, m, t);
    CreatedInv(fs, d, a.fsm, name, m, t);
  }

  /** The invariant after adding a placed run whose blocks were counted. */
  lemma CreatedInv(fs: ContigFs, d: Disk, f: Fsm, name: string, m: ContigMeta, t: map<string, ContigMeta>)
    requires Inv(fs) && name !in fs.table && t == fs.table[name := m]
    requires Valid(d) && NBlocks(d) == NBlocks(fs.disk) && |f.bitmap| == |fs.fsm.bitmap|
    requires forall x :: x in t ==> Placed(f.bitmap, t[x])
    requires forall x, y :: x in t && y in t && x != y ==> Disjoint(t[x], t[y])
    requires UsedCount(f.bitmap) == UsedCount(fs.fsm.bitmap) + m.length
    ensures Inv(FsState(d, f, t))
  {
    SumOverInsert(fs.table, Length, name, m);
  }

  /** Under the invariant every creation write succeeds. */
  lemma CreateOk(fs: ContigFs, name: string, size: int)
    requires Inv(fs) && name !in fs.table && size > 0 && Allocate(fs.fsm, size, true).Ok?
    ensures var a := Allocate(fs.fsm, size, true).value;
            var s := a.indices[0];
            Create(fs, name, size).result.Ok?
            && Create(fs, name, size).state
               == FsState(StoreAll(fs.disk, Range(s, size), Absent(size)), a.fsm, fs.table[name := ContigMeta(size, s, size)])
  {
    ContigAllocation(fs.fsm, size);
    var a := Allocate(fs.fsm, size, true).value;
    var s := a.indices[0];
    CreateWrites(fs.disk, s, size);
    assert a.indices[..size] == a.indices;
    assert Absent(size)[..size] == Absent(size);
  }

  /** The creation writes land inside the disk, keep it valid and leave the
      run absent. */
  lemma CreateWrites(d: Disk, s: int, n: nat)
    requires Valid(d) && 0 <= s && s + n <= NBlocks(d)
    ensures var payloads: seq<Option<Bytes>> := Absent(n);
            && AllInRange(d, Range(s, n)) && Fits(d, payloads)
            && FirstRejected(d, Range(s, n), payloads) == n
            && Valid(StoreAll(d, Range(s, n), payloads))
            && forall k :: s <= k < s + n ==> ReadBlock(StoreAll(d, Range(s, n), payloads), k) == Ok(None)
  {
    var idxs := Range(s, n);
    var payloads: seq<Option<Bytes>> := Absent(n);
    var r := StoreAll(d, idxs, payloads);
    forall k | s <= k < s + n ensures ReadBlock(r, k) == Ok(None) {
      assert idxs[k - s] == k;
      assert LastWrite(idxs, k - s);
    }
  }

  /** The new run is disjoint from every existing one, because it was free
      and theirs are used. */
  lemma CreatePlaced(fs: ContigFs, f: Fsm, name: string, m: ContigMeta, t: map<string, ContigMeta>)
    requires forall x :: x in fs.table ==> Placed(fs.fsm.bitmap, fs.table[x])
    requires forall x, y :: x in fs.table && y in fs.table && x != y ==> Disjoint(fs.table[x], fs.table[y])
    requires name !in fs.table && t == fs.table[name := m]
    requires m.sizeBlocks == m.length > 0 && FreeRun(fs.fsm.bitmap, m.start, m.length)
    requires |f.bitmap| == |fs.fsm.bitmap|
    requires forall j :: 0 <= j < |f.bitmap| ==> f.bitmap[j] == (fs.fsm.bitmap[j] || m.start <= j < m.start + m.length)
    ensures forall x :: x in t ==> Placed(f.bitmap, t[x])
    ensures forall x, y :: x in t && y in t && x != y ==> Disjoint(t[x], t[y])
  {
    forall other | other in fs.table ensures Disjoint(m, fs.table[other]) {
      var o := fs.table[other];
      assert Placed(fs.fsm.bitmap, o);
      var k := if o.start <= m.start then m.start else o.start;
      if o.start <= k < o.start + o.length {
        assert fs.fsm.bitmap[k];
      }
      if m.start <= k < m.start + m.length {
        assert !fs.fsm.bitmap[k];
      }
    }
  }

  /** `delete` keeps the invariant, and under it always succeeds for a
      catalogued name and gives back exactly the file's run. */
  lemma DeleteKeepsInv(fs: ContigFs, name: string)
    requires Inv(fs)
    ensures Inv(Delete(fs, name).state)
    ensures Delete(fs, name).result.Ok? <==> name in fs.table
    ensures name in fs.table ==>
              var m := fs.table[name];
              && UsedCount(Delete(fs, name).state.fsm.bitmap) == UsedCount(fs.fsm.bitmap) - m.length
              && forall j :: 0 <= j < |fs.fsm.bitmap| ==>
                   Delete(fs, name).state.fsm.bitmap[j] == (fs.fsm.bitmap[j] && !(m.start <= j < m.start + m.length))
  {
    if name in fs.table {
      var m := fs.table[name];
      DeleteFrees(fs, name);
      var bm := Delete(fs, name).state.fsm.bitmap;
      var t := fs.table - {name};
      DeletePlaced(fs, name, bm, t);
      SumOverRemove(fs.table, Length, name);
      assert Inv(FsState(fs.disk, Fsm(bm), t));
    }
  }

  /** Under the invariant the file's run is a valid argument to `free`, so
      the deletion goes through and clears exactly that run. */
  lemma DeleteFrees(fs: ContigFs, name: string)
    requires Inv(fs) && name in fs.table
    ensures var m := fs.table[name];
            var r := Delete(fs, name);
            && r.result.Ok?
            && r.state.table == fs.table - {name}
            && |r.state.fsm.bitmap| == |fs.fsm.bitmap|
            && UsedCount(r.state.fsm.bitmap) == UsedCount(fs.fsm.bitmap) - m.length
            && forall j :: 0 <= j < |fs.fsm.bitmap| ==>
                 r.state.fsm.bitmap[j] == (fs.fsm.bitmap[j] && !(m.start <= j < m.start + m.length))
  {
    var m := fs.table[name];
    var blocks := PyRange(m.start, m.start + m.length);
    assert Placed(fs.fsm.bitmap, m);
    assert IndicesIn(fs.fsm.bitmap, blocks);
    assert Distinct(blocks);
    assert forall k :: 0 <= k < |blocks| ==> fs.fsm.bitmap[blocks[k]];
    assert forall j :: j in blocks <==> m.start <= j < m.start + m.length by {
      forall j | m.start <= j < m.start + m.length ensures j in blocks {
        assert blocks[j - m.start] == j;
      }
    }
  }

  /** The remaining files keep their runs used and apart. */
  lemma DeletePlaced(fs: ContigFs, name: string, bm: Bitmap, t: map<string, ContigMeta>)
    requires Inv(fs) && name in fs.table && t == fs.table - {name}
    requires |bm| == |fs.fsm.bitmap|
    requires forall j :: 0 <= j < |bm| ==>
               bm[j] == (fs.fsm.bitmap[j] && !(fs.table[name].start <= j < fs.table[name].start + fs.table[name].length))
    ensures forall x :: x in t ==> Placed(bm, t[x])
    ensures forall x, y :: x in t && y in t && x != y ==> Disjoint(t[x], t[y])
  {
    forall other | other in t ensures Placed(bm, t[other]) {
      assert Disjoint(fs.table[name], fs.table[other]);
      assert Placed(fs.fsm.bitmap, fs.table[other]);
    }
  }

  /** `write` keeps the invariant: only payloads change. */
  lemma WriteKeepsInv(fs: ContigFs, name: string, offset: int, n: int, data: Option<seq<Option<Bytes>>>)
    requires Inv(fs)
    ensures Inv(Write(fs, name, offset, n, data).state)
  {}

  /** Under the invariant a write succeeds exactly when the checks pass, the
      data count is `n` and every payload fits a block. */
  lemma WriteSucceedsIff(fs: ContigFs, name: string, offset: int, n: int, data: Option<seq<Option<Bytes>>>)
    requires Inv(fs)
    ensures Write(fs, name, offset, n, data).result.Ok? <==>
              ResolveRange(fs, name, offset, n).Ok? && |WritePayloads(n, data)| == n
              && Fits(fs.disk, WritePayloads(n, data))
  {
    if ResolveRange(fs, name, offset, n).Ok? {
      var phys := ResolveRange(fs, name, offset, n).value;
      assert Placed(fs.fsm.bitmap, fs.table[name]);
      assert AllInRange(fs.disk, phys);
    }
  }

  /** Reading back what a successful write stored returns the written
      payloads, with `None` read as `b""`. */
  lemma WriteThenRead(fs: ContigFs, name: string, offset: int, n: int, data: Option<seq<Option<Bytes>>>)
    requires Write(fs, name, offset, n, data).result.Ok?
    ensures var w := Write(fs, name, offset, n, data);
            var payloads := WritePayloads(n, data);
            && Read(w.state, name, offset, n).result.Ok?
            && |Read(w.state, name, offset, n).result.value| == n
            && forall k :: 0 <= k < n ==> Read(w.state, name, offset, n).result.value[k] == OrEmpty(payloads[k])
  {
    var w := Write(fs, name, offset, n, data);
    var phys := ResolveRange(fs, name, offset, n).value;
    var payloads := WritePayloads(n, data);
    assert ResolveRange(w.state, name, offset, n) == ResolveRange(fs, name, offset, n);
    forall k | 0 <= k < n ensures LastWrite(phys, k) {
    }
  }

  /** A name that was deleted is gone: deleting it again is a FileNotFound. */
  lemma DeleteTwice(fs: ContigFs, name: string)
    requires Delete(fs, name).result.Ok?
    ensures Delete(Delete(fs, name).state, name).result == Err(FileNotFound)
  {}
}

=== FILE: disk.dfy ===
/** The logical disk: a fixed array of blocks of at most `blockSize` bytes,
    with bounds- and size-checked access. */
module Disks {
  import opened Wrappers
  import opened Codec
  import opened Blocks

  datatype Disk = Disk(blockSize: int, storage: seq<Block>)

  function NBlocks(d: Disk): nat {
    |d.storage|
  }

  /** The invariant every constructed disk keeps: block `i` carries index
      `i` and no stored payload exceeds the block size. */
  ghost predicate Valid(d: Disk) {
    && d.blockSize > 0
    && |d.storage| > 0
    && forall i :: 0 <= i < |d.storage| ==> d.storage[i].index == i && SizeBytes(d.storage[i]) <= d.blockSize
  }

  /** The payload of block `i` (absent or bytes), without a bound check. */
  function Payload(d: Disk, i: nat): Option<Bytes>
    requires i < NBlocks(d)
  {
    d.storage[i].data
  }

  predicate InRange(d: Disk, i: int) {
    0 <= i < NBlocks(d)
  }

  /** `Disk._check_index`. */
  function CheckIndex(d: Disk, i: int): (r: Outcome)
    ensures r.Pass? <==> InRange(d, i)
    ensures r.Fail? ==> r.error == IndexError
  {
    if InRange(d, i) then Pass else Fail(IndexError)
  }

  predicate AllInRange(d: Disk, idxs: seq<int>) {
    forall k :: 0 <= k < |idxs| ==> 0 <= idxs[k] < |d.storage|
  }

  /** `Disk._check_indices`: IndexError unless every index is in range. */
  function CheckIndices(d: Disk, idxs: seq<int>): (r: Outcome)
    ensures r.Pass? <==> AllInRange(d, idxs)
    ensures r.Fail? ==> r.error == IndexError
  {
    if idxs == [] then Pass
    else if !InRange(d, idxs[0]) then Fail(IndexError)
    else CheckIndices(d, idxs[1..])
  }

  /** `Disk(n_blocks, block_size, prefill=...)`: every block absent, or with
      prefill "zeros" every block holds `block_size` zero bytes. */
  function NewDisk(nBlocks: int, blockSize: int, prefill: Option<string>): (r: Result<Disk>)
    ensures r.Ok? <==> nBlocks > 0 && blockSize > 0 && (prefill.None? || prefill.value == "zeros")
    ensures r.Err? ==> r.error == ValueError
    ensures r.Ok? ==> Valid(r.value) && NBlocks(r.value) == nBlocks && r.value.blockSize == blockSize
    ensures r.Ok? && prefill.None? ==>
              forall i :: 0 <= i < nBlocks ==> Payload(r.value, i).None?
    ensures r.Ok? && prefill.Some? ==>
              forall i :: 0 <= i < nBlocks ==> Payload(r.value, i) == Some(Zeros(blockSize))
  {
    if nBlocks <= 0 || blockSize <= 0 then Err(ValueError)
    else
      var storage := seq(nBlocks, i => Block(i, None));
      match prefill
      case None => Ok(Disk(blockSize, storage))
      case Some(mode) =>
        if mode == "zeros" then Ok(Disk(blockSize, seq(nBlocks, i => Block(i, Some(Zeros(blockSize))))))
        else Err(ValueError)
  }

  /** `Disk.read_block`. */
  function ReadBlock(d: Disk, i: int): (r: Result<Option<Bytes>>)
    ensures r.Ok? <==> InRange(d, i)
    ensures r.Err? ==> r.error == IndexError
    ensures r.Ok? ==> r.value == Payload(d, i)
  {
    match CheckIndex(d, i)
    case Fail(e) => Err(e)
    case Pass =>
      Ok(d.storage[i].data)
  }

  /** Replaces block `i`'s payload; the common tail of every successful write. */
  function Store(d: Disk, i: nat, data: Option<Bytes>): (r: Disk)
    requires i < NBlocks(d)
    ensures NBlocks(r) == NBlocks(d) && r.blockSize == d.blockSize
    ensures Payload(r, i) == data
    ensures forall j :: 0 <= j < NBlocks(d) && j != i ==> r.storage[j] == d.storage[j]
    ensures Valid(d) && (data.None? || |data.value| <= d.blockSize) ==> Valid(r)
  {
    d.(storage := d.storage[i := SetBytes(d.storage[i], data)])
  }

  /** `Disk.write_block`: IndexError outside the disk, ValueError for a
      payload longer than the block; `None` makes the block absent. */
  function WriteBlock(d: Disk, i: int, data: Option<Bytes>): (r: Result<Disk>)
    ensures r.Ok? <==> InRange(d, i) && (data.None? || |data.value| <= d.blockSize)
    ensures r.Err? ==> r.error == (if InRange(d, i) then ValueError else IndexError)
    ensures r.Ok? ==> r.value == Store(d, i, data)
  {
    match CheckIndex(d, i)
    case Fail(e) => Err(e)
    case Pass =>
      if data.Some? && |data.value| > d.blockSize then Err(ValueError)
      else Ok(Store(d, i, data))
  }

  /** `Disk.clear_block`. */
  function ClearBlock(d: Disk, i: int): (r: Result<Disk>)
    ensures r.Ok? <==> InRange(d, i)
    ensures r.Err? ==> r.error == IndexError
    ensures r.Ok? ==> r.value == Store(d, i, None) && ReadBlock(r.value, i) == Ok(None)
  {
    match CheckIndex(d, i)
    case Fail(e) => Err(e)
    case Pass =>
      Ok(d.(storage := d.storage[i := Clear(d.storage[i])]))
  }

  /** `Disk.fill_block_zeros`. */
  function FillBlockZeros(d: Disk, i: int): (r: Result<Disk>)
    requires d.blockSize >= 0
    ensures r.Ok? <==> InRange(d, i)
    ensures r.Err? ==> r.error == IndexError
    ensures r.Ok? ==> r.value == Store(d, i, Some(Zeros(d.blockSize)))
  {
    match CheckIndex(d, i)
    case Fail(e) => Err(e)
    case Pass =>
      var filled := FillZeros(d.storage[i], d.blockSize);
      Ok(d.(storage := d.storage[i := filled.value]))
  }

  /** `Disk.read_blocks`: every index is checked before anything is read. */
  function ReadBlocks(d: Disk, idxs: seq<int>): (r: Result<seq<Option<Bytes>>>)
    ensures r.Ok? <==> AllInRange(d, idxs)
    ensures r.Err? ==> r.error == IndexError
    ensures r.Ok? ==> |r.value| == |idxs|
    ensures r.Ok? ==> forall k :: 0 <= k < |idxs| ==> ReadBlock(d, idxs[k]) == Ok(r.value[k])
  {
    match CheckIndices(d, idxs)
    case Fail(e) => Err(e)
    case Pass =>
      Ok(seq(|idxs|, k requires 0 <= k < |idxs| => d.storage[idxs[k]].data))
  }

  predicate Fits(d: Disk, payloads: seq<Option<Bytes>>) {
    forall k :: 0 <= k < |payloads| ==> payloads[k].None? || |payloads[k].value| <= d.blockSize
  }

  /** Position `k` is the last write to its block in `idxs`. */
  predicate LastWrite(idxs: seq<int>, k: int)
    requires 0 <= k < |idxs|
  {
    forall k' :: k < k' < |idxs| ==> idxs[k'] != idxs[k]
  }

  /** The sequential `write_block` loop of `write_blocks`, once every check
      has passed: each block ends with the payload of its last write, and
      blocks not named keep their payload. */
  function StoreAll(d: Disk, idxs: seq<int>, payloads: seq<Option<Bytes>>): (r: Disk)
    requires |idxs| == |payloads|
    requires AllInRange(d, idxs)
    ensures NBlocks(r) == NBlocks(d) && r.blockSize == d.blockSize
    ensures forall k :: 0 <= k < |idxs| && LastWrite(idxs, k) ==> Payload(r, idxs[k]) == payloads[k]
    ensures forall j :: 0 <= j < NBlocks(d) && j !in idxs ==> r.storage[j] == d.storage[j]
    ensures Valid(d) && Fits(d, payloads) ==> Valid(r)
    decreases |idxs|
  {
    if idxs == [] then d
    else
      var d1 := Store(d, idxs[0], payloads[0]);
      var r := StoreAll(d1, idxs[1..], payloads[1..]);
      StoreAllStep(d, idxs, payloads, d1, r);
      r
  }

  /** One step of `StoreAll`: the first write, then the rest. */
  lemma StoreAllStep(d: Disk, idxs: seq<int>, payloads: seq<Option<Bytes>>, d1: Disk, r: Disk)
    requires |idxs| == |payloads| > 0 && AllInRange(d, idxs)
    requires d1 == Store(d, idxs[0], payloads[0])
    requires NBlocks(r) == NBlocks(d1) && r.blockSize == d1.blockSize
    requires forall k :: 0 <= k < |idxs| - 1 && LastWrite(idxs[1..], k) ==> Payload(r, idxs[1..][k]) == payloads[1..][k]
    requires forall j :: 0 <= j < NBlocks(d1) && j !in idxs[1..] ==> r.storage[j] == d1.storage[j]
    requires Valid(d1) && Fits(d1, payloads[1..]) ==> Valid(r)
    ensures NBlocks(r) == NBlocks(d) && r.blockSize == d.blockSize
    ensures forall k :: 0 <= k < |idxs| && LastWrite(idxs, k) ==> Payload(r, idxs[k]) == payloads[k]
    ensures forall j :: 0 <= j < NBlocks(d) && j !in idxs ==> r.storage[j] == d.storage[j]
    ensures Valid(d) && Fits(d, payloads) ==> Valid(r)
  {
    assert forall k :: 1 <= k < |idxs| ==> idxs[k] == idxs[1..][k - 1] && payloads[k] == payloads[1..][k - 1];
    assert forall k :: 1 <= k < |idxs| && LastWrite(idxs, k) ==> LastWrite(idxs[1..], k - 1);
    assert LastWrite(idxs, 0) ==> idxs[0] !in idxs[1..];
  }

  /** Reading back the blocks just stored, when no block is named twice,
      gives the stored payloads. */
  lemma ReadBackStore(d: Disk, idxs: seq<int>, payloads: seq<Option<Bytes>>)
    requires |idxs| == |payloads| && AllInRange(d, idxs)
    requires forall k :: 0 <= k < |idxs| ==> LastWrite(idxs, k)
    ensures ReadBlocks(StoreAll(d, idxs, payloads), idxs) == Ok(payloads)
  {
    var r := StoreAll(d, idxs, payloads);
    assert AllInRange(r, idxs);
    var got := ReadBlocks(r, idxs).value;
    forall k | 0 <= k < |idxs| ensures got[k] == payloads[k] {
      assert ReadBlock(r, idxs[k]) == Ok(got[k]);
      assert LastWrite(idxs, k);
    }
    assert got == payloads;
  }

  /** `Disk.write_blocks`: all indices, the length match and every payload
      size are validated before the first block is written, so a failing
      call changes nothing. */
  function WriteBlocks(d: Disk, idxs: seq<int>, payloads: seq<Option<Bytes>>): (r: Result<Disk>)
    ensures r.Ok? <==> AllInRange(d, idxs) && |idxs| == |payloads| && Fits(d, payloads)
    ensures r.Err? ==> r.error == (if !AllInRange(d, idxs) then IndexError else ValueError)
    ensures r.Ok? ==> r.value == StoreAll(d, idxs, payloads)
  {
    match CheckIndices(d, idxs)
    case Fail(e) => Err(e)
    case Pass =>
      if |idxs| != |payloads| then Err(ValueError)
      else if !Fits(d, payloads) then Err(ValueError)
      else Ok(StoreAll(d, idxs, payloads))
  }

  /** Number of blocks whose payload is present, counted over a prefix. */
  function CountPresent(s: seq<Block>): (r: nat)
    ensures r <= |s|
  {
    if s == [] then 0
    else CountPresent(s[..|s| - 1]) + (if s[|s| - 1].data.Some? then 1 else 0)
  }

  /** `Disk.used_blocks_count`: blocks whose payload is present, an empty
      payload included. */
  function UsedBlocksCount(d: Disk): (r: nat)
    ensures r <= NBlocks(d)
  {
    CountPresent(d.storage)
  }

  /** `Disk.empty_blocks_count`. */
  function EmptyBlocksCount(d: Disk): (r: int)
    ensures r >= 0 && r + UsedBlocksCount(d) == NBlocks(d)
  {
    NBlocks(d) - UsedBlocksCount(d)
  }

  ghost function PresentSet(s: seq<Block>): set<nat> {
    set i | 0 <= i < |s| && s[i].data.Some?
  }

  /** The used count is the number of distinct present blocks. */
  lemma {:induction false} CountPresentIsCardinality(s: seq<Block>)
    ensures CountPresent(s) == |PresentSet(s)|
  {
    if s != [] {
      var front := s[..|s| - 1];
      CountPresentIsCardinality(front);
      if s[|s| - 1].data.Some? {
        assert PresentSet(s) == PresentSet(front) + {|s| - 1};
      } else {
        assert PresentSet(s) == PresentSet(front);
      }
    }
  }

  /** A successful write of block `i` changes the used count by at most one,
      depending only on whether block `i` was and is present. */
  lemma UsedCountAfterStore(d: Disk, i: nat, data: Option<Bytes>)
    requires i < NBlocks(d)
    ensures UsedBlocksCount(Store(d, i, data))
            == UsedBlocksCount(d) - (if Payload(d, i).Some? then 1 else 0) + (if data.Some? then 1 else 0)
  {
    var r := Store(d, i, data);
    CountPresentIsCardinality(d.storage);
    CountPresentIsCardinality(r.storage);
    PresentAfterStore(d, i, data);
    CardinalityWithout(PresentSet(d.storage), i);
    CardinalityWithout(PresentSet(r.storage), i);
  }

  /** Storing to block `i` changes the present set at `i` only. */
  lemma PresentAfterStore(d: Disk, i: nat, data: Option<Bytes>)
    requires i < NBlocks(d)
    ensures PresentSet(Store(d, i, data).storage) - {i} == PresentSet(d.storage) - {i}
    ensures i in PresentSet(Store(d, i, data).storage) <==> data.Some?
    ensures i in PresentSet(d.storage) <==> Payload(d, i).Some?
  {
  }

  lemma CardinalityWithout(s: set<nat>, i: nat)
    ensures |s| == |s - {i}| + (if i in s then 1 else 0)
  {
    if i in s {
      assert s == (s - {i}) + {i};
    } else {
      assert s == s - {i};
    }
  }
}

=== FILE: filesystem.dfy ===
/** What every allocation strategy shares: the disk and the free-space
    manager it was given, a catalog from file name to strategy-specific
    metadata, the argument checks run before any work, and the events an
    operation reports. Sizes and offsets are counted in logical blocks. */
module FileSystems {
  import opened Wrappers
  import opened Codec
  import opened Disks
  import opened FreeSpace

  /** The part of an emitted event that its consumer reads: the physical
      block list under the key `physical` (empty when the event carries
      none) and the block count under `n_blocks` (0 when it carries none). */
  datatype Event = Event(name: string, physical: seq<int>, nBlocks: int)

  function Mark(name: string): Event {
    Event(name, [], 0)
  }

  /** A strategy instance: the shared disk and bitmap plus its catalog. A
      map holds at most one entry per name. */
  datatype FsState<M> = FsState(disk: Disk, fsm: Fsm, table: map<string, M>)

  /** The effect of one operation: the state afterwards (Python mutates in
      place, so changes made before an exception persist), the events
      emitted, and the returned value or raised exception. */
  datatype Step<M, T> = Step(state: FsState<M>, events: seq<Event>, result: Result<T>)

  /** `FilesystemBase.__init__`: the strategy works on the disk and the
      manager it is handed, with an empty catalog. */
  function NewFs<M>(disk: Disk, fsm: Fsm): (r: FsState<M>)
    ensures r.disk == disk && r.fsm == fsm
    ensures |r.table| == 0
  {
    FsState(disk, fsm, map[])
  }

  /** `_assert_new_file`. */
  function AssertNewFile<M>(table: map<string, M>, name: string): (r: Outcome)
    ensures r.Pass? <==> name !in table
    ensures r.Fail? ==> r.error == FileExists
  {
    Need(name !in table, FileExists)
  }

  /** `_assert_file_exists`. */
  function AssertFileExists<M>(table: map<string, M>, name: string): (r: Outcome)
    ensures r.Pass? <==> name in table
    ensures r.Fail? ==> r.error == FileNotFound
  {
    Need(name in table, FileNotFound)
  }

  /** `_assert_positive_blocks`. */
  function AssertPositiveBlocks(n: int): (r: Outcome)
    ensures r.Pass? <==> n > 0
    ensures r.Fail? ==> r.error == ValueError
  {
    Need(n > 0, ValueError)
  }

  /** `_assert_non_negative`. */
  function AssertNonNegative(offset: int): (r: Outcome)
    ensures r.Pass? <==> offset >= 0
    ensures r.Fail? ==> r.error == ValueError
  {
    Need(offset >= 0, ValueError)
  }

  /** `_assert_range_within_size`, given the file's `size_blocks`. */
  function AssertRangeWithinSize(sizeBlocks: int, offset: int, n: int): (r: Outcome)
    ensures r.Pass? <==> offset + n <= sizeBlocks
    ensures r.Fail? ==> r.error == ValueError
  {
    Need(offset + n <= sizeBlocks, ValueError)
  }

  /** Python's `s[lo:hi]` for a step of 1: negative bounds count from the
      end, and both bounds are clamped into the sequence. */
  function PySlice<T>(s: seq<T>, lo: int, hi: int): (r: seq<T>)
    ensures 0 <= lo <= hi <= |s| ==> r == s[lo..hi]
    ensures |r| <= |s|
  {
    var a := if lo < 0 then (if lo + |s| < 0 then 0 else lo + |s|) else (if lo > |s| then |s| else lo);
    var b := if hi < 0 then (if hi + |s| < 0 then 0 else hi + |s|) else (if hi > |s| then |s| else hi);
    if a < b then s[a..b] else []
  }

  /** `[b"" for _ in range(n)]`: the payloads used when a write brings no data. */
  function EmptyPayloads(n: int): (r: seq<Option<Bytes>>)
    ensures |r| == if n < 0 then 0 else n
    ensures forall k :: 0 <= k < |r| ==> r[k] == Some([])
  {
    if n <= 0 then [] else seq(n, _ => Some([]))
  }

  /** `data or b""` on a read payload: an absent block reads as empty bytes. */
  function OrEmpty(p: Option<Bytes>): Bytes {
    p.GetOr([])
  }

  /** Whether `write_block(i, p)` succeeds on a disk of this shape. */
  predicate Writable(d: Disk, i: int, p: Option<Bytes>) {
    InRange(d, i) && (p.None? || |p.value| <= d.blockSize)
  }

  /** The position of the first write in the list that `write_block` would
      reject, or the list's length when there is none. Writes do not change
      the disk's shape, so this does not depend on the earlier writes. */
  function FirstRejected(d: Disk, idxs: seq<int>, payloads: seq<Option<Bytes>>): (r: nat)
    requires |idxs| == |payloads|
    ensures r <= |idxs|
    ensures forall k :: 0 <= k < r ==> Writable(d, idxs[k], payloads[k])
    ensures r < |idxs| ==> !Writable(d, idxs[r], payloads[r])
    ensures r == |idxs| <==> AllInRange(d, idxs) && Fits(d, payloads)
    decreases |idxs|
  {
    if idxs == [] then 0
    else if !Writable(d, idxs[0], payloads[0]) then 0
    else
      var r := 1 + FirstRejected(d, idxs[1..], payloads[1..]);
      assert forall k :: 1 <= k < |idxs| ==> idxs[k] == idxs[1..][k - 1] && payloads[k] == payloads[1..][k - 1];
      r
  }

  /** When no write is rejected, the loop stores the whole list. */
  lemma WholePrefix(d: Disk, idxs: seq<int>, payloads: seq<Option<Bytes>>)
    requires |idxs| == |payloads|
    ensures FirstRejected(d, idxs, payloads) == |idxs| ==>
              && AllInRange(d, idxs)
              && StoreAll(d, idxs[..|idxs|], payloads[..|idxs|]) == StoreAll(d, idxs, payloads)
  {
    assert idxs[..|idxs|] == idxs && payloads[..|payloads|] == payloads;
  }

  /** A loop of single `write_block` calls: each is checked on its own, so a
      failure leaves the blocks before it written and the rest untouched. */
  function WriteEach(d: Disk, idxs: seq<int>, payloads: seq<Option<Bytes>>): (r: (Disk, Outcome))
    requires |idxs| == |payloads|
    ensures var k := FirstRejected(d, idxs, payloads);
            && AllInRange(d, idxs[..k])
            && r.0 == StoreAll(d, idxs[..k], payloads[..k])
            && (r.1.Pass? <==> k == |idxs|)
            && (r.1.Fail? ==> r.1.error == if InRange(d, idxs[k]) then ValueError else IndexError)
    decreases |idxs|
  {
    if idxs == [] then (d, Pass)
    else
      match WriteBlock(d, idxs[0], payloads[0])
      case Err(e) =>
        assert idxs[..0] == [] && payloads[..0] == [];
        (d, Fail(e))
      case Ok(d1) =>
        var r := WriteEach(d1, idxs[1..], payloads[1..]);
        WriteEachStep(d, d1, idxs, payloads);
        r
  }

  lemma WriteEachStep(d: Disk, d1: Disk, idxs: seq<int>, payloads: seq<Option<Bytes>>)
    requires |idxs| == |payloads| && |idxs| > 0
    requires WriteBlock(d, idxs[0], payloads[0]) == Ok(d1)
    ensures FirstRejected(d, idxs, payloads) == 1 + FirstRejected(d1, idxs[1..], payloads[1..])
    ensures var k := FirstRejected(d1, idxs[1..], payloads[1..]);
            && AllInRange(d, idxs[..k + 1])
            && StoreAll(d, idxs[..k + 1], payloads[..k + 1]) == StoreAll(d1, idxs[1..][..k], payloads[1..][..k])
  {
    FirstRejectedShape(d, d1, idxs[1..], payloads[1..]);
    var k := FirstRejected(d1, idxs[1..], payloads[1..]);
    PrefixStep(d, d1, idxs, payloads, k);
  }

  /** Storing a prefix of `k + 1` writes is the first write followed by
      the next `k`. */
  lemma PrefixStep(d: Disk, d1: Disk, idxs: seq<int>, payloads: seq<Option<Bytes>>, k: nat)
    requires |idxs| == |payloads| && k < |idxs|
    requires InRange(d, idxs[0]) && d1 == Store(d, idxs[0], payloads[0])
    requires AllInRange(d1, idxs[1..][..k])
    ensures AllInRange(d, idxs[..k + 1])
    ensures StoreAll(d, idxs[..k + 1], payloads[..k + 1]) == StoreAll(d1, idxs[1..][..k], payloads[1..][..k])
  {
    var ix := idxs[..k + 1];
    var px := payloads[..k + 1];
    assert ix[1..] == idxs[1..][..k] && px[1..] == payloads[1..][..k];
    assert ix[0] == idxs[0] && px[0] == payloads[0];
  }

  lemma {:induction false} FirstRejectedShape(d: Disk, d1: Disk, idxs: seq<int>, payloads: seq<Option<Bytes>>)
    requires |idxs| == |payloads|
    requires NBlocks(d1) == NBlocks(d) && d1.blockSize == d.blockSize
    ensures FirstRejected(d, idxs, payloads) == FirstRejected(d1, idxs, payloads)
    decreases |idxs|
  {
    if idxs != [] {
      FirstRejectedShape(d, d1, idxs[1..], payloads[1..]);
    }
  }

  /** The first failing check of two, in order. */
  function Then(first: Outcome, second: Outcome): (r: Outcome)
    ensures r.Pass? <==> first.Pass? && second.Pass?
    ensures r.Fail? ==> r.error == (if first.Fail? then first.error else second.error)
  {
    if first.Fail? then first else second
  }

  /** `list(range(lo, hi))`. */
  function PyRange(lo: int, hi: int): (r: seq<int>)
    ensures |r| == if hi <= lo then 0 else hi - lo
    ensures forall k :: 0 <= k < |r| ==> r[k] == lo + k
  {
    if hi <= lo then [] else Range(lo, hi - lo)
  }

  /** The sum of a per-file weight over the catalog. */
  ghost function SumOver<M>(t: map<string, M>, w: M -> int): int
    decreases |t|
  {
    if |t| == 0 then 0
    else
      var k := Pick(t);
      KeysRemoveOne(t, k);
      w(t[k]) + SumOver(t - {k}, w)
  }

  ghost function Pick<M>(t: map<string, M>): (k: string)
    requires |t| > 0
    ensures k in t
  {
    assert |t.Keys| == |t|;
    var k :| k in t.Keys;
    k
  }

  /** The sum does not depend on which entry is taken out first. */
  lemma {:induction false} SumOverRemove<M>(t: map<string, M>, w: M -> int, k: string)
    requires k in t
    ensures SumOver(t, w) == w(t[k]) + SumOver(t - {k}, w)
    decreases |t|
  {
    var j := Pick(t);
    if j != k {
      var tj := t - {j};
      var tk := t - {k};
      KeysRemoveOne(t, j);
      KeysRemoveOne(t, k);
      SumOverRemove(tj, w, k);
      SumOverRemove(tk, w, j);
      SwapSums(t, w, j, k);
    }
  }

  /** Taking out two entries in either order leaves the same catalog. */
  lemma SwapSums<M>(t: map<string, M>, w: M -> int, j: string, k: string)
    requires j in t && k in t && j != k
    ensures SumOver((t - {j}) - {k}, w) == SumOver((t - {k}) - {j}, w)
    ensures (t - {j})[k] == t[k] && (t - {k})[j] == t[j]
  {
    assert (t - {j}) - {k} == (t - {k}) - {j};
  }

  lemma KeysRemoveOne<M>(t: map<string, M>, k: string)
    requires k in t
    ensures |t - {k}| == |t| - 1
  {
    assert t.Keys == (t - {k}).Keys + {k};
  }

  /** Adding a new entry adds its weight. */
  lemma SumOverInsert<M>(t: map<string, M>, w: M -> int, k: string, m: M)
    requires k !in t
    ensures SumOver(t[k := m], w) == w(m) + SumOver(t, w)
  {
    SumOverRemove(t[k := m], w, k);
    assert t[k := m] - {k} == t;
  }
}

=== FILE: free_space.dfy ===
/** The free-space manager: a bitmap over the disk's blocks with first-fit
    contiguous allocation, "n lowest free" scattered allocation, an
    all-or-nothing `free`, fragmentation metrics and `reserve_exact`.
    The bitmap-update observer is a no-op here. */
module FreeSpace {
  import opened Wrappers
  import opened Bitmaps

  datatype Fsm = Fsm(bitmap: Bitmap) {
    function NBlocks(): nat {
      |bitmap|
    }
  }

  /** `FreeSpaceManager(n_blocks, preoccupied=...)`: ValueError unless
      `n_blocks > 0`, IndexError for a preoccupied index outside the bitmap;
      otherwise exactly the preoccupied blocks are used. */
  function NewFsm(nBlocks: int, preoccupied: seq<int>): (r: Result<Fsm>)
    ensures r.Ok? <==> nBlocks > 0 && forall k :: 0 <= k < |preoccupied| ==> 0 <= preoccupied[k] < nBlocks
    ensures r.Err? ==> r.error == (if nBlocks <= 0 then ValueError else IndexError)
    ensures r.Ok? ==> r.value.NBlocks() == nBlocks
    ensures r.Ok? ==> forall j :: 0 <= j < nBlocks ==> (r.value.bitmap[j] <==> j in preoccupied)
  {
    if nBlocks <= 0 then Err(ValueError)
    else
      var empty := seq(nBlocks, _ => false);
      if preoccupied == [] then Ok(Fsm(empty))
      else if !IndicesIn(empty, preoccupied) then Err(IndexError)
      else Ok(Fsm(SetBits(empty, preoccupied, true)))
  }

  /** No `needed` consecutive free blocks end at or before position `i`. */
  ghost predicate NoFitBefore(bm: Bitmap, needed: int, i: int) {
    forall s :: 0 <= s && s + needed <= i ==> !FreeRun(bm, s, needed)
  }

  /** The scan loop of `_find_first_fit_run` from position `i`, with the
      current run described by `runStart` and `runLen`. */
  function ScanFit(bm: Bitmap, needed: int, i: nat, runStart: int, runLen: nat): (r: Option<(int, int)>)
    requires needed > 0 && i <= |bm| && runLen < needed && runLen <= i
    requires runLen > 0 ==> runStart + runLen == i
    requires FreeRun(bm, i - runLen, runLen)
    requires runLen == i || bm[i - runLen - 1]
    requires NoFitBefore(bm, needed, i)
    ensures r.Some? ==> r.value.1 == needed && FreeRun(bm, r.value.0, needed)
    ensures r.Some? ==> forall s :: 0 <= s < r.value.0 ==> !FreeRun(bm, s, needed)
    ensures r.None? ==> forall s :: !FreeRun(bm, s, needed)
    decreases |bm| - i
  {
    if i == |bm| then None
    else if !bm[i] then
      var start := if runLen == 0 then i else runStart;
      var len := runLen + 1;
      assert FreeRun(bm, start, len);
      assert forall s :: 0 <= s < start ==> !FreeRun(bm, s, needed) by {
        forall s | 0 <= s < start ensures !FreeRun(bm, s, needed) {
          if s + needed > i {
            assert bm[start - 1];
            assert s <= start - 1 < s + needed;
          }
        }
      }
      if len >= needed then Some((start, len))
      else ScanFit(bm, needed, i + 1, start, len)
    else
      assert forall s :: 0 <= s && s + needed == i + 1 ==> !FreeRun(bm, s, needed) by {
        forall s | 0 <= s && s + needed == i + 1 ensures !FreeRun(bm, s, needed) {
          assert s <= i < s + needed;
        }
      }
      ScanFit(bm, needed, i + 1, runStart, 0)
  }

  /** `_find_first_fit_run(needed)`: the lowest start of `needed` consecutive
      free blocks, paired with `needed`, or None when there is none. */
  function FindFirstFitRun(bm: Bitmap, needed: int): (r: Option<(int, int)>)
    requires needed > 0
    ensures r.Some? ==> r.value.1 == needed && FreeRun(bm, r.value.0, needed)
    ensures r.Some? ==> forall s :: 0 <= s < r.value.0 ==> !FreeRun(bm, s, needed)
    ensures r.None? <==> forall s :: !FreeRun(bm, s, needed)
  {
    ScanFit(bm, needed, 0, 0, 0)
  }

  function Take(s: seq<int>, k: int): (r: seq<int>)
    ensures |r| == if k < 0 then 0 else if k < |s| then k else |s|
    ensures r == s[..|r|]
  {
    if k <= 0 then [] else if k < |s| then s[..k] else s
  }

  /** The scattered-allocation loop: walks the bitmap from `i`, appending
      free indices to `acc` until `n` have been collected. */
  function CollectFree(bm: Bitmap, n: int, i: nat, acc: seq<int>): (r: seq<int>)
    requires i <= |bm| && |acc| < n
    ensures r == acc + Take(FreeList(bm, i), n - |acc|)
    decreases |bm| - i
  {
    if i == |bm| then acc
    else if bm[i] then
      FreeListStep(bm, i);
      CollectFree(bm, n, i + 1, acc)
    else if |acc| + 1 == n then
      CollectLast(bm, n, i, acc);
      acc + [i]
    else
      CollectNext(bm, n, i, acc);
      CollectFree(bm, n, i + 1, acc + [i])
  }

  /** Taking the last index still wanted. */
  lemma CollectLast(bm: Bitmap, n: int, i: nat, acc: seq<int>)
    requires i < |bm| && !bm[i] && |acc| + 1 == n
    ensures acc + Take(FreeList(bm, i), n - |acc|) == acc + [i]
  {
    FreeListStep(bm, i);
    TakeCons(i, FreeList(bm, i + 1), 1);
  }

  /** Taking a free index and going on. */
  lemma CollectNext(bm: Bitmap, n: int, i: nat, acc: seq<int>)
    requires i < |bm| && !bm[i] && |acc| + 1 < n
    ensures acc + Take(FreeList(bm, i), n - |acc|) == (acc + [i]) + Take(FreeList(bm, i + 1), n - |acc + [i]|)
  {
    FreeListStep(bm, i);
    AppendTake(acc, i, FreeList(bm, i + 1), n - |acc|);
  }

  lemma AppendTake(acc: seq<int>, x: int, rest: seq<int>, k: int)
    requires k >= 1
    ensures acc + Take([x] + rest, k) == (acc + [x]) + Take(rest, k - 1)
  {
    TakeCons(x, rest, k);
    assert acc + ([x] + Take(rest, k - 1)) == (acc + [x]) + Take(rest, k - 1);
  }

  lemma FreeListStep(bm: Bitmap, i: nat)
    requires i < |bm|
    ensures FreeList(bm, i) == if bm[i] then FreeList(bm, i + 1) else [i] + FreeList(bm, i + 1)
  {}

  lemma TakeCons(x: int, s: seq<int>, k: int)
    requires k >= 1
    ensures Take([x] + s, k) == [x] + Take(s, k - 1)
  {}

  function Range(s: int, n: nat): (r: seq<int>)
    ensures |r| == n && forall k :: 0 <= k < n ==> r[k] == s + k
  {
    seq(n, k => s + k)
  }

  datatype Allocation = Allocation(fsm: Fsm, indices: seq<int>)

  /** `a` is an allocation taken from `f`: its indices are in range,
      distinct and free in `f`, and its manager is `f` with exactly those
      bits set. */
  predicate Claims(f: Fsm, a: Allocation) {
    && IndicesIn(f.bitmap, a.indices)
    && Distinct(a.indices)
    && (forall k :: 0 <= k < |a.indices| ==> !f.bitmap[a.indices[k]])
    && a.fsm == Fsm(SetBits(f.bitmap, a.indices, true))
  }

  /** The scattered allocation takes the `n` lowest free indices. */
  lemma LowestFree(bm: Bitmap, n: nat)
    requires 0 < n <= |FreeList(bm, 0)|
    ensures forall j :: 0 <= j < |bm| && !bm[j] && j !in FreeList(bm, 0)[..n] ==> FreeList(bm, 0)[n - 1] < j
  {
    var fl := FreeList(bm, 0);
    forall j | 0 <= j < |bm| && !bm[j] && j !in fl[..n] ensures fl[n - 1] < j {
      var p :| 0 <= p < |fl| && fl[p] == j;
      assert forall q :: 0 <= q < n ==> fl[..n][q] == fl[q];
      assert p >= n;
    }
  }

  /** The first `n` free indices are ascending, in range and free. */
  lemma FreePrefix(bm: Bitmap, n: nat)
    requires n <= |FreeList(bm, 0)|
    ensures IndicesIn(bm, FreeList(bm, 0)[..n])
    ensures Increasing(FreeList(bm, 0)[..n]) && Distinct(FreeList(bm, 0)[..n])
    ensures forall k :: 0 <= k < n ==> !bm[FreeList(bm, 0)[..n][k]]
  {
    var fl := FreeList(bm, 0);
    var p := fl[..n];
    assert forall k :: 0 <= k < n ==> p[k] == fl[k];
    assert Increasing(p) by {
      forall i, j | 0 <= i < j < n ensures p[i] < p[j] {
        assert p[i] == fl[i] && p[j] == fl[j];
      }
    }
    assert Distinct(p) by {
      forall i, j | 0 <= i < j < n ensures p[i] != p[j] {
        assert p[i] < p[j];
      }
    }
  }

  /** Marks the given free blocks used. */
  function MarkUsed(f: Fsm, indices: seq<int>): (r: Allocation)
    requires IndicesIn(f.bitmap, indices) && Distinct(indices)
    requires forall k :: 0 <= k < |indices| ==> !f.bitmap[indices[k]]
    ensures r.indices == indices
    ensures r.fsm.bitmap == SetBits(f.bitmap, indices, true)
    ensures UsedCount(r.fsm.bitmap) == UsedCount(f.bitmap) + |indices|
  {
    SetBitsCount(f.bitmap, indices, true);
    Allocation(Fsm(SetBits(f.bitmap, indices, true)), indices)
  }

  /** The contiguous branch of `allocate`: the first-fit run of `n` blocks. */
  function PickContiguous(bm: Bitmap, n: int): (r: Option<seq<int>>)
    requires n > 0
    ensures r.Some? <==> exists s :: FreeRun(bm, s, n)
    ensures r.Some? ==>
              && |r.value| == n
              && r.value == Range(r.value[0], n)
              && FreeRun(bm, r.value[0], n)
              && (forall s :: 0 <= s < r.value[0] ==> !FreeRun(bm, s, n))
              && IndicesIn(bm, r.value) && Distinct(r.value)
              && (forall k :: 0 <= k < n ==> !bm[r.value[k]])
  {
    match FindFirstFitRun(bm, n)
    case None => None
    case Some(run) =>
      var indices := Range(run.0, n);
      assert forall k :: 0 <= k < n ==> !bm[indices[k]];
      Some(indices)
  }

  /** The scattered branch of `allocate`: the `n` lowest free indices. */
  function PickScattered(bm: Bitmap, n: int): (r: Option<seq<int>>)
    requires n > 0
    ensures r.Some? <==> n <= FreeCount(bm)
    ensures r.Some? ==>
              && |r.value| == n
              && r.value == FreeList(bm, 0)[..n]
              && Increasing(r.value)
              && (forall j :: 0 <= j < |bm| && !bm[j] && j !in r.value ==> r.value[n - 1] < j)
              && IndicesIn(bm, r.value) && Distinct(r.value)
              && (forall k :: 0 <= k < n ==> !bm[r.value[k]])
  {
    var indices := CollectFree(bm, n, 0, []);
    FreeListLength(bm);
    assert indices == Take(FreeList(bm, 0), n);
    if |indices| < n then None
    else
      ScatteredPrefix(bm, n);
      Some(indices)
  }

  /** What the first `n` free indices are. */
  lemma ScatteredPrefix(bm: Bitmap, n: int)
    requires 0 < n <= |FreeList(bm, 0)|
    ensures var p := FreeList(bm, 0)[..n];
            && Increasing(p)
            && (forall j :: 0 <= j < |bm| && !bm[j] && j !in p ==> p[n - 1] < j)
            && IndicesIn(bm, p) && Distinct(p)
            && (forall k :: 0 <= k < n ==> !bm[p[k]])
  {
    LowestFree(bm, n);
    FreePrefix(bm, n);
  }

  /** `FreeSpaceManager.allocate(n, contiguous)`. ValueError for `n <= 0`.
      Contiguous: the first-fit run `[s, s+n)`. Scattered: the `n` lowest
      free indices in ascending order. MemoryError, with nothing changed,
      when the request cannot be met. On success exactly the returned
      blocks flip from free to used. */
  function Allocate(f: Fsm, n: int, contiguous: bool): (r: Result<Allocation>)
    ensures n <= 0 ==> r == Err(ValueError)
    ensures n > 0 && contiguous ==> (r.Ok? <==> exists s :: FreeRun(f.bitmap, s, n))
    ensures n > 0 && !contiguous ==> (r.Ok? <==> n <= FreeCount(f.bitmap))
    ensures n > 0 && r.Err? ==> r.error == MemoryError
    ensures r.Ok? ==>
              && |r.value.indices| == n
              && IndicesIn(f.bitmap, r.value.indices)
              && Distinct(r.value.indices)
              && (forall k :: 0 <= k < n ==> !f.bitmap[r.value.indices[k]])
              && r.value.fsm.bitmap == SetBits(f.bitmap, r.value.indices, true)
              && UsedCount(r.value.fsm.bitmap) == UsedCount(f.bitmap) + n
    ensures r.Ok? && contiguous ==>
              && r.value.indices == Range(r.value.indices[0], n)
              && forall s :: 0 <= s < r.value.indices[0] ==> !FreeRun(f.bitmap, s, n)
    ensures r.Ok? && !contiguous ==>
              && Increasing(r.value.indices)
              && forall j :: 0 <= j < |f.bitmap| && !f.bitmap[j] && j !in r.value.indices ==> r.value.indices[n - 1] < j
  {
    if n <= 0 then Err(ValueError)
    else
      var picked := if contiguous then PickContiguous(f.bitmap, n) else PickScattered(f.bitmap, n);
      match picked
      case None => Err(MemoryError)
      case Some(indices) => Ok(MarkUsed(f, indices))
  }

  /** The number of distinct entries equals the length exactly when there
      are no duplicates; this is the duplicate test `free` performs. */
  lemma {:induction false} DistinctIffSetSize(s: seq<int>)
    ensures |set x | x in s| <= |s|
    ensures Distinct(s) <==> |set x | x in s| == |s|
  {
    if s != [] {
      var t := s[1..];
      DistinctIffSetSize(t);
      assert (set x | x in s) == {s[0]} + (set x | x in t);
      assert forall k :: 0 <= k < |t| ==> t[k] == s[k + 1];
      if s[0] in t {
        var k :| 0 <= k < |t| && t[k] == s[0];
        assert s[0] == s[k + 1];
        assert (set x | x in s) == (set x | x in t);
      } else {
        assert Distinct(s) <==> Distinct(t);
      }
    }
  }

  /** `FreeSpaceManager.free`: an empty list changes nothing; otherwise
      IndexError for an index outside the bitmap, ValueError for a duplicate
      or an already-free block, all checked before any bit is cleared. */
  function Free(f: Fsm, blocks: seq<int>): (r: Result<Fsm>)
    ensures blocks == [] ==> r == Ok(f)
    ensures r.Ok? <==> IndicesIn(f.bitmap, blocks) && Distinct(blocks) && forall k :: 0 <= k < |blocks| ==> f.bitmap[blocks[k]]
    ensures r.Err? ==> r.error == (if IndicesIn(f.bitmap, blocks) then ValueError else IndexError)
    ensures r.Ok? ==> r.value.bitmap == SetBits(f.bitmap, blocks, false)
    ensures r.Ok? ==> UsedCount(r.value.bitmap) == UsedCount(f.bitmap) - |blocks|
  {
    var bm := f.bitmap;
    if blocks == [] then Ok(f)
    else if !IndicesIn(bm, blocks) then Err(IndexError)
    else
      DistinctIffSetSize(blocks);
      if |set x | x in blocks| != |blocks| then Err(ValueError)
      else if exists k :: 0 <= k < |blocks| && !bm[blocks[k]] then Err(ValueError)
      else
        SetBitsCount(bm, blocks, false);
        Ok(Fsm(SetBits(bm, blocks, false)))
  }

  /** Freeing what an allocation returned, in any order, restores the exact
      prior bitmap. */
  lemma FreeUndoesAllocate(f: Fsm, n: int, contiguous: bool, blocks: seq<int>)
    requires Allocate(f, n, contiguous).Ok?
    requires Distinct(blocks)
    requires forall j :: j in blocks <==> j in Allocate(f, n, contiguous).value.indices
    ensures Free(Allocate(f, n, contiguous).value.fsm, blocks) == Ok(f)
  {
    var a := Allocate(f, n, contiguous).value;
    FreeUndoesMark(f, a.indices, blocks);
  }

  lemma FreeUndoesMark(f: Fsm, indices: seq<int>, blocks: seq<int>)
    requires IndicesIn(f.bitmap, indices)
    requires forall k :: 0 <= k < |indices| ==> !f.bitmap[indices[k]]
    requires Distinct(blocks)
    requires forall j :: j in blocks <==> j in indices
    ensures Free(Fsm(SetBits(f.bitmap, indices, true)), blocks) == Ok(f)
  {
    var bm := SetBits(f.bitmap, indices, true);
    assert forall k :: 0 <= k < |blocks| ==> blocks[k] in indices;
    assert IndicesIn(bm, blocks);
    SetBitsUndo(f.bitmap, indices, blocks, true);
    if blocks == [] {
      assert indices == [];
      assert bm == f.bitmap;
    }
  }

  /** `FreeSpaceManager.reserve_exact`: IndexError outside the bitmap,
      ValueError if any target is already used (nothing changes); otherwise
      every target becomes used. */
  function ReserveExact(f: Fsm, idxs: seq<int>): (r: Result<Fsm>)
    ensures r.Ok? <==> IndicesIn(f.bitmap, idxs) && forall k :: 0 <= k < |idxs| ==> !f.bitmap[idxs[k]]
    ensures r.Err? ==> r.error == (if IndicesIn(f.bitmap, idxs) then ValueError else IndexError)
    ensures r.Ok? ==> |r.value.bitmap| == |f.bitmap|
    ensures r.Ok? ==> forall j :: 0 <= j < |f.bitmap| ==> (r.value.bitmap[j] <==> f.bitmap[j] || j in idxs)
  {
    var bm := f.bitmap;
    if !IndicesIn(bm, idxs) then Err(IndexError)
    else if exists k :: 0 <= k < |idxs| && bm[idxs[k]] then Err(ValueError)
    else Ok(Fsm(SetBits(bm, idxs, true)))
  }

  /** `FreeSpaceManager.occupancy_pct`, as an exact real. */
  function OccupancyPct(f: Fsm): (r: real)
    ensures 0.0 <= r <= 100.0
    ensures r == 0.0 <==> f.NBlocks() == 0 || UsedCount(f.bitmap) == 0
    ensures r == 100.0 <==> f.NBlocks() > 0 && FreeCount(f.bitmap) == 0
  {
    if f.NBlocks() == 0 then 0.0
    else
      PctBounds(UsedCount(f.bitmap), f.NBlocks());
      100.0 * ((UsedCount(f.bitmap) as real) / (f.NBlocks() as real))
  }

  lemma PctBounds(u: nat, t: nat)
    requires u <= t && t > 0
    ensures 0.0 <= 100.0 * ((u as real) / (t as real)) <= 100.0
    ensures 100.0 * ((u as real) / (t as real)) == 0.0 <==> u == 0
    ensures 100.0 * ((u as real) / (t as real)) == 100.0 <==> u == t
  {
    var q := (u as real) / (t as real);
    assert q * (t as real) == u as real;
    assert 0.0 <= q <= 1.0;
  }

  /** `FreeSpaceManager.external_fragmentation_ratio`, as an exact real:
      0 without free blocks, otherwise `1 - largest / free`. It lies in
      `[0, 1)` and is 0 exactly when all free space is one run. */
  function ExternalFragmentationRatio(f: Fsm): (r: real)
    ensures 0.0 <= r < 1.0
    ensures r == 0.0 <==> FreeCount(f.bitmap) == 0 || LargestFreeRun(f.bitmap) == FreeCount(f.bitmap)
    ensures FreeCount(f.bitmap) > 0 ==> r == 1.0 - (LargestFreeRun(f.bitmap) as real) / (FreeCount(f.bitmap) as real)
  {
    var free := FreeCount(f.bitmap);
    if free == 0 then 0.0
    else
      var largest := LargestFreeRun(f.bitmap);
      LargestRunBounds(f.bitmap);
      RatioBounds(largest, free);
      1.0 - (largest as real) / (free as real)
  }

  lemma RatioBounds(a: nat, b: nat)
    requires 0 < a <= b
    ensures 0.0 <= 1.0 - (a as real) / (b as real) < 1.0
    ensures 1.0 - (a as real) / (b as real) == 0.0 <==> a == b
  {
    var q := (a as real) / (b as real);
    assert q * (b as real) == a as real;
    assert q <= 1.0;
    assert q > 0.0;
  }

  /** `FreeSpaceManager.snapshot_bitmap`: one 0/1 entry per block. */
  function SnapshotBitmap(f: Fsm): (r: seq<int>)
    ensures |r| == f.NBlocks()
    ensures forall j :: 0 <= j < |r| ==> r[j] == if f.bitmap[j] then 1 else 0
  {
    seq(|f.bitmap|, j requires 0 <= j < |f.bitmap| => if f.bitmap[j] then 1 else 0)
  }

  /** A contiguous request succeeds exactly when it fits in the largest free
      run, and a scattered one exactly when enough blocks are free. */
  lemma AllocateSucceedsIff(f: Fsm, n: int)
    requires n > 0
    ensures Allocate(f, n, true).Ok? <==> n <= LargestFreeRun(f.bitmap)
    ensures Allocate(f, n, false).Ok? <==> n <= FreeCount(f.bitmap)
  {
    FitIffLargest(f.bitmap, n);
  }
}

=== FILE: indexed.dfy ===
/** Indexed allocation: each file owns one index block holding the packed
    table of its data-block pointers, zero-padded to the block size, plus
    `size_blocks` data blocks. A file can have at most `block_size / 8`
    blocks, the number of pointers one index block holds. */
module Indexed {
  import opened Wrappers
  import opened Codec
  import opened Blocks
  import opened Disks
  import opened Bitmaps
  import opened FreeSpace
  import opened FileSystems

  datatype IndexedMeta = IndexedMeta(sizeBlocks: int, indexBlock: int)

  type IndexedFs = FsState<IndexedMeta>

  /** `_max_file_blocks`: `block_size // 8`, Python's floor division. */
  function MaxFileBlocks(d: Disk): (r: int)
    ensures d.blockSize >= 0 ==> r >= 0 && POINTER_SIZE * r <= d.blockSize < POINTER_SIZE * (r + 1)
  {
    d.blockSize / POINTER_SIZE
  }

  /** `_read_index_block`: IOError when the block is absent or shorter than
      `size_blocks` pointers; otherwise the first `size_blocks` pointers. */
  function ReadIndexBlock(d: Disk, idx: int, size: int): (r: Result<seq<int>>)
    ensures r.Ok? <==> InRange(d, idx) && Payload(d, idx).Some? && 0 <= size
                       && POINTER_SIZE * size <= |Payload(d, idx).value|
    ensures r.Err? ==> r.error == (if InRange(d, idx) then IOError else IndexError)
    ensures r.Ok? ==> |r.value| == size && forall k :: 0 <= k < size ==> InInt64(r.value[k])
  {
    var data :- ReadBlock(d, idx);
    if data.None? then Err(IOError)
    else
      var ptrs :- DecodeTable(data.value, size);
      assert ptrs == DecodeChunks(data.value[..POINTER_SIZE * size]);
      Ok(ptrs)
  }

  /** The bytes `_write_index_block` stores: the packed table, followed by
      zeros up to the block size when it is shorter. */
  function IndexImage(ptrs: seq<int>, blockSize: int): (r: Result<Bytes>)
    ensures r.Ok? <==> forall k :: 0 <= k < |ptrs| ==> InInt64(ptrs[k])
    ensures r.Err? ==> r.error == IOError
    ensures r.Ok? ==> |r.value| == if POINTER_SIZE * |ptrs| < blockSize then blockSize else POINTER_SIZE * |ptrs|
    ensures r.Ok? ==> forall k :: POINTER_SIZE * |ptrs| <= k < |r.value| ==> r.value[k] == 0
    ensures r.Ok? ==> DecodeTable(r.value, |ptrs|) == Ok(ptrs)
  {
    var packed :- EncodeTable(ptrs);
    if |packed| < blockSize then
      TableRoundTrip(ptrs, packed, Zeros(blockSize - |packed|));
      Ok(packed + Zeros(blockSize - |packed|))
    else
      TableRoundTrip(ptrs, packed, []);
      assert packed + [] == packed;
      Ok(packed)
  }

  /** `_write_index_block`: a pointer outside the signed 64-bit range is an
      IOError; the disk's own IndexError and ValueError pass through. On
      success, reading the index block back gives the pointers. */
  function WriteIndexBlock(d: Disk, idx: int, ptrs: seq<int>): (r: Result<Disk>)
    ensures r.Ok? <==> (forall k :: 0 <= k < |ptrs| ==> InInt64(ptrs[k])) && InRange(d, idx)
                       && POINTER_SIZE * |ptrs| <= d.blockSize
    ensures r.Err? ==> r.error == (if IndexImage(ptrs, d.blockSize).Err? then IOError
                                   else if !InRange(d, idx) then IndexError else ValueError)
    ensures r.Ok? ==> r.value == Store(d, idx, Some(IndexImage(ptrs, d.blockSize).value))
    ensures r.Ok? ==> |Payload(r.value, idx).value| == d.blockSize
    ensures r.Ok? ==> ReadIndexBlock(r.value, idx, |ptrs|) == Ok(ptrs)
  {
    var image :- IndexImage(ptrs, d.blockSize);
    WriteBlock(d, idx, Some(image))
  }

  /** `IndexedFS.create`. The name, size and size-cap checks come first
      (the cap is a MemoryError raised before any allocation). The lowest of
      `size_blocks + 1` scattered blocks becomes the index block and the rest
      are the data blocks in ascending order. If writing the index raises
      IOError, every allocated block is freed, the entry is removed and the
      IOError is raised again. */
  function Create(fs: IndexedFs, name: string, size: int): (r: Step<IndexedMeta, ()>)
    ensures name in fs.table ==> r == Step(fs, [], Err(FileExists))
    ensures name !in fs.table && size <= 0 ==> r == Step(fs, [], Err(ValueError))
    ensures name !in fs.table && 0 < size && size > MaxFileBlocks(fs.disk) ==> r == Step(fs, [], Err(MemoryError))
    ensures name !in fs.table && 0 < size <= MaxFileBlocks(fs.disk) ==>
              |r.events| >= 1 && r.events[0] == Mark("create:start")
    ensures name !in fs.table && 0 < size <= MaxFileBlocks(fs.disk) && size + 1 > FreeCount(fs.fsm.bitmap) ==>
              r == Step(fs, [Mark("create:start")], Err(MemoryError))
    ensures r.result == Err(IOError) ==> r.state == fs
    ensures r.result.Ok? ==>
              && name !in fs.table && 0 < size <= MaxFileBlocks(fs.disk)
              && Allocate(fs.fsm, size + 1, false).Ok?
              && var a := Allocate(fs.fsm, size + 1, false).value;
                 && r.state.fsm == a.fsm
                 && r.state.table == fs.table[name := IndexedMeta(size, a.indices[0])]
                 && ReadIndexBlock(r.state.disk, a.indices[0], size) == Ok(a.indices[1..])
    ensures r.result.Ok? ==> r.events == [Mark("create:start"), Mark("create:done")]
  {
    var check := Then(AssertNewFile(fs.table, name), AssertPositiveBlocks(size));
    if check.Fail? then Step(fs, [], Err(check.error))
    else if size > MaxFileBlocks(fs.disk) then Step(fs, [], Err(MemoryError))
    else
      match Allocate(fs.fsm, size + 1, false)
      case Err(e) => Step(fs, [Mark("create:start")], Err(e))
      case Ok(a) =>
        assert Claims(fs.fsm, a);
        Place(fs, name, size, a)
  }

  /** The part of `create` after a successful allocation: record the entry,
      write the index block, and on an IOError from that write free every
      allocated block and drop the entry again. */
  function Place(fs: IndexedFs, name: string, size: int, a: Allocation): (r: Step<IndexedMeta, ()>)
    requires name !in fs.table && size > 0 && |a.indices| == size + 1 && Claims(fs.fsm, a)
    ensures |r.events| >= 1 && r.events[0] == Mark("create:start")
    ensures r.result == Err(IOError) ==> r.state == fs
    ensures r.result.Ok? ==>
              && r.state.fsm == a.fsm
              && r.state.table == fs.table[name := IndexedMeta(size, a.indices[0])]
              && ReadIndexBlock(r.state.disk, a.indices[0], size) == Ok(a.indices[1..])
    ensures r.result.Ok? ==> r.events == [Mark("create:start"), Mark("create:done")]
  {
    var started := [Mark("create:start")];
    var index := a.indices[0];
    var data := a.indices[1..];
    var fs1 := fs.(fsm := a.fsm, table := fs.table[name := IndexedMeta(size, index)]);
    match WriteIndexBlock(fs.disk, index, data)
    case Ok(d) => Step(fs1.(disk := d), started + [Mark("create:done")], Ok(()))
    case Err(e) =>
      if e != IOError then Step(fs1, started, Err(e))
      else
        match Unallocate(fs.fsm, a)
        case Err(e2) => Step(fs1, started, Err(e2))
        case Ok(f) =>
          assert fs1.table - {name} == fs.table;
          Step(fs1.(fsm := f, table := fs1.table - {name}), started, Err(IOError))
  }

  /** The rollback's `free(data_blocks + [index_block])` after a scattered
      allocation: it always succeeds and restores the bitmap as it was
      before the allocation. */
  function Unallocate(f: Fsm, a: Allocation): (r: Result<Fsm>)
    requires |a.indices| > 0 && Claims(f, a)
    ensures r == Ok(f)
  {
    RollbackFrees(f, a, a.indices[0], a.indices[1..]);
    Free(a.fsm, a.indices[1..] + [a.indices[0]])
  }

  /** Freeing the data blocks and then the index block undoes a scattered
      allocation exactly. */
  lemma RollbackFrees(f: Fsm, a: Allocation, index: int, data: seq<int>)
    requires Claims(f, a) && |a.indices| > 0
    requires index == a.indices[0] && data == a.indices[1..]
    ensures Free(a.fsm, data + [index]) == Ok(f)
  {
    var ix := a.indices;
    RotateDistinct(ix);
    FreeUndoesMark(f, ix, data + [index]);
  }

  /** Moving the first element to the end keeps the elements and their
      distinctness. */
  lemma RotateDistinct(s: seq<int>)
    requires |s| > 0 && Distinct(s)
    ensures Distinct(s[1..] + [s[0]])
    ensures forall j :: j in s[1..] + [s[0]] <==> j in s
  {
    var t := s[1..] + [s[0]];
    assert s == [s[0]] + s[1..];
    forall i, j | 0 <= i < j < |t| ensures t[i] != t[j] {
      assert t[i] == s[i + 1];
      if j < |t| - 1 {
        assert t[j] == s[j + 1];
      } else {
        assert t[j] == s[0];
      }
    }
  }

  /** The blocks `delete` hands to `free`: the decoded data pointers and the
      index block, or only the index block when the index is corrupt. */
  function DeleteBlocks(decoded: Result<seq<int>>, index: int): (r: seq<int>)
    ensures decoded.Ok? ==> r == decoded.value + [index]
    ensures decoded.Err? ==> r == [index]
  {
    (if decoded.Ok? then decoded.value else []) + [index]
  }

  /** `IndexedFS.delete`. An IOError while decoding the index is tolerated
      (only the index block is freed); any other error propagates with
      nothing changed. The entry is removed before `free`, whose IndexError
      or ValueError is swallowed, leaving the bitmap unchanged. */
  function Delete(fs: IndexedFs, name: string): (r: Step<IndexedMeta, ()>)
    ensures name !in fs.table ==> r == Step(fs, [], Err(FileNotFound))
    ensures r.state.disk == fs.disk
    ensures name in fs.table ==>
              var m := fs.table[name];
              var decoded := ReadIndexBlock(fs.disk, m.indexBlock, m.sizeBlocks);
              var freed := Free(fs.fsm, DeleteBlocks(decoded, m.indexBlock));
              && |r.events| >= 1 && r.events[0] == Mark("delete:start")
              && (decoded.Err? && decoded.error != IOError ==>
                    r == Step(fs, [Mark("delete:start")], Err(decoded.error)))
              && (decoded.Ok? || decoded.error == IOError ==>
                    && r.result.Ok?
                    && r.events == [Mark("delete:start"), Mark("delete:done")]
                    && r.state.table == fs.table - {name}
                    && r.state.fsm == (if freed.Ok? then freed.value else fs.fsm))
  {
    if AssertFileExists(fs.table, name).Fail? then Step(fs, [], Err(FileNotFound))
    else
      var m := fs.table[name];
      var started := [Mark("delete:start")];
      var decoded := ReadIndexBlock(fs.disk, m.indexBlock, m.sizeBlocks);
      if decoded.Err? && decoded.error != IOError then Step(fs, started, Err(decoded.error))
      else
        var freed := Free(fs.fsm, DeleteBlocks(decoded, m.indexBlock));
        var f := if freed.Ok? then freed.value else fs.fsm;
        Step(fs.(fsm := f, table := fs.table - {name}), started + [Mark("delete:done")], Ok(()))
  }

  /** `IndexedFS._resolve_range`: after the existence and range checks, the
      slice `[offset : offset + n]` of the decoded pointer table. */
  function ResolveRange(fs: IndexedFs, name: string, offset: int, n: int): (r: Result<seq<int>>)
    ensures name !in fs.table ==> r == Err(FileNotFound)
    ensures name in fs.table && offset + n > fs.table[name].sizeBlocks ==> r == Err(ValueError)
    ensures name in fs.table && offset + n <= fs.table[name].sizeBlocks ==>
              var m := fs.table[name];
              var decoded := ReadIndexBlock(fs.disk, m.indexBlock, m.sizeBlocks);
              && (decoded.Err? ==> r == Err(decoded.error))
              && (decoded.Ok? ==> r == Ok(PySlice(decoded.value, offset, offset + n)))
              && (decoded.Ok? && 0 <= offset && 0 <= n ==> r == Ok(decoded.value[offset..offset + n]))
  {
    match AssertFileExists(fs.table, name)
    case Fail(e) => Err(e)
    case Pass =>
      var m := fs.table[name];
      :- AssertRangeWithinSize(m.sizeBlocks, offset, n);
      var ptrs :- ReadIndexBlock(fs.disk, m.indexBlock, m.sizeBlocks);
      Ok(PySlice(ptrs, offset, offset + n))
  }

  /** The checks `read` and `write` run before resolving: existence, then
      a positive count, then a non-negative offset. */
  function CheckAccess(fs: IndexedFs, name: string, offset: int, n: int): (r: Outcome)
    ensures r.Pass? <==> name in fs.table && n > 0 && offset >= 0
    ensures r.Fail? ==> r.error == (if name !in fs.table then FileNotFound else ValueError)
  {
    Then(Then(AssertFileExists(fs.table, name), AssertPositiveBlocks(n)), AssertNonNegative(offset))
  }

  /** `IndexedFS.read`: nothing changes; absent blocks read as `b""`. Only
      the start event carries the physical list and the count. */
  function Read(fs: IndexedFs, name: string, offset: int, n: int): (r: Step<IndexedMeta, seq<Bytes>>)
    ensures r.state == fs
    ensures CheckAccess(fs, name, offset, n).Fail? ==> r.events == [] && r.result == Err(CheckAccess(fs, name, offset, n).error)
    ensures CheckAccess(fs, name, offset, n).Pass? && ResolveRange(fs, name, offset, n).Err? ==>
              r.events == [] && r.result == Err(ResolveRange(fs, name, offset, n).error)
    ensures CheckAccess(fs, name, offset, n).Pass? && ResolveRange(fs, name, offset, n).Ok? ==>
              var phys := ResolveRange(fs, name, offset, n).value;
              && |r.events| >= 1 && r.events[0] == Event("read:start", phys, n)
              && (r.result.Ok? <==> AllInRange(fs.disk, phys))
              && (r.result.Err? ==> r.events == [Event("read:start", phys, n)] && r.result.error == IndexError)
              && (r.result.Ok? ==>
                    && r.events == [Event("read:start", phys, n), Mark("read:done")]
                    && |r.result.value| == |phys|
                    && forall k :: 0 <= k < |phys| ==> r.result.value[k] == OrEmpty(Payload(fs.disk, phys[k])))
  {
    var check := CheckAccess(fs, name, offset, n);
    if check.Fail? then Step(fs, [], Err(check.error))
    else
      match ResolveRange(fs, name, offset, n)
      case Err(e) => Step(fs, [], Err(e))
      case Ok(phys) =>
        var started := Event("read:start", phys, n);
        match ReadBlocks(fs.disk, phys)
        case Err(e) => Step(fs, [started], Err(e))
        case Ok(ps) =>
          Step(fs, [started, Mark("read:done")], Ok(seq(|ps|, k requires 0 <= k < |ps| => OrEmpty(ps[k]))))
  }

  /** The payload list of a write: `[b""] * n` without data, else the data. */
  function WritePayloads(n: int, data: Option<seq<Option<Bytes>>>): seq<Option<Bytes>> {
    if data.None? then EmptyPayloads(n) else data.value
  }

  /** `IndexedFS.write`. A data count other than `n` is a ValueError raised
      before the start event; then the blocks are written one `write_block`
      at a time, so a failing block leaves the earlier ones written. */
  function Write(fs: IndexedFs, name: string, offset: int, n: int, data: Option<seq<Option<Bytes>>>): (r: Step<IndexedMeta, ()>)
    ensures r.state.fsm == fs.fsm && r.state.table == fs.table
    ensures CheckAccess(fs, name, offset, n).Fail? ==> r == Step(fs, [], Err(CheckAccess(fs, name, offset, n).error))
    ensures CheckAccess(fs, name, offset, n).Pass? && ResolveRange(fs, name, offset, n).Err? ==>
              r == Step(fs, [], Err(ResolveRange(fs, name, offset, n).error))
    ensures (CheckAccess(fs, name, offset, n).Pass? && ResolveRange(fs, name, offset, n).Ok?
             && |WritePayloads(n, data)| != n) ==> r == Step(fs, [], Err(ValueError))
    ensures (CheckAccess(fs, name, offset, n).Pass? && ResolveRange(fs, name, offset, n).Ok?
             && |WritePayloads(n, data)| == n) ==>
              var phys := ResolveRange(fs, name, offset, n).value;
              var payloads := WritePayloads(n, data);
              && |phys| == n
              && |r.events| >= 1 && r.events[0] == Event("write:start", phys, n)
              && var k := FirstRejected(fs.disk, phys, payloads);
                 && r.state.disk == StoreAll(fs.disk, phys[..k], payloads[..k])
                 && (r.result.Ok? <==> k == n)
                 && (k == n ==> r.events == [Event("write:start", phys, n), Mark("write:done")])
                 && (k < n ==> r.events == [Event("write:start", phys, n)]
                               && r.result == Err(if InRange(fs.disk, phys[k]) then ValueError else IndexError))
  {
    var check := CheckAccess(fs, name, offset, n);
    if check.Fail? then Step(fs, [], Err(check.error))
    else
      match ResolveRange(fs, name, offset, n)
      case Err(e) => Step(fs, [], Err(e))
      case Ok(phys) =>
        var payloads := WritePayloads(n, data);
        if |payloads| != n then Step(fs, [], Err(ValueError))
        else
          var started := Event("write:start", phys, n);
          var written := WriteEach(fs.disk, phys, payloads);
          var fs1 := fs.(disk := written.0);
          if written.1.Fail? then Step(fs1, [started], Err(written.1.error))
          else Step(fs1, [started, Mark("write:done")], Ok(()))
  }

  /** The layout `create` chooses: the index block is the lowest allocated
      block, and the data pointers follow it in ascending order. */
  lemma CreateLayout(fs: IndexedFs, name: string, size: int)
    requires Create(fs, name, size).result.Ok?
    ensures var m := Create(fs, name, size).state.table[name];
            var ptrs := ReadIndexBlock(Create(fs, name, size).state.disk, m.indexBlock, size);
            && m.sizeBlocks == size
            && ptrs.Ok? && |ptrs.value| == size
            && Increasing(ptrs.value)
            && forall k :: 0 <= k < size ==> m.indexBlock < ptrs.value[k]
  {
    var c := Create(fs, name, size);
    assert name !in fs.table && 0 < size <= MaxFileBlocks(fs.disk);
    assert Allocate(fs.fsm, size + 1, false).Ok?;
    var a := Allocate(fs.fsm, size + 1, false).value;
    assert c.state.table[name] == IndexedMeta(size, a.indices[0]);
    assert ReadIndexBlock(c.state.disk, a.indices[0], size) == Ok(a.indices[1..]);
    TailLayout(a.indices);
  }

  /** Dropping the lowest element of an ascending list leaves an ascending
      list of larger elements. */
  lemma TailLayout(s: seq<int>)
    requires |s| > 0 && Increasing(s)
    ensures Increasing(s[1..]) && forall k :: 0 <= k < |s| - 1 ==> s[0] < s[1..][k]
  {
    assert forall k :: 0 <= k < |s| - 1 ==> s[1..][k] == s[k + 1];
  }

  /** What a successful `create` leaves behind, in terms of the scattered
      allocation it made. */
  lemma CreatedWith(fs: IndexedFs, name: string, size: int) returns (a: Allocation)
    requires Create(fs, name, size).result.Ok?
    ensures name !in fs.table && size > 0 && |a.indices| == size + 1 && Claims(fs.fsm, a)
    ensures var c := Create(fs, name, size).state;
            && c.fsm == a.fsm
            && c.table == fs.table[name := IndexedMeta(size, a.indices[0])]
            && ReadIndexBlock(c.disk, a.indices[0], size) == Ok(a.indices[1..])
  {
    a := Allocate(fs.fsm, size + 1, false).value;
  }

  /** Deleting a file whose index lists exactly the blocks of an allocation
      frees that allocation and drops the entry. */
  lemma DeleteUndoes(c: IndexedFs, name: string, size: int, f: Fsm, t: map<string, IndexedMeta>, a: Allocation)
    requires name !in t && size > 0 && |a.indices| == size + 1 && Claims(f, a)
    requires c.fsm == a.fsm && c.table == t[name := IndexedMeta(size, a.indices[0])]
    requires ReadIndexBlock(c.disk, a.indices[0], size) == Ok(a.indices[1..])
    ensures var d := Delete(c, name);
            d.result.Ok? && d.state.fsm == f && d.state.table == t
  {
    RollbackFrees(f, a, a.indices[0], a.indices[1..]);
    assert c.table - {name} == t;
  }

  /** Deleting a file right after creating it frees exactly what was
      allocated and removes the entry: bitmap and catalog are as before. */
  lemma CreateThenDelete(fs: IndexedFs, name: string, size: int)
    requires Create(fs, name, size).result.Ok?
    ensures var d := Delete(Create(fs, name, size).state, name);
            && d.result.Ok?
            && d.state.fsm == fs.fsm
            && d.state.table == fs.table
  {
    var a := CreatedWith(fs, name, size);
    DeleteUndoes(Create(fs, name, size).state, name, size, fs.fsm, fs.table, a);
  }

  /** A name that was deleted is gone: deleting it again is a FileNotFound. */
  lemma DeleteTwice(fs: IndexedFs, name: string)
    requires Delete(fs, name).result.Ok?
    ensures Delete(Delete(fs, name).state, name).result == Err(FileNotFound)
  {}

  /** What a successful `write` leaves behind: every target block stored,
      in order, and nothing else changed. */
  lemma WrittenWith(fs: IndexedFs, name: string, offset: int, n: int, data: Option<seq<Option<Bytes>>>)
    requires Write(fs, name, offset, n, data).result.Ok?
    ensures ResolveRange(fs, name, offset, n).Ok?
    ensures var phys := ResolveRange(fs, name, offset, n).value;
            var payloads := WritePayloads(n, data);
            && |phys| == n && |payloads| == n && AllInRange(fs.disk, phys)
            && Write(fs, name, offset, n, data).state == fs.(disk := StoreAll(fs.disk, phys, payloads))
  {
    var phys := ResolveRange(fs, name, offset, n).value;
    WholePrefix(fs.disk, phys, WritePayloads(n, data));
  }

  /** After storing `payloads` at the resolved blocks, the same range reads
      back the payloads when the blocks are distinct and miss the index. */
  lemma ReadAfterStore(fs: IndexedFs, name: string, offset: int, n: int, payloads: seq<Option<Bytes>>)
    requires ResolveRange(fs, name, offset, n).Ok? && CheckAccess(fs, name, offset, n).Pass?
    requires var phys := ResolveRange(fs, name, offset, n).value;
             && |phys| == |payloads| && AllInRange(fs.disk, phys) && Distinct(phys)
             && fs.table[name].indexBlock !in phys
    ensures var phys := ResolveRange(fs, name, offset, n).value;
            var r := Read(fs.(disk := StoreAll(fs.disk, phys, payloads)), name, offset, n).result;
            && r.Ok? && |r.value| == n
            && forall k :: 0 <= k < n ==> r.value[k] == OrEmpty(payloads[k])
  {
    var phys := ResolveRange(fs, name, offset, n).value;
    var d := StoreAll(fs.disk, phys, payloads);
    var m := fs.table[name];
    IndexUntouched(fs.disk, phys, payloads, m.indexBlock, m.sizeBlocks);
    var fs1 := fs.(disk := d);
    assert ResolveRange(fs1, name, offset, n) == Ok(phys);
    assert CheckAccess(fs1, name, offset, n).Pass?;
    forall k | 0 <= k < |phys| ensures LastWrite(phys, k) {
    }
    ReadBackStore(fs.disk, phys, payloads);
  }

  /** Storing to blocks other than the index block leaves the decoded
      index table as it was. */
  lemma IndexUntouched(d: Disk, idxs: seq<int>, payloads: seq<Option<Bytes>>, idx: int, size: int)
    requires |idxs| == |payloads| && AllInRange(d, idxs) && idx !in idxs
    ensures ReadIndexBlock(StoreAll(d, idxs, payloads), idx, size) == ReadIndexBlock(d, idx, size)
  {
    var r := StoreAll(d, idxs, payloads);
    if InRange(d, idx) {
      assert r.storage[idx] == d.storage[idx];
    }
  }

  /** Reading back what a successful write stored returns the written
      payloads, provided the written blocks are distinct and do not include
      the file's own index block (which a write could otherwise overwrite). */
  lemma StoredReadsBack(fs: IndexedFs, name: string, offset: int, n: int, data: Option<seq<Option<Bytes>>>)
    requires Write(fs, name, offset, n, data).result.Ok?
    requires ResolveRange(fs, name, offset, n).Ok?
    requires Distinct(ResolveRange(fs, name, offset, n).value)
    requires fs.table[name].indexBlock !in ResolveRange(fs, name, offset, n).value
    ensures var w := Write(fs, name, offset, n, data);
            var payloads := WritePayloads(n, data);
            && Read(w.state, name, offset, n).result.Ok?
            && |Read(w.state, name, offset, n).result.value| == n
            && forall k :: 0 <= k < n ==> Read(w.state, name, offset, n).result.value[k] == OrEmpty(payloads[k])
  {
    WrittenWith(fs, name, offset, n, data);
    ReadAfterStore(fs, name, offset, n, WritePayloads(n, data));
  }

  // ---------------------------------------------------------------------
  // The catalog invariant
  // ---------------------------------------------------------------------

  /** The file's index block can be decoded. */
  ghost predicate Decodes(d: Disk, m: IndexedMeta) {
    ReadIndexBlock(d, m.indexBlock, m.sizeBlocks).Ok?
  }

  /** The blocks a file owns, as its index describes them: the index block
      followed by the data pointers decoded from it. */
  ghost function Owned(d: Disk, m: IndexedMeta): seq<int>
    requires Decodes(d, m)
  {
    [m.indexBlock] + ReadIndexBlock(d, m.indexBlock, m.sizeBlocks).value
  }

  /** What a file costs the bitmap: its data blocks plus one index block
      (the `overhead_blocks` of 1 the source records). */
  function Footprint(m: IndexedMeta): int {
    m.sizeBlocks + 1
  }

  /** A file's index decodes, and the blocks it owns are distinct, on the
      bitmap and marked used. */
  ghost predicate Placed(d: Disk, bm: Bitmap, m: IndexedMeta) {
    && m.sizeBlocks > 0
    && Decodes(d, m)
    && Distinct(Owned(d, m))
    && IndicesIn(bm, Owned(d, m))
    && forall k :: 0 <= k < |Owned(d, m)| ==> bm[Owned(d, m)[k]]
  }

  /** No block belongs to both lists. */
  predicate Apart(s: seq<int>, t: seq<int>) {
    forall j :: j in s ==> j !in t
  }

  /** Every file in the catalog is placed on the bitmap. */
  ghost predicate AllPlaced(d: Disk, bm: Bitmap, t: map<string, IndexedMeta>) {
    forall x :: x in t ==> Placed(d, bm, t[x])
  }

  /** No block is owned by two files. */
  ghost predicate Disjoint(d: Disk, t: map<string, IndexedMeta>) {
    forall x, y :: x in t && y in t && x != y && Decodes(d, t[x]) && Decodes(d, t[y]) ==>
      Apart(Owned(d, t[x]), Owned(d, t[y]))
  }

  /** Every file owns its own blocks, no block is owned twice, and the
      bitmap's used count is the total footprint of the live files. */
  ghost predicate Inv(fs: IndexedFs) {
    && Valid(fs.disk)
    && fs.fsm.NBlocks() == NBlocks(fs.disk)
    && AllPlaced(fs.disk, fs.fsm.bitmap, fs.table)
    && Disjoint(fs.disk, fs.table)
    && UsedCount(fs.fsm.bitmap) == SumOver(fs.table, Footprint)
  }

  /** A fresh disk with an empty bitmap of the same size and an empty
      catalog satisfies the invariant. */
  lemma FreshInv(d: Disk)
    requires Valid(d)
    ensures Inv(NewFs(d, NewFsm(NBlocks(d), []).value))
    ensures FreeCount(NewFsm(NBlocks(d), []).value.bitmap) == NBlocks(d)
  {
    var f := NewFsm(NBlocks(d), []).value;
    UsedBetweenZero(f.bitmap, 0);
  }

  /** Decoding an index depends only on the disk's size and the payload of
      the index block. */
  lemma IndexFrame(d: Disk, d1: Disk, m: IndexedMeta)
    requires NBlocks(d1) == NBlocks(d)
    requires InRange(d, m.indexBlock) ==> Payload(d1, m.indexBlock) == Payload(d, m.indexBlock)
    ensures ReadIndexBlock(d1, m.indexBlock, m.sizeBlocks) == ReadIndexBlock(d, m.indexBlock, m.sizeBlocks)
  {}

  /** A placed file is disjoint from a list of free blocks, and stays placed
      when those blocks are marked used and the first of them is rewritten. */
  lemma KeptBeside(d: Disk, d1: Disk, bm: Bitmap, m: IndexedMeta, idxs: seq<int>)
    requires Placed(d, bm, m) && |bm| == NBlocks(d) && NBlocks(d1) == NBlocks(d)
    requires |idxs| > 0 && IndicesIn(bm, idxs) && forall k :: 0 <= k < |idxs| ==> !bm[idxs[k]]
    requires forall j :: 0 <= j < NBlocks(d) && j != idxs[0] ==> Payload(d1, j) == Payload(d, j)
    ensures Decodes(d1, m) && Owned(d1, m) == Owned(d, m)
    ensures Apart(Owned(d, m), idxs)
    ensures Placed(d1, SetBits(bm, idxs, true), m)
  {
    var own := Owned(d, m);
    forall j | j in own ensures j !in idxs {
      var p :| 0 <= p < |own| && own[p] == j;
      assert bm[own[p]];
    }
    assert own[0] == m.indexBlock;
    IndexFrame(d, d1, m);
  }

  /** The file `create` records owns exactly the allocated blocks. */
  lemma NewPlaced(d: Disk, bm: Bitmap, size: int, idxs: seq<int>)
    requires size > 0 && |idxs| == size + 1 && IndicesIn(bm, idxs) && Distinct(idxs)
    requires ReadIndexBlock(d, idxs[0], size) == Ok(idxs[1..])
    ensures Decodes(d, IndexedMeta(size, idxs[0])) && Owned(d, IndexedMeta(size, idxs[0])) == idxs
    ensures Placed(d, SetBits(bm, idxs, true), IndexedMeta(size, idxs[0]))
  {
    assert Owned(d, IndexedMeta(size, idxs[0])) == idxs;
  }

  /** The files already in the catalog keep their blocks, stay placed once
      the new allocation is marked used, and are apart from it. */
  lemma OthersKept(fs: IndexedFs, a: Allocation, d: Disk)
    requires AllPlaced(fs.disk, fs.fsm.bitmap, fs.table) && fs.fsm.NBlocks() == NBlocks(fs.disk)
    requires |a.indices| > 0 && Claims(fs.fsm, a) && NBlocks(d) == NBlocks(fs.disk)
    requires forall j :: 0 <= j < NBlocks(d) && j != a.indices[0] ==> Payload(d, j) == Payload(fs.disk, j)
    ensures AllPlaced(d, a.fsm.bitmap, fs.table)
    ensures forall x :: x in fs.table ==>
              && Decodes(d, fs.table[x]) && Owned(d, fs.table[x]) == Owned(fs.disk, fs.table[x])
              && Apart(Owned(fs.disk, fs.table[x]), a.indices)
  {
    forall x | x in fs.table
      ensures Decodes(d, fs.table[x]) && Owned(d, fs.table[x]) == Owned(fs.disk, fs.table[x])
      ensures Apart(Owned(fs.disk, fs.table[x]), a.indices)
      ensures Placed(d, a.fsm.bitmap, fs.table[x])
    {
      KeptBeside(fs.disk, d, fs.fsm.bitmap, fs.table[x], a.indices);
    }
  }

  /** Adding a file that owns blocks apart from every other file's keeps
      the files disjoint. */
  lemma AddedDisjoint(d0: Disk, d: Disk, t: map<string, IndexedMeta>, name: string, m: IndexedMeta)
    requires Disjoint(d0, t) && name !in t && Decodes(d, m)
    requires forall x :: x in t ==>
               && Decodes(d0, t[x]) && Decodes(d, t[x]) && Owned(d, t[x]) == Owned(d0, t[x])
               && Apart(Owned(d0, t[x]), Owned(d, m))
    ensures Disjoint(d, t[name := m])
  {
    var t1 := t[name := m];
    forall x, y | x in t1 && y in t1 && x != y && Decodes(d, t1[x]) && Decodes(d, t1[y])
      ensures Apart(Owned(d, t1[x]), Owned(d, t1[y]))
    {
      if x == name {
        assert Apart(Owned(d0, t[y]), Owned(d, m));
      } else if y != name {
        assert Apart(Owned(d0, t[x]), Owned(d0, t[y]));
      }
    }
  }

  /** Adding a file whose blocks were all free, with its index written and
      every other block untouched, keeps the invariant. */
  lemma CreatedInv(fs: IndexedFs, name: string, size: int, a: Allocation, d: Disk)
    requires Inv(fs) && name !in fs.table && size > 0
    requires |a.indices| == size + 1 && Claims(fs.fsm, a)
    requires Valid(d) && NBlocks(d) == NBlocks(fs.disk)
    requires forall j :: 0 <= j < NBlocks(d) && j != a.indices[0] ==> Payload(d, j) == Payload(fs.disk, j)
    requires ReadIndexBlock(d, a.indices[0], size) == Ok(a.indices[1..])
    ensures Inv(FsState(d, a.fsm, fs.table[name := IndexedMeta(size, a.indices[0])]))
  {
    var m := IndexedMeta(size, a.indices[0]);
    var t := fs.table[name := m];
    assert AllPlaced(d, a.fsm.bitmap, t) by {
      NewPlaced(d, fs.fsm.bitmap, size, a.indices);
      OthersKept(fs, a, d);
    }
    assert Disjoint(d, t) by {
      NewPlaced(d, fs.fsm.bitmap, size, a.indices);
      OthersKept(fs, a, d);
      AddedDisjoint(fs.disk, d, fs.table, name, m);
    }
    assert UsedCount(a.fsm.bitmap) == SumOver(t, Footprint) by {
      SetBitsCount(fs.fsm.bitmap, a.indices, true);
      SumOverInsert(fs.table, Footprint, name, m);
    }
  }

  /** Once the index block is on the disk and the table fits in it, the
      only way writing the index can fail is a pointer outside the signed
      64-bit range, and that failure is rolled back completely. */
  lemma PlaceOutcome(fs: IndexedFs, name: string, size: int, a: Allocation)
    requires name !in fs.table && size > 0 && |a.indices| == size + 1 && Claims(fs.fsm, a)
    requires InRange(fs.disk, a.indices[0]) && POINTER_SIZE * size <= fs.disk.blockSize
    ensures var r := Place(fs, name, size, a);
            && (r.result.Err? ==> r.result == Err(IOError) && r.state == fs)
            && (r.result.Ok? <==> forall k :: 1 <= k < |a.indices| ==> InInt64(a.indices[k]))
            && (r.result.Ok? ==> r.state.disk == Store(fs.disk, a.indices[0], Some(IndexImage(a.indices[1..], fs.disk.blockSize).value)))
  {
    var data := a.indices[1..];
    assert forall k :: 1 <= k < |a.indices| ==> a.indices[k] == data[k - 1];
    assert |data| == size;
  }

  /** The part of `create` after the allocation keeps the invariant. */
  lemma PlaceKeepsInv(fs: IndexedFs, name: string, size: int, a: Allocation)
    requires Inv(fs)
    requires name !in fs.table && size > 0 && |a.indices| == size + 1 && Claims(fs.fsm, a)
    requires POINTER_SIZE * size <= fs.disk.blockSize
    ensures var r := Place(fs, name, size, a);
            && Inv(r.state)
            && (r.result.Err? ==> r.state == fs)
            && (r.result.Ok? ==> UsedCount(r.state.fsm.bitmap) == UsedCount(fs.fsm.bitmap) + size + 1)
            && (r.result.Ok? <==> forall k :: 1 <= k < |a.indices| ==> InInt64(a.indices[k]))
  {
    assert InRange(fs.disk, a.indices[0]);
    PlaceOutcome(fs, name, size, a);
    var r := Place(fs, name, size, a);
    if r.result.Ok? {
      var d := r.state.disk;
      assert r.state == FsState(d, a.fsm, fs.table[name := IndexedMeta(size, a.indices[0])]);
      CreatedInv(fs, name, size, a, d);
      SetBitsCount(fs.fsm.bitmap, a.indices, true);
    }
  }

  /** `create` keeps the invariant. Under it a failed `create` changes
      nothing and a successful one adds the file's footprint to the used
      count. */
  lemma CreateKeepsInv(fs: IndexedFs, name: string, size: int)
    requires Inv(fs)
    ensures Inv(Create(fs, name, size).state)
    ensures Create(fs, name, size).result.Err? ==> Create(fs, name, size).state == fs
    ensures Create(fs, name, size).result.Ok? ==>
              UsedCount(Create(fs, name, size).state.fsm.bitmap) == UsedCount(fs.fsm.bitmap) + size + 1
  {
    var r := Create(fs, name, size);
    if name !in fs.table && 0 < size <= MaxFileBlocks(fs.disk) && Allocate(fs.fsm, size + 1, false).Ok? {
      var a := Allocate(fs.fsm, size + 1, false).value;
      assert Claims(fs.fsm, a);
      assert r == Place(fs, name, size, a);
      PlaceKeepsInv(fs, name, size, a);
    } else {
      assert r.state == fs;
    }
  }

  /** Under the invariant, on a disk whose block numbers fit a signed 64-bit
      pointer, `create` succeeds exactly when the name is new, the size is
      positive and within the index capacity, and `size_blocks + 1` blocks
      are free. */
  lemma CreateSucceedsIff(fs: IndexedFs, name: string, size: int)
    requires Inv(fs) && NBlocks(fs.disk) <= INT64_MAX + 1
    ensures Create(fs, name, size).result.Ok? <==>
              name !in fs.table && 0 < size <= MaxFileBlocks(fs.disk) && size + 1 <= FreeCount(fs.fsm.bitmap)
  {
    if name !in fs.table && 0 < size <= MaxFileBlocks(fs.disk) {
      AllocateSucceedsIff(fs.fsm, size + 1);
      if Allocate(fs.fsm, size + 1, false).Ok? {
        var a := Allocate(fs.fsm, size + 1, false).value;
        assert Claims(fs.fsm, a);
        assert InRange(fs.disk, a.indices[0]);
        IndicesInInt64(fs.fsm.bitmap, a.indices);
        PlaceOutcome(fs, name, size, a);
        assert Create(fs, name, size) == Place(fs, name, size, a);
      }
    }
  }

  /** Indices into a bitmap of at most 2^63 bits fit a signed 64-bit
      pointer. */
  lemma IndicesInInt64(bm: Bitmap, idxs: seq<int>)
    requires IndicesIn(bm, idxs) && |bm| <= INT64_MAX + 1
    ensures forall k :: 0 <= k < |idxs| ==> InInt64(idxs[k])
  {}

  /** Setting the bits of two lists with the same elements gives the same
      bitmap. */
  lemma SetBitsSameElements(bm: Bitmap, s: seq<int>, t: seq<int>, v: bool)
    requires IndicesIn(bm, s) && IndicesIn(bm, t)
    requires forall j :: j in s <==> j in t
    ensures SetBits(bm, s, v) == SetBits(bm, t, v)
  {
    var a := SetBits(bm, s, v);
    var b := SetBits(bm, t, v);
    assert forall j :: 0 <= j < |bm| ==> a[j] == b[j];
  }

  /** A placed file stays placed when blocks it does not own are cleared. */
  lemma KeptAfterClear(d: Disk, bm: Bitmap, m: IndexedMeta, idxs: seq<int>)
    requires Placed(d, bm, m) && IndicesIn(bm, idxs) && Apart(Owned(d, m), idxs)
    ensures Placed(d, SetBits(bm, idxs, false), m)
  {
    var own := Owned(d, m);
    forall k | 0 <= k < |own| ensures SetBits(bm, idxs, false)[own[k]] {
      assert own[k] in own;
    }
  }

  /** Freeing a file's blocks in the order `delete` hands them over (data
      blocks, then the index block) clears exactly those blocks. */
  lemma FreeOwned(f: Fsm, own: seq<int>)
    requires |own| > 0 && Distinct(own) && IndicesIn(f.bitmap, own)
    requires forall k :: 0 <= k < |own| ==> f.bitmap[own[k]]
    ensures Free(f, own[1..] + [own[0]]) == Ok(Fsm(SetBits(f.bitmap, own, false)))
    ensures UsedCount(SetBits(f.bitmap, own, false)) == UsedCount(f.bitmap) - |own|
  {
    var blocks := own[1..] + [own[0]];
    RotateDistinct(own);
    assert IndicesIn(f.bitmap, blocks) && forall k :: 0 <= k < |blocks| ==> f.bitmap[blocks[k]] by {
      forall k | 0 <= k < |blocks| ensures 0 <= blocks[k] < |f.bitmap| && f.bitmap[blocks[k]] {
        var p := if k < |own| - 1 then k + 1 else 0;
        assert blocks[k] == own[p];
      }
    }
    var r := Free(f, blocks);
    assert r.Ok? && r.value.bitmap == SetBits(f.bitmap, blocks, false);
    SetBitsSameElements(f.bitmap, blocks, own, false);
  }

  /** Under the invariant `delete` of a live file clears exactly the blocks
      it owns and lowers the used count by its footprint. */
  lemma DeleteClearsOwned(fs: IndexedFs, name: string)
    requires name in fs.table && Placed(fs.disk, fs.fsm.bitmap, fs.table[name])
    ensures var m := fs.table[name];
            && Delete(fs, name).result.Ok?
            && Delete(fs, name).state == fs.(fsm := Fsm(SetBits(fs.fsm.bitmap, Owned(fs.disk, m), false)),
                                             table := fs.table - {name})
            && UsedCount(Delete(fs, name).state.fsm.bitmap) == UsedCount(fs.fsm.bitmap) - Footprint(m)
  {
    var m := fs.table[name];
    var own := Owned(fs.disk, m);
    var decoded := ReadIndexBlock(fs.disk, m.indexBlock, m.sizeBlocks);
    assert DeleteBlocks(decoded, m.indexBlock) == own[1..] + [own[0]];
    FreeOwned(fs.fsm, own);
  }

  /** Dropping a file and clearing the blocks it owns keeps the invariant. */
  lemma RemovedInv(fs: IndexedFs, name: string)
    requires Inv(fs) && name in fs.table
    ensures Inv(fs.(fsm := Fsm(SetBits(fs.fsm.bitmap, Owned(fs.disk, fs.table[name]), false)),
                    table := fs.table - {name}))
  {
    var bm := fs.fsm.bitmap;
    var m := fs.table[name];
    var own := Owned(fs.disk, m);
    var bm1 := SetBits(bm, own, false);
    var t := fs.table - {name};
    forall x | x in t ensures Placed(fs.disk, bm1, t[x]) {
      assert Placed(fs.disk, bm, fs.table[x]);
      assert Apart(Owned(fs.disk, fs.table[x]), own);
      KeptAfterClear(fs.disk, bm, t[x], own);
    }
    SetBitsCount(bm, own, false);
    SumOverRemove(fs.table, Footprint, name);
  }

  /** `delete` keeps the invariant. Under it `delete` succeeds exactly when
      the file exists; it then clears exactly the blocks the file owns,
      removes the entry, and lowers the used count by the file's footprint. */
  lemma DeleteKeepsInv(fs: IndexedFs, name: string)
    requires Inv(fs)
    ensures Inv(Delete(fs, name).state)
    ensures Delete(fs, name).result.Ok? <==> name in fs.table
    ensures name in fs.table ==>
              var m := fs.table[name];
              && Delete(fs, name).state == fs.(fsm := Fsm(SetBits(fs.fsm.bitmap, Owned(fs.disk, m), false)),
                                               table := fs.table - {name})
              && UsedCount(Delete(fs, name).state.fsm.bitmap) == UsedCount(fs.fsm.bitmap) - Footprint(m)
  {
    if name in fs.table {
      assert Placed(fs.disk, fs.fsm.bitmap, fs.table[name]);
      DeleteClearsOwned(fs, name);
      RemovedInv(fs, name);
    }
  }

  /** Every live file's index decodes the same on both disks. */
  ghost predicate SameIndexes(d: Disk, d1: Disk, t: map<string, IndexedMeta>) {
    forall x :: x in t ==>
      ReadIndexBlock(d1, t[x].indexBlock, t[x].sizeBlocks) == ReadIndexBlock(d, t[x].indexBlock, t[x].sizeBlocks)
  }

  /** Placement survives a disk change that keeps every index. */
  lemma SamePlaced(d: Disk, d1: Disk, bm: Bitmap, t: map<string, IndexedMeta>)
    requires AllPlaced(d, bm, t) && SameIndexes(d, d1, t)
    ensures AllPlaced(d1, bm, t)
  {
    forall x | x in t ensures Placed(d1, bm, t[x]) {
      assert Placed(d, bm, t[x]);
    }
  }

  /** Disjointness survives a disk change that keeps every index. */
  lemma SameDisjoint(d: Disk, d1: Disk, t: map<string, IndexedMeta>)
    requires Disjoint(d, t) && SameIndexes(d, d1, t)
    ensures Disjoint(d1, t)
  {
    forall x, y | x in t && y in t && x != y && Decodes(d1, t[x]) && Decodes(d1, t[y])
      ensures Apart(Owned(d1, t[x]), Owned(d1, t[y]))
    {
      assert Decodes(d, t[x]) && Decodes(d, t[y]);
    }
  }

  /** The invariant depends on the disk only through its validity, its
      size and what each live file's index decodes to. */
  lemma SameIndexesInv(fs: IndexedFs, d1: Disk)
    requires Inv(fs) && Valid(d1) && NBlocks(d1) == NBlocks(fs.disk)
    requires SameIndexes(fs.disk, d1, fs.table)
    ensures Inv(fs.(disk := d1))
  {
    SamePlaced(fs.disk, d1, fs.fsm.bitmap, fs.table);
    SameDisjoint(fs.disk, d1, fs.table);
  }

  /** Storing fitting payloads to in-range blocks that hold no index keeps
      the invariant: every index still decodes to the same pointers. */
  lemma StoreKeepsInv(fs: IndexedFs, idxs: seq<int>, payloads: seq<Option<Bytes>>)
    requires Inv(fs) && |idxs| == |payloads| && AllInRange(fs.disk, idxs) && Fits(fs.disk, payloads)
    requires forall x :: x in fs.table ==> fs.table[x].indexBlock !in idxs
    ensures Inv(fs.(disk := StoreAll(fs.disk, idxs, payloads)))
  {
    var d1 := StoreAll(fs.disk, idxs, payloads);
    forall x | x in fs.table
      ensures ReadIndexBlock(d1, fs.table[x].indexBlock, fs.table[x].sizeBlocks)
              == ReadIndexBlock(fs.disk, fs.table[x].indexBlock, fs.table[x].sizeBlocks)
    {
      IndexUntouched(fs.disk, idxs, payloads, fs.table[x].indexBlock, fs.table[x].sizeBlocks);
    }
    assert SameIndexes(fs.disk, d1, fs.table);
    SameIndexesInv(fs, d1);
  }

  /** The data pointers of a placed file are not its own index block. */
  lemma DataMissesOwnIndex(d: Disk, bm: Bitmap, m: IndexedMeta, p: int)
    requires Placed(d, bm, m) && 1 <= p < |Owned(d, m)|
    ensures Owned(d, m)[p] != m.indexBlock
  {
    assert Owned(d, m)[0] == m.indexBlock;
  }

  /** The blocks one file owns miss the index block of a file it is apart
      from. */
  lemma ApartMissesIndex(d: Disk, m: IndexedMeta, o: IndexedMeta, p: int)
    requires Decodes(d, m) && Decodes(d, o) && Apart(Owned(d, m), Owned(d, o)) && 0 <= p < |Owned(d, m)|
    ensures Owned(d, m)[p] != o.indexBlock
  {
    assert Owned(d, o)[0] == o.indexBlock;
    assert Owned(d, m)[p] in Owned(d, m);
  }

  /** No data pointer of a live file is the index block of a live file. */
  lemma DataMissesIndexes(d: Disk, bm: Bitmap, t: map<string, IndexedMeta>, name: string, x: string, p: int)
    requires name in t && x in t && AllPlaced(d, bm, t) && Disjoint(d, t)
    requires Decodes(d, t[name]) && 1 <= p < |Owned(d, t[name])|
    ensures Owned(d, t[name])[p] != t[x].indexBlock
  {
    assert Placed(d, bm, t[name]);
    if x == name {
      DataMissesOwnIndex(d, bm, t[name], p);
    } else {
      assert Placed(d, bm, t[x]);
      ApartMissesIndex(d, t[name], t[x], p);
    }
  }

  /** A slice of a placed file's data pointers is distinct and holds no
      live file's index block. */
  lemma SliceTargets(d: Disk, bm: Bitmap, t: map<string, IndexedMeta>, name: string, offset: int, n: int)
    requires name in t && AllPlaced(d, bm, t) && Disjoint(d, t)
    requires 0 <= offset && 0 <= n && offset + n <= t[name].sizeBlocks
    ensures var phys := Owned(d, t[name])[offset + 1..offset + n + 1];
            && Distinct(phys)
            && forall x :: x in t ==> t[x].indexBlock !in phys
  {
    assert Placed(d, bm, t[name]);
    var own := Owned(d, t[name]);
    var phys := own[offset + 1..offset + n + 1];
    assert forall i :: 0 <= i < |phys| ==> phys[i] == own[offset + i + 1];
    forall x | x in t ensures t[x].indexBlock !in phys {
      forall i | 0 <= i < |phys| ensures phys[i] != t[x].indexBlock {
        DataMissesIndexes(d, bm, t, name, x, offset + i + 1);
      }
    }
  }

  /** A range that resolves is a slice of the file's owned blocks, just
      past the index block. */
  lemma ResolvedSlice(fs: IndexedFs, name: string, offset: int, n: int)
    requires CheckAccess(fs, name, offset, n).Pass? && ResolveRange(fs, name, offset, n).Ok?
    ensures Decodes(fs.disk, fs.table[name]) && 0 <= offset && 0 <= n && offset + n <= fs.table[name].sizeBlocks
    ensures ResolveRange(fs, name, offset, n).value == Owned(fs.disk, fs.table[name])[offset + 1..offset + n + 1]
  {
    var m := fs.table[name];
    var ptrs := ReadIndexBlock(fs.disk, m.indexBlock, m.sizeBlocks).value;
    assert Owned(fs.disk, m)[offset + 1..offset + n + 1] == ptrs[offset..offset + n];
  }

  /** The blocks a write in range resolves to are data blocks of the file:
      distinct, and none of them is any live file's index block. */
  lemma WriteTargets(fs: IndexedFs, name: string, offset: int, n: int)
    requires Inv(fs) && CheckAccess(fs, name, offset, n).Pass? && ResolveRange(fs, name, offset, n).Ok?
    ensures var phys := ResolveRange(fs, name, offset, n).value;
            && Distinct(phys)
            && forall x :: x in fs.table ==> fs.table[x].indexBlock !in phys
  {
    ResolvedSlice(fs, name, offset, n);
    SliceTargets(fs.disk, fs.fsm.bitmap, fs.table, name, offset, n);
  }

  /** `write` keeps the invariant: whatever prefix of the blocks it writes
      before stopping, no index block is among them and no block grows past
      the block size. */
  lemma WriteKeepsInv(fs: IndexedFs, name: string, offset: int, n: int, data: Option<seq<Option<Bytes>>>)
    requires Inv(fs)
    ensures Inv(Write(fs, name, offset, n, data).state)
  {
    var w := Write(fs, name, offset, n, data);
    if CheckAccess(fs, name, offset, n).Pass? && ResolveRange(fs, name, offset, n).Ok?
       && |WritePayloads(n, data)| == n {
      var phys := ResolveRange(fs, name, offset, n).value;
      var payloads := WritePayloads(n, data);
      var k := FirstRejected(fs.disk, phys, payloads);
      assert w.state == fs.(disk := StoreAll(fs.disk, phys[..k], payloads[..k]));
      WriteTargets(fs, name, offset, n);
      AcceptedPrefix(fs, phys, payloads, k);
      StoreKeepsInv(fs, phys[..k], payloads[..k]);
    } else {
      assert w.state == fs;
    }
  }

  /** The writes before the first rejected one are in range, fit, and miss
      every index block the whole list misses. */
  lemma AcceptedPrefix(fs: IndexedFs, phys: seq<int>, payloads: seq<Option<Bytes>>, k: int)
    requires |phys| == |payloads| && k == FirstRejected(fs.disk, phys, payloads)
    requires forall x :: x in fs.table ==> fs.table[x].indexBlock !in phys
    ensures AllInRange(fs.disk, phys[..k]) && Fits(fs.disk, payloads[..k])
    ensures forall x :: x in fs.table ==> fs.table[x].indexBlock !in phys[..k]
  {
    assert forall i :: 0 <= i < k ==> phys[..k][i] == phys[i] && payloads[..k][i] == payloads[i];
    assert forall j :: j in phys[..k] ==> j in phys;
  }

  /** Under the invariant, reading back what a successful `write` stored
      returns the written payloads, block by block. */
  lemma WriteThenRead(fs: IndexedFs, name: string, offset: int, n: int, data: Option<seq<Option<Bytes>>>)
    requires Inv(fs) && Write(fs, name, offset, n, data).result.Ok?
    ensures var w := Write(fs, name, offset, n, data);
            var payloads := WritePayloads(n, data);
            && Read(w.state, name, offset, n).result.Ok?
            && |Read(w.state, name, offset, n).result.value| == n
            && forall k :: 0 <= k < n ==> Read(w.state, name, offset, n).result.value[k] == OrEmpty(payloads[k])
  {
    WrittenWith(fs, name, offset, n, data);
    WriteTargets(fs, name, offset, n);
    StoredReadsBack(fs, name, offset, n, data);
  }
}

=== FILE: literals.dfy ===
/** The text forms Python's `int(s)` and `float(s)` accept for a string
    `s`: surrounding whitespace, an optional sign, decimal digits with
    single underscores between them, and for `float` a fraction and an
    exponent. The value of a `float` text is the exact decimal it spells;
    rounding to a binary double is not modelled. */
module Literals {
  import opened Wrappers
  import opened Names

  /** The ASCII whitespace `int()` and `float()` skip: the space and `\t`
      through `\r`. The separators U+001C through U+001F, which
      `str.isspace` counts, are not skipped. */
  predicate IsSpace(c: char) {
    c == ' ' || '\t' <= c <= '\r'
  }

  /** The string without its leading whitespace. */
  function StripLeft(s: string): (r: string)
    ensures |r| <= |s|
    decreases |s|
  {
    if s != [] && IsSpace(s[0]) then StripLeft(s[1..]) else s
  }

  /** `StripLeft` removes a prefix of whitespace, and no more. */
  lemma {:induction false} StripLeftShape(s: string)
    ensures StripLeft(s) == s[|s| - |StripLeft(s)|..]
    ensures forall k :: 0 <= k < |s| - |StripLeft(s)| ==> IsSpace(s[k])
    ensures StripLeft(s) == [] || !IsSpace(StripLeft(s)[0])
    decreases |s|
  {
    if s != [] && IsSpace(s[0]) {
      StripLeftShape(s[1..]);
    }
  }

  /** The string without its trailing whitespace. */
  function StripRight(s: string): (r: string)
    ensures |r| <= |s|
    decreases |s|
  {
    if s != [] && IsSpace(s[|s| - 1]) then StripRight(s[..|s| - 1]) else s
  }

  /** `StripRight` removes a suffix of whitespace, and no more. */
  lemma {:induction false} StripRightShape(s: string)
    ensures StripRight(s) == s[..|StripRight(s)|]
    ensures forall k :: |StripRight(s)| <= k < |s| ==> IsSpace(s[k])
    ensures StripRight(s) == [] || !IsSpace(StripRight(s)[|StripRight(s)| - 1])
    decreases |s|
  {
    if s != [] && IsSpace(s[|s| - 1]) {
      StripRightShape(s[..|s| - 1]);
    }
  }

  /** `s.strip()`. */
  function Strip(s: string): string {
    StripRight(StripLeft(s))
  }

  /** The text starts with a `+` or `-`. */
  predicate HasSign(s: string) {
    |s| > 0 && (s[0] == '+' || s[0] == '-')
  }

  /** The text starts with a `-`. */
  predicate Negative(s: string) {
    |s| > 0 && s[0] == '-'
  }

  /** The text after an optional leading sign. */
  function Unsigned(s: string): string {
    if HasSign(s) then s[1..] else s
  }

  /** Digits with single underscores between them (PEP 515): it starts
      and ends with a digit and never has two underscores in a row. */
  predicate DigitPart(s: string) {
    && |s| > 0
    && IsDigit(s[0]) && IsDigit(s[|s| - 1])
    && (forall k :: 0 <= k < |s| ==> IsDigit(s[k]) || s[k] == '_')
    && forall k :: 0 <= k < |s| - 1 ==> !DoubleUnderscore(s, k)
  }

  predicate DoubleUnderscore(s: string, k: int)
    requires 0 <= k < |s| - 1
  {
    s[k] == '_' && s[k + 1] == '_'
  }

  /** The characters of `s` other than underscores, in order. */
  function DropUnderscores(s: string): (r: string)
    ensures |r| <= |s|
    ensures (forall k :: 0 <= k < |s| ==> IsDigit(s[k]) || s[k] == '_') ==> forall k :: 0 <= k < |r| ==> IsDigit(r[k])
    ensures (forall k :: 0 <= k < |s| ==> s[k] != '_') ==> r == s
    decreases |s|
  {
    if s == [] then [] else (if s[0] == '_' then [] else [s[0]]) + DropUnderscores(s[1..])
  }

  /** The number a digit part denotes. */
  function DigitsValue(s: string): nat
    requires DigitPart(s)
  {
    ValueOf(DropUnderscores(s))
  }

  function Signed(neg: bool, x: int): int {
    if neg then -x else x
  }

  /** `int(s)` on a string: the value, or `None` where Python raises
      ValueError. */
  function ParseInt(s: string): Option<int> {
    IntBody(Strip(s))
  }

  /** A stripped `int` text: an optional sign and a digit part. A `float`
      exponent after its `e` reads the same way. */
  function IntBody(t: string): Option<int> {
    if DigitPart(Unsigned(t)) then Some(Signed(Negative(t), DigitsValue(Unsigned(t)))) else None
  }

  /** The separators a `float` text is split at. */
  datatype Mark = Point | Exponent

  /** `c` is the decimal point, or the `e` or `E` that starts an exponent. */
  predicate Marks(m: Mark, c: char) {
    match m
    case Point => c == '.'
    case Exponent => c == 'e' || c == 'E'
  }

  /** The position of the first mark `m` in `s`, or `|s|`. */
  function FindFirst(s: string, m: Mark): (r: nat)
    ensures r <= |s|
    ensures forall k :: 0 <= k < r ==> !Marks(m, s[k])
    ensures r < |s| ==> Marks(m, s[r])
    decreases |s|
  {
    if s == [] then 0 else if Marks(m, s[0]) then 0 else 1 + FindFirst(s[1..], m)
  }

  /** `10^n`. */
  function Pow10(n: nat): (r: nat)
    ensures r >= 1
  {
    if n == 0 then 1 else 10 * Pow10(n - 1)
  }

  /** `x * 10^e`, one multiplication or division by ten at a time. */
  function Shift(x: real, e: int): real
    decreases if e < 0 then -e else e
  {
    if e == 0 then x else if e > 0 then Shift(x * 10.0, e - 1) else Shift(x / 10.0, e + 1)
  }

  /** Shifting up by `n` places multiplies by `10^n`. */
  lemma {:induction false} ShiftUp(x: real, n: nat)
    decreases n
    ensures Shift(x, n) == x * Pow10(n) as real
  {
    if n > 0 {
      ShiftUp(x * 10.0, n - 1);
      assert (x * 10.0) * Pow10(n - 1) as real == x * (10 * Pow10(n - 1)) as real;
    }
  }

  /** Shifting down by `n` places divides by `10^n`. */
  lemma {:induction false} ShiftDown(x: real, n: nat)
    decreases n
    ensures Shift(x, -(n as int)) * Pow10(n) as real == x
  {
    if n > 0 {
      ShiftDown(x / 10.0, n - 1);
      assert Shift(x, -(n as int)) == Shift(x / 10.0, -(n as int - 1));
      var y := Shift(x, -(n as int));
      assert y * Pow10(n - 1) as real == x / 10.0;
      assert y * (10 * Pow10(n - 1)) as real == 10.0 * (y * Pow10(n - 1) as real);
    }
  }

  /** A non-negative number below `10^n`, shifted down by `n` places, is
      below one. */
  lemma {:induction false} ShiftBelowOne(x: real, n: nat)
    requires 0.0 <= x < Pow10(n) as real
    decreases n
    ensures 0.0 <= Shift(x, -(n as int)) < 1.0
  {
    if n > 0 {
      assert Shift(x, -(n as int)) == Shift(x / 10.0, -(n as int - 1));
      assert x / 10.0 < Pow10(n - 1) as real;
      ShiftBelowOne(x / 10.0, n - 1);
    }
  }

  /** A digit part read as the digits after a decimal point. */
  function Fraction(s: string): (r: real)
    requires |s| == 0 || DigitPart(s)
    ensures 0.0 <= r < 1.0
  {
    if |s| == 0 then 0.0
    else
      var digits := DropUnderscores(s);
      ValueBelowPow10(digits);
      ShiftBelowOne(DigitsValue(s) as real, |digits|);
      Shift(DigitsValue(s) as real, -|digits|)
  }

  /** A digit string of length `n` denotes less than `10^n`. */
  lemma {:induction false} ValueBelowPow10(s: string)
    requires forall k :: 0 <= k < |s| ==> IsDigit(s[k])
    ensures ValueOf(s) < Pow10(|s|)
    decreases |s|
  {
    if s != [] {
      ValueBelowPow10(s[..|s| - 1]);
    }
  }

  /** The mantissa of a `float` text: digits, digits and a point, digits
      and a fraction, or a point and a fraction. */
  function ParseMantissa(s: string): Option<real> {
    var p := FindFirst(s, Point);
    if p == |s| then
      if DigitPart(s) then Some(DigitsValue(s) as real) else None
    else Pointed(s[..p], s[p + 1..])
  }

  /** The digits before and after a decimal point: either side may be
      empty, but not both. */
  function Pointed(whole: string, frac: string): Option<real> {
    if (|whole| == 0 || DigitPart(whole)) && (|frac| == 0 || DigitPart(frac)) && |whole| + |frac| > 0 then
      Some((if |whole| == 0 then 0 else DigitsValue(whole)) as real + Fraction(frac))
    else None
  }

  /** `float(s)` on a string: the decimal value, or `None` where Python
      raises ValueError. */
  function ParseReal(s: string): Option<real> {
    RealBody(Strip(s))
  }

  /** A stripped `float` text: an optional sign and a magnitude. */
  function RealBody(t: string): Option<real> {
    match Magnitude(Unsigned(t))
    case None => None
    case Some(x) => Some(if Negative(t) then -x else x)
  }

  /** An unsigned `float` text: a mantissa, then optionally `e` or `E` and
      a signed exponent. */
  function Magnitude(body: string): Option<real> {
    var e := FindFirst(body, Exponent);
    Scaled(ParseMantissa(body[..e]), if e == |body| then Some(0) else IntBody(body[e + 1..]))
  }

  /** A mantissa times ten to an exponent, when both parsed. */
  function Scaled(mantissa: Option<real>, exponent: Option<int>): Option<real> {
    if mantissa.Some? && exponent.Some? then Some(Shift(mantissa.value, exponent.value)) else None
  }

  /** `str(i)`: the decimal text of an integer. */
  function IntText(i: int): string {
    if i < 0 then "-" + Dec(-i) else Dec(i)
  }

  /** Digit strings hold no underscore and form a digit part. */
  lemma DigitsArePart(s: string)
    requires |s| > 0 && forall k :: 0 <= k < |s| ==> IsDigit(s[k])
    ensures DigitPart(s) && DropUnderscores(s) == s && DigitsValue(s) == ValueOf(s)
  {}

  /** `int(str(i)) == i`: the decimal text of every integer parses back. */
  lemma IntTextRoundTrip(i: int)
    ensures ParseInt(IntText(i)) == Some(i)
  {
    var n: nat := if i < 0 then -i else i;
    var t := IntText(i);
    var ds := Dec(n);
    assert !IsSpace(t[0]) && !IsSpace(t[|t| - 1]);
    assert StripLeft(t) == t;
    assert Strip(t) == t;
    assert Negative(t) == (i < 0) && Unsigned(t) == ds by {
      if i < 0 {
        assert t[1..] == ds;
      }
    }
    DigitsArePart(ds);
    DecRoundTrip(n);
  }

  /** A digit part contains neither a point nor an exponent marker. */
  lemma DigitPartIsPlain(s: string)
    requires DigitPart(s)
    ensures FindFirst(s, Exponent) == |s|
    ensures FindFirst(s, Point) == |s|
  {
  }

  /** Every text `int()` accepts, `float()` accepts with the same value. */
  lemma ParseRealExtendsInt(s: string)
    requires ParseInt(s).Some?
    ensures ParseReal(s) == Some(ParseInt(s).value as real)
  {
    var body := Unsigned(Strip(s));
    DigitPartIsPlain(body);
    assert body[..|body|] == body;
  }

  /** A text that neither starts nor ends with whitespace is its own
      strip. */
  lemma StripPlain(t: string)
    requires |t| > 0 && !IsSpace(t[0]) && !IsSpace(t[|t| - 1])
    ensures Strip(t) == t
  {
    assert StripLeft(t) == t;
  }

  /** The decimal text of a natural number is a digit part denoting it. */
  lemma DecParses(n: nat)
    ensures DigitPart(Dec(n)) && DigitsValue(Dec(n)) == n
  {
    DigitsArePart(Dec(n));
    DecRoundTrip(n);
  }

  /** The first match in `s + t` is at `|s|` when `s` has none and `t`
      starts with one. */
  lemma {:induction false} FindFirstAt(s: string, t: string, m: Mark)
    requires forall k :: 0 <= k < |s| ==> !Marks(m, s[k])
    requires |t| > 0 && Marks(m, t[0])
    ensures FindFirst(s + t, m) == |s|
    decreases |s|
  {
    if s != [] {
      assert (s + t)[1..] == s[1..] + t;
      FindFirstAt(s[1..], t, m);
    }
  }

  /** The text `str(i)` reads back as `i`, with no whitespace step; this is
      also how a `float` exponent reads. */
  lemma IntBodyRoundTrip(e: int)
    ensures IntBody(IntText(e)) == Some(e)
  {
    var n: nat := if e < 0 then -e else e;
    var t := IntText(e);
    assert Negative(t) == (e < 0) && Unsigned(t) == Dec(n) by {
      if e < 0 {
        assert t[1..] == Dec(n);
      }
    }
    DecParses(n);
  }

  /** Leading whitespace does not change what `int()` or `float()` makes of
      a text. */
  lemma LeadingSpace(c: char, s: string)
    requires IsSpace(c)
    ensures ParseInt([c] + s) == ParseInt(s)
    ensures ParseReal([c] + s) == ParseReal(s)
  {
    assert ([c] + s)[1..] == s;
    assert Strip([c] + s) == Strip(s);
  }

  /** A character other than whitespace, a digit, an underscore or a sign
      makes `int()` raise ValueError: `int("4.5")`, `int("1e3")` and
      `int("abc")` all fail. */
  lemma IntRejectsOther(s: string, k: int)
    requires 0 <= k < |s|
    requires !IsSpace(s[k]) && !IsDigit(s[k]) && s[k] != '_' && s[k] != '+' && s[k] != '-'
    ensures ParseInt(s) == None
  {
    var l := StripLeft(s);
    var t := Strip(s);
    StripLeftShape(s);
    StripRightShape(l);
    var j := k - (|s| - |l|);
    assert 0 <= j < |l| && l[j] == s[k];
    assert j < |t| && t[j] == s[k];
    var u := Unsigned(t);
    if HasSign(t) {
      assert j > 0 && u[j - 1] == s[k];
    } else {
      assert u[j] == s[k];
    }
  }

  /** A text that starts and ends with a digit is read by `float()` as a
      bare magnitude. */
  lemma PlainReal(t: string)
    requires |t| > 0 && IsDigit(t[0]) && IsDigit(t[|t| - 1])
    ensures ParseReal(t) == Magnitude(t)
  {
    StripPlain(t);
    assert Unsigned(t) == t && !Negative(t);
  }

  /** A mantissa of plain digits is its digit value. */
  lemma PlainMantissa(m: string)
    requires DigitPart(m)
    ensures ParseMantissa(m) == Some(DigitsValue(m) as real)
  {
    DigitPartIsPlain(m);
  }

  /** A digit part followed by an exponent: the mantissa scaled by ten to
      the exponent. */
  lemma MagnitudeWithExponent(m: string, x: string)
    requires DigitPart(m)
    ensures Magnitude(m + "e" + x) == Scaled(Some(DigitsValue(m) as real), IntBody(x))
  {
    var t := m + "e" + x;
    assert t == m + ("e" + x);
    DigitPartIsPlain(m);
    FindFirstAt(m, "e" + x, Exponent);
    assert t[..|m|] == m && t[|m| + 1..] == x;
    PlainMantissa(m);
  }

  /** `float(f"{a}e{e}")` is exactly `a * 10**e` (see `ShiftUp` and
      `ShiftDown`), for every natural mantissa and every integer exponent. */
  lemma ParseRealExponent(a: nat, e: int)
    ensures ParseReal(Dec(a) + "e" + IntText(e)) == Some(Shift(a as real, e))
  {
    var m := Dec(a);
    var x := IntText(e);
    var t := m + "e" + x;
    assert IsDigit(t[0]) && IsDigit(t[|t| - 1]) by {
      assert t[0] == m[0];
      var n: nat := if e < 0 then -e else e;
      assert x[|x| - 1] == Dec(n)[|Dec(n)| - 1];
      assert t[|t| - 1] == x[|x| - 1];
    }
    assert ParseReal(t) == Scaled(Some(a as real), Some(e)) by {
      PlainReal(t);
      DecParses(a);
      IntBodyRoundTrip(e);
      MagnitudeWithExponent(m, x);
    }
  }

  /** Digit parts joined by a point hold no exponent marker. */
  lemma NoExponent(m: string, f: string)
    requires DigitPart(m) && DigitPart(f)
    ensures FindFirst(m + "." + f, Exponent) == |m + "." + f|
  {
    var t := m + "." + f;
    DigitPartIsPlain(m);
    DigitPartIsPlain(f);
    forall k | 0 <= k < |t| ensures !Marks(Exponent, t[k]) {
      if k < |m| {
        assert t[k] == m[k];
      } else if k > |m| {
        assert t[k] == f[k - |m| - 1];
      }
    }
  }

  /** A digit part, a point and a digit part, with no exponent: the whole
      part plus the fraction. */
  lemma MagnitudeWithFraction(m: string, f: string, a: nat)
    requires DigitPart(m) && DigitPart(f) && DigitsValue(m) == a
    ensures Magnitude(m + "." + f) == Some(a as real + Fraction(f))
  {
    var t := m + "." + f;
    NoExponent(m, f);
    assert t[..|t|] == t;
    MantissaWithFraction(m, f, a);
  }

  /** `Fraction` in terms of the digit value and digit count. */
  lemma FractionIs(s: string, v: nat, n: nat)
    requires DigitPart(s) && DigitsValue(s) == v && |DropUnderscores(s)| == n
    ensures Fraction(s) == Shift(v as real, -(n as int))
  {
  }

  /** A digit part, a point and a digit part, read by `float()`: the whole
      part plus the fraction. */
  lemma ParsePointed(m: string, f: string, a: nat)
    requires DigitPart(m) && DigitPart(f) && DigitsValue(m) == a
    ensures ParseReal(m + "." + f) == Some(a as real + Fraction(f))
  {
    var t := m + "." + f;
    assert t[0] == m[0] && t[|t| - 1] == f[|f| - 1];
    PlainReal(t);
    MagnitudeWithFraction(m, f, a);
  }

  /** Shifting down by `n` places and back up again is the identity. */
  lemma ShiftBack(x: real, n: nat)
    ensures Shift(Shift(x, -(n as int)), n) == x
  {
    ShiftDown(x, n);
    ShiftUp(Shift(x, -(n as int)), n);
  }

  /** A digit part read after a point, shifted back up by its digit count,
      gives the number it denotes. */
  lemma FractionShiftsBack(f: string, b: nat, n: nat)
    requires DigitPart(f) && DigitsValue(f) == b && |DropUnderscores(f)| == n
    ensures Shift(Fraction(f), n) == b as real
  {
    FractionIs(f, b, n);
    ShiftBack(b as real, n);
  }

  /** Plain digits form a digit part denoting what they denote, with all
      their digits counted. */
  lemma PlainDigits(s: string)
    requires |s| > 0 && forall k :: 0 <= k < |s| ==> IsDigit(s[k])
    ensures DigitPart(s) && DigitsValue(s) == ValueOf(s) && |DropUnderscores(s)| == |s|
  {
    DigitsArePart(s);
  }

  /** `float(f"{m}.{f}")` for non-empty digit strings `m` and `f` denoting
      `a` and `b` (leading zeros allowed on either side): `a` plus the
      fraction `f` denotes, which shifted back up by `|f|` places is `b`. */
  lemma ParseRealFraction(m: string, f: string, a: nat, b: nat)
    requires |m| > 0 && forall k :: 0 <= k < |m| ==> IsDigit(m[k])
    requires |f| > 0 && forall k :: 0 <= k < |f| ==> IsDigit(f[k])
    requires ValueOf(m) == a && ValueOf(f) == b
    ensures DigitPart(f)
    ensures ParseReal(m + "." + f) == Some(a as real + Fraction(f))
    ensures Shift(Fraction(f), |f|) == b as real
  {
    PlainDigits(m);
    PlainDigits(f);
    ParsePointed(m, f, a);
    FractionShiftsBack(f, b, |f|);
  }

  /** A digit part, a point and a digit part read as a mantissa: the whole
      part plus the fraction. */
  lemma MantissaWithFraction(m: string, f: string, a: nat)
    requires DigitPart(m) && DigitPart(f) && DigitsValue(m) == a
    ensures ParseMantissa(m + "." + f) == Some(a as real + Fraction(f))
  {
    PointAt(m, f);
    PointedValue(m, f, a);
    MantissaOfParts(m + "." + f, |m|, a as real + Fraction(f));
  }

  /** The first point after a digit part is the one that follows it. */
  lemma PointAt(m: string, f: string)
    requires DigitPart(m)
    ensures FindFirst(m + "." + f, Point) == |m|
    ensures (m + "." + f)[..|m|] == m && (m + "." + f)[|m| + 1..] == f
  {
    var t := m + "." + f;
    assert t == m + ("." + f);
    DigitPartIsPlain(m);
    FindFirstAt(m, "." + f, Point);
  }

  /** Digit parts on both sides of a point: the whole part plus the
      fraction. */
  lemma PointedValue(w: string, f: string, a: nat)
    requires DigitPart(w) && DigitPart(f) && DigitsValue(w) == a
    ensures Pointed(w, f) == Some(a as real + Fraction(f))
  {
  }

  /** A mantissa with a point is read from the texts on either side of its
      first point. */
  lemma MantissaOfParts(t: string, p: nat, x: real)
    requires p == FindFirst(t, Point) < |t|
    requires Pointed(t[..p], t[p + 1..]) == Some(x)
    ensures ParseMantissa(t) == Some(x)
  {
  }
}

=== FILE: manifest.dfy ===
/** The per-file manifest the runner keeps while replaying a workload: one
    record per name ever created, updated before each operation is handed
    to the strategy (so whether the strategy call succeeds does not matter),
    and finally listed in name order. */
module Manifests {
  import opened Wrappers
  import opened Workload

  datatype Record = Record(
    name: string, sizeBlocks: int, createdAt: nat, deletedAt: Option<nat>,
    alive: bool, readOps: nat, writeOps: nat)

  type Manifest = map<string, Record>

  /** `int(op.get("size_blocks", 0) or 0)`, raised to 1 when not positive. */
  function RecordedSize(size: int): (r: int)
    ensures r >= 1
    ensures size > 0 ==> r == size
  {
    if size <= 0 then 1 else size
  }

  /** The bookkeeping of operation number `idx`: a first create makes a
      record with zero counters, a re-create resets the size, the creation
      index and the deletion stamp but keeps the counters, reads and writes
      count on known names, and a delete is stamped only once. */
  function Update(m: Manifest, idx: nat, op: Op): (r: Manifest)
    ensures r.Keys == if op.kind == CreateOp then m.Keys + {op.name} else m.Keys
    ensures forall x :: x in m && x != op.name ==> r[x] == m[x]
    ensures op.kind == CreateOp ==>
              var old_ := if op.name in m then m[op.name] else Record(op.name, 0, 0, None, true, 0, 0);
              r[op.name] == old_.(sizeBlocks := RecordedSize(op.sizeBlocks), createdAt := idx, deletedAt := None, alive := true)
    ensures op.kind.OtherOp? ==> r == m
  {
    var x := op.name;
    match op.kind
    case CreateOp =>
      var size := RecordedSize(op.sizeBlocks);
      if x !in m then m[x := Record(x, size, idx, None, true, 0, 0)]
      else m[x := m[x].(sizeBlocks := size, createdAt := idx, deletedAt := None, alive := true)]
    case ReadOp =>
      if x in m then m[x := m[x].(readOps := m[x].readOps + 1)] else m
    case WriteOp =>
      if x in m then m[x := m[x].(writeOps := m[x].writeOps + 1)] else m
    case DeleteOp =>
      if x in m && m[x].deletedAt.None? then m[x := m[x].(deletedAt := Some(idx), alive := false)] else m
    case OtherOp(_) => m
  }

  /** The manifest after the operations `ops`, numbered from 0. */
  function Build(ops: seq<Op>): Manifest
    decreases |ops|
  {
    if ops == [] then map[]
    else Update(Build(ops[..|ops| - 1]), |ops| - 1, ops[|ops| - 1])
  }

  predicate IsCreateOf(op: Op, x: string) {
    op.kind == CreateOp && op.name == x
  }

  /** Some operation of `ops` creates `x`. */
  predicate Known(ops: seq<Op>, x: string) {
    exists k :: 0 <= k < |ops| && IsCreateOf(ops[k], x)
  }

  /** The number of operations of `kind` on `x` that come after a create
      of `x`: the reference count of the manifest's read and write counters. */
  function Counted(ops: seq<Op>, x: string, kind: OpKind): nat
    decreases |ops|
  {
    if ops == [] then 0
    else
      var front := ops[..|ops| - 1];
      var last := ops[|ops| - 1];
      Counted(front, x, kind) + if last.kind == kind && last.name == x && Known(front, x) then 1 else 0
  }

  /** What a manifest record says about the operations it was built from:
      the record belongs to the last create of its name, with that create's
      size; the deletion stamp is the first delete after that create, if
      any; `alive` is exactly "not deleted"; and the counters count the
      reads and writes issued after the name was first created. */
  ghost predicate Describes(ops: seq<Op>, x: string, rec: Record) {
    && rec.name == x
    && rec.createdAt < |ops| && IsCreateOf(ops[rec.createdAt], x)
    && (forall k :: rec.createdAt < k < |ops| ==> !IsCreateOf(ops[k], x))
    && rec.sizeBlocks == RecordedSize(ops[rec.createdAt].sizeBlocks)
    && (rec.alive <==> rec.deletedAt.None?)
    && (rec.deletedAt.None? ==>
          forall k :: rec.createdAt < k < |ops| ==> !(ops[k].kind == DeleteOp && ops[k].name == x))
    && (rec.deletedAt.Some? ==>
          && rec.createdAt < rec.deletedAt.value < |ops|
          && ops[rec.deletedAt.value].kind == DeleteOp && ops[rec.deletedAt.value].name == x
          && forall k :: rec.createdAt < k < rec.deletedAt.value ==> !(ops[k].kind == DeleteOp && ops[k].name == x))
    && rec.readOps == Counted(ops, x, ReadOp)
    && rec.writeOps == Counted(ops, x, WriteOp)
  }

  /** The manifest holds a record for exactly the names ever created, and
      each record describes its name's history. */
  lemma {:induction false} BuildDescribes(ops: seq<Op>)
    ensures forall x :: x in Build(ops) <==> Known(ops, x)
    ensures forall x :: x in Build(ops) ==> Describes(ops, x, Build(ops)[x])
    decreases |ops|
  {
    if ops != [] {
      var front := ops[..|ops| - 1];
      var last := ops[|ops| - 1];
      var i := |ops| - 1;
      BuildDescribes(front);
      var m := Build(front);
      var r := Build(ops);
      assert r == Update(m, i, last);
      assert forall k :: 0 <= k < i ==> ops[k] == front[k];
      forall x
        ensures x in r <==> Known(ops, x)
      {
        if Known(ops, x) && !Known(front, x) {
          assert IsCreateOf(last, x);
        }
      }
      forall x | x in r
        ensures Describes(ops, x, r[x])
      {
        DescribesStep(ops, x, m, r);
      }
    }
  }

  lemma DescribesStep(ops: seq<Op>, x: string, m: Manifest, r: Manifest)
    requires |ops| > 0
    requires r == Update(m, |ops| - 1, ops[|ops| - 1])
    requires x in m <==> Known(ops[..|ops| - 1], x)
    requires x in m ==> Describes(ops[..|ops| - 1], x, m[x])
    requires x in r
    ensures Describes(ops, x, r[x])
  {
    var front := ops[..|ops| - 1];
    var last := ops[|ops| - 1];
    var i := |ops| - 1;
    if IsCreateOf(last, x) {
      var old_ := if x in m then m[x] else Record(x, 0, 0, None, true, 0, 0);
      if x !in m {
        NeverCreated(front, x, ReadOp);
        NeverCreated(front, x, WriteOp);
      }
      DescribesCreate(ops, x, old_);
      assert r[x] == old_.(sizeBlocks := RecordedSize(last.sizeBlocks), createdAt := i, deletedAt := None, alive := true);
    } else {
      assert x in m;
      var rec := m[x];
      if last.name == x && last.kind == DeleteOp && rec.deletedAt.None? {
        DescribesDelete(ops, x, rec);
        assert r[x] == rec.(deletedAt := Some(i), alive := false);
      } else if last.name == x && last.kind == ReadOp {
        DescribesCount(ops, x, rec, ReadOp);
        assert r[x] == rec.(readOps := rec.readOps + 1);
      } else if last.name == x && last.kind == WriteOp {
        DescribesCount(ops, x, rec, WriteOp);
        assert r[x] == rec.(writeOps := rec.writeOps + 1);
      } else {
        DescribesKeep(ops, x, rec);
        assert r[x] == rec;
      }
    }
  }

  /** A create starts a new history for its name: fresh stamps, the new
      size, and the counters carried over. */
  lemma DescribesCreate(ops: seq<Op>, x: string, rec: Record)
    requires |ops| > 0 && IsCreateOf(ops[|ops| - 1], x) && rec.name == x
    requires rec.readOps == Counted(ops[..|ops| - 1], x, ReadOp)
    requires rec.writeOps == Counted(ops[..|ops| - 1], x, WriteOp)
    ensures Describes(ops, x, rec.(sizeBlocks := RecordedSize(ops[|ops| - 1].sizeBlocks), createdAt := |ops| - 1,
                                   deletedAt := None, alive := true))
  {
    CountedStep(ops, x, ReadOp);
    CountedStep(ops, x, WriteOp);
  }

  lemma CountedStep(ops: seq<Op>, x: string, kind: OpKind)
    requires |ops| > 0
    ensures Counted(ops, x, kind) == Counted(ops[..|ops| - 1], x, kind) +
              if ops[|ops| - 1].kind == kind && ops[|ops| - 1].name == x && Known(ops[..|ops| - 1], x) then 1 else 0
  {
  }

  /** An operation that changes nothing about `x` keeps its record true. */
  lemma DescribesKeep(ops: seq<Op>, x: string, rec: Record)
    requires |ops| > 0 && Describes(ops[..|ops| - 1], x, rec)
    requires var last := ops[|ops| - 1];
             && !IsCreateOf(last, x)
             && !(last.name == x && (last.kind == ReadOp || last.kind == WriteOp))
             && !(last.name == x && last.kind == DeleteOp && rec.deletedAt.None?)
    ensures Describes(ops, x, rec)
  {
    var front := ops[..|ops| - 1];
    assert forall k :: 0 <= k < |front| ==> ops[k] == front[k];
    CountedStep(ops, x, ReadOp);
    CountedStep(ops, x, WriteOp);
  }

  /** A read or write of a known name adds one to its counter. */
  lemma DescribesCount(ops: seq<Op>, x: string, rec: Record, kind: OpKind)
    requires |ops| > 0 && Describes(ops[..|ops| - 1], x, rec)
    requires kind == ReadOp || kind == WriteOp
    requires ops[|ops| - 1].name == x && ops[|ops| - 1].kind == kind
    ensures kind == ReadOp ==> Describes(ops, x, rec.(readOps := rec.readOps + 1))
    ensures kind == WriteOp ==> Describes(ops, x, rec.(writeOps := rec.writeOps + 1))
  {
    var front := ops[..|ops| - 1];
    assert forall k :: 0 <= k < |front| ==> ops[k] == front[k];
    assert Known(front, x) by { assert IsCreateOf(front[rec.createdAt], x); }
    CountedStep(ops, x, ReadOp);
    CountedStep(ops, x, WriteOp);
  }

  /** The first delete after the last create stamps the record. */
  lemma DescribesDelete(ops: seq<Op>, x: string, rec: Record)
    requires |ops| > 0 && Describes(ops[..|ops| - 1], x, rec)
    requires ops[|ops| - 1].name == x && ops[|ops| - 1].kind == DeleteOp && rec.deletedAt.None?
    ensures Describes(ops, x, rec.(deletedAt := Some(|ops| - 1), alive := false))
  {
    var front := ops[..|ops| - 1];
    assert forall k :: 0 <= k < |front| ==> ops[k] == front[k];
    CountedStep(ops, x, ReadOp);
    CountedStep(ops, x, WriteOp);
  }

  /** Operations on a name that was never created are not counted. */
  lemma {:induction false} NeverCreated(ops: seq<Op>, x: string, kind: OpKind)
    requires !Known(ops, x)
    ensures Counted(ops, x, kind) == 0
    decreases |ops|
  {
    if ops != [] {
      var front := ops[..|ops| - 1];
      assert forall k :: 0 <= k < |front| ==> front[k] == ops[k];
      NeverCreated(front, x, kind);
    }
  }

  // ---------------------------------------------------------------------
  // The final listing
  // ---------------------------------------------------------------------

  /** Python's `<=` on strings: lexicographic by code point. */
  predicate Below(a: string, b: string)
    decreases |a|
  {
    a == [] || (b != [] && (a[0] < b[0] || (a[0] == b[0] && Below(a[1..], b[1..]))))
  }

  lemma {:induction false} BelowTotal(a: string, b: string)
    ensures Below(a, b) || Below(b, a)
    decreases |a|
  {
    if a != [] && b != [] && a[0] == b[0] {
      BelowTotal(a[1..], b[1..]);
    }
  }

  lemma {:induction false} BelowAntisymmetric(a: string, b: string)
    requires Below(a, b) && Below(b, a)
    ensures a == b
    decreases |a|
  {
    if a != [] {
      BelowAntisymmetric(a[1..], b[1..]);
      assert a == [a[0]] + a[1..] && b == [b[0]] + b[1..];
    }
  }

  lemma {:induction false} BelowTransitive(a: string, b: string, c: string)
    requires Below(a, b) && Below(b, c)
    ensures Below(a, c)
    decreases |a|
  {
    if a != [] && b != [] && c != [] && a[0] == b[0] == c[0] {
      BelowTransitive(a[1..], b[1..], c[1..]);
    }
  }

  /** A non-empty finite set of names has a least element. */
  lemma {:induction false} HasLeast(s: set<string>) returns (x: string)
    requires s != {}
    ensures x in s && forall y :: y in s ==> Below(x, y)
    decreases |s|
  {
    var a :| a in s;
    if s == {a} {
      x := a;
      BelowTotal(a, a);
    } else {
      var b := HasLeast(s - {a});
      BelowTotal(a, b);
      if Below(a, b) {
        x := a;
        forall y | y in s ensures Below(x, y) {
          if y != a { BelowTransitive(a, b, y); } else { BelowTotal(a, a); }
        }
      } else {
        x := b;
      }
    }
  }

  lemma LeastExists(s: set<string>)
    requires s != {}
    ensures exists x :: x in s && forall y :: y in s ==> Below(x, y)
  {
    var x := HasLeast(s);
  }

  predicate StrictlyAscending(names: seq<string>) {
    forall i, j :: 0 <= i < j < |names| ==> Below(names[i], names[j]) && names[i] != names[j]
  }

  /** The names of `s` in ascending order, each once. */
  function SortNames(s: set<string>): (r: seq<string>)
    ensures |r| == |s|
    ensures forall x :: x in r <==> x in s
    ensures StrictlyAscending(r)
    decreases |s|
  {
    if s == {} then []
    else
      LeastExists(s);
      LeastUnique(s);
      var x :| x in s && forall y :: y in s ==> Below(x, y);
      var rest := SortNames(s - {x});
      PrependLeast(s, x, rest);
      [x] + rest
  }

  /** Two least elements of a set are the same name. */
  lemma LeastUnique(s: set<string>)
    ensures forall a, b :: a in s && b in s && Below(a, b) && Below(b, a) ==> a == b
  {
    forall a, b | a in s && b in s && Below(a, b) && Below(b, a) ensures a == b {
      BelowAntisymmetric(a, b);
    }
  }

  /** Putting the least name in front of the sorted rest sorts the set. */
  lemma PrependLeast(s: set<string>, x: string, rest: seq<string>)
    requires x in s && forall y :: y in s ==> Below(x, y)
    requires |rest| == |s - {x}| && (forall z :: z in rest <==> z in s - {x}) && StrictlyAscending(rest)
    ensures |[x] + rest| == |s| && (forall z :: z in [x] + rest <==> z in s) && StrictlyAscending([x] + rest)
  {
    assert |s - {x}| == |s| - 1;
    PrependAscending(x, rest);
  }

  lemma PrependAscending(x: string, rest: seq<string>)
    requires forall z :: z in rest ==> Below(x, z) && z != x
    requires StrictlyAscending(rest)
    ensures StrictlyAscending([x] + rest)
  {
    var r := [x] + rest;
    forall i, j | 0 <= i < j < |r| ensures Below(r[i], r[j]) && r[i] != r[j] {
      assert r[j] == rest[j - 1] && r[j] in rest;
      if i > 0 {
        assert r[i] == rest[i - 1];
      }
    }
  }

  function NamesOf(r: seq<Record>): (names: seq<string>)
    ensures |names| == |r| && forall i :: 0 <= i < |r| ==> names[i] == r[i].name
  {
    seq(|r|, i requires 0 <= i < |r| => r[i].name)
  }

  /** `sorted(manifest.values(), key=name)` after `alive` is recomputed as
      "not deleted"; every record is filed under its own name. */
  function Listing(m: Manifest): (r: seq<Record>)
    requires forall x :: x in m ==> m[x].name == x
    ensures |r| == |m|
    ensures StrictlyAscending(NamesOf(r))
    ensures forall x :: x in m <==> x in NamesOf(r)
    ensures forall i :: 0 <= i < |r| ==> r[i].name in m && r[i] == m[r[i].name].(alive := m[r[i].name].deletedAt.None?)
  {
    var names := SortNames(m.Keys);
    var r := seq(|names|, i requires 0 <= i < |names| => m[names[i]].(alive := m[names[i]].deletedAt.None?));
    assert NamesOf(r) == names;
    r
  }

  /** The listing reported at the end of a replay of `ops`: one record per
      name ever created, in ascending name order, each describing its
      name's history (so recomputing `alive` changes nothing). */
  function FinalManifest(ops: seq<Op>): (r: seq<Record>)
    ensures StrictlyAscending(NamesOf(r))
    ensures forall x :: Known(ops, x) <==> x in NamesOf(r)
    ensures forall i :: 0 <= i < |r| ==> Describes(ops, r[i].name, r[i])
  {
    BuildDescribes(ops);
    var r := Listing(Build(ops));
    ListingDescribes(ops, r);
    r
  }

  lemma ListingDescribes(ops: seq<Op>, r: seq<Record>)
    requires forall x :: x in Build(ops) ==> Describes(ops, x, Build(ops)[x])
    requires forall i :: 0 <= i < |r| ==> r[i].name in Build(ops) && r[i] == Build(ops)[r[i].name].(alive := Build(ops)[r[i].name].deletedAt.None?)
    ensures forall i :: 0 <= i < |r| ==> Describes(ops, r[i].name, r[i])
  {
    forall i | 0 <= i < |r| ensures Describes(ops, r[i].name, r[i]) {
      var rec := Build(ops)[r[i].name];
      assert Describes(ops, r[i].name, rec);
      assert r[i] == rec;
    }
  }
}

=== FILE: names.dfy ===
/** Synthetic file names: `f"{kind}_{idx:06d}"`, and the search for the
    first counter whose name is not taken. */
module Names {

  /** The decimal digit for `d`. */
  function Digit(d: nat): char
    requires d < 10
  {
    "0123456789"[d]
  }

  predicate IsDigit(c: char) {
    '0' <= c <= '9'
  }

  function DigitValue(c: char): nat
    requires IsDigit(c)
  {
    (c - '0') as nat
  }

  /** The decimal representation of `n`, without leading zeros. */
  function Dec(n: nat): (r: string)
    ensures |r| >= 1
    ensures forall k :: 0 <= k < |r| ==> IsDigit(r[k])
    decreases n
  {
    if n < 10 then [Digit(n)] else Dec(n / 10) + [Digit(n % 10)]
  }

  /** The number a digit string denotes; the reference reading of `Dec`. */
  function ValueOf(s: string): nat
    requires forall k :: 0 <= k < |s| ==> IsDigit(s[k])
    decreases |s|
  {
    if s == [] then 0 else ValueOf(s[..|s| - 1]) * 10 + DigitValue(s[|s| - 1])
  }

  /** The format spec `06d` on a non-negative number: zeros on the left up to
      six characters. */
  function Pad6(s: string): (r: string)
    ensures |r| == if |s| < 6 then 6 else |s|
    ensures |s| >= 6 ==> r == s
    ensures |s| < 6 ==> r[6 - |s|..] == s && forall k :: 0 <= k < 6 - |s| ==> r[k] == '0'
  {
    if |s| < 6 then seq(6 - |s|, _ => '0') + s else s
  }

  /** `_new_name`: the name for counter `idx` (counters never go below 0). */
  function NewName(kind: string, idx: nat): string {
    kind + "_" + Pad6(Dec(idx))
  }

  /** Reading `Dec(n)` back gives `n`. */
  lemma {:induction false} DecRoundTrip(n: nat)
    ensures ValueOf(Dec(n)) == n
    decreases n
  {
    if n >= 10 {
      DecRoundTrip(n / 10);
      var s := Dec(n);
      assert s[..|s| - 1] == Dec(n / 10);
    }
  }

  /** Leading zeros do not change the value of a digit string. */
  lemma {:induction false} LeadingZero(s: string)
    requires forall k :: 0 <= k < |s| ==> IsDigit(s[k])
    ensures ValueOf(['0'] + s) == ValueOf(s)
    decreases |s|
  {
    if s != [] {
      var t := ['0'] + s;
      assert t[..|t| - 1] == ['0'] + s[..|s| - 1];
      LeadingZero(s[..|s| - 1]);
    }
  }

  lemma {:induction false} LeadingZeros(z: nat, s: string)
    requires forall k :: 0 <= k < |s| ==> IsDigit(s[k])
    ensures ValueOf(seq(z, _ => '0') + s) == ValueOf(s)
    decreases z
  {
    if z == 0 {
      assert seq(z, _ => '0') + s == s;
    } else {
      var rest := seq(z - 1, _ => '0') + s;
      assert seq(z, _ => '0') + s == ['0'] + rest;
      LeadingZeros(z - 1, s);
      LeadingZero(rest);
    }
  }

  /** The padded digits of a name read back as its counter. */
  lemma PaddedRoundTrip(n: nat)
    ensures forall k :: 0 <= k < |Pad6(Dec(n))| ==> IsDigit(Pad6(Dec(n))[k])
    ensures ValueOf(Pad6(Dec(n))) == n
  {
    DecRoundTrip(n);
    var s := Dec(n);
    if |s| < 6 {
      LeadingZeros(6 - |s|, s);
    }
  }

  /** Distinct counters give distinct names of the same kind, and every
      name carries at least six digits after the kind and the underscore. */
  lemma NewNameInjective(kind: string, i: nat, j: nat)
    ensures |NewName(kind, i)| >= |kind| + 7
    ensures NewName(kind, i) == NewName(kind, j) ==> i == j
  {
    var a := NewName(kind, i);
    var b := NewName(kind, j);
    if a == b {
      assert a[|kind| + 1..] == Pad6(Dec(i));
      assert b[|kind| + 1..] == Pad6(Dec(j));
      PaddedRoundTrip(i);
      PaddedRoundTrip(j);
    }
  }

  /** `_next_unique_name`: the name of the first counter from `counter` on
      that is not in `existing`, and the counter after it. Python retries
      with the same set; here each name found taken is dropped from the set
      before the next try, which changes no answer (later counters give
      other names) and bounds the search by the size of the set. */
  function NextUniqueName(kind: string, counter: nat, existing: set<string>): (r: (string, nat))
    ensures r.1 > counter
    ensures r.0 == NewName(kind, r.1 - 1)
    ensures r.0 !in existing
    ensures forall c :: counter <= c < r.1 - 1 ==> NewName(kind, c) in existing
    decreases |existing|
  {
    var name := NewName(kind, counter);
    if name !in existing then (name, counter + 1)
    else
      var r := NextUniqueName(kind, counter + 1, existing - {name});
      NewNameInjective(kind, r.1 - 1, counter);
      r
  }
}

=== FILE: random_source.dfy ===
/** The random source of the workload generator. Python's Mersenne Twister
    is replaced by an explicit stream of raw draws: every call consumes the
    next draw (an exhausted stream yields 0), and the derived operations
    follow the shape of CPython's `random` module: `randint(a, b)` is
    `a + randbelow(b - a + 1)`, `random()` is a 53-bit fraction, and
    `choices` bisects the cumulative weights. */
module RandomSource {
  import opened Wrappers

  datatype Rng = Rng(draws: seq<nat>)

  /** The next raw draw and the rest of the stream. */
  function Draw(g: Rng): (r: (nat, Rng))
    ensures |r.1.draws| == if g.draws == [] then 0 else |g.draws| - 1
  {
    if g.draws == [] then (0, g) else (g.draws[0], Rng(g.draws[1..]))
  }

  /** `_randbelow(n)`: a value in `[0, n)`. */
  function RandBelow(g: Rng, n: int): (r: (int, Rng))
    requires n > 0
    ensures 0 <= r.0 < n
    ensures r.1 == Draw(g).1
  {
    var (d, g1) := Draw(g);
    (d % n, g1)
  }

  /** `randint(a, b)`: a value in `[a, b]`; an empty range is a ValueError
      and consumes nothing. */
  function RandInt(g: Rng, a: int, b: int): (r: Result<(int, Rng)>)
    ensures r.Ok? <==> a <= b
    ensures r.Err? ==> r.error == ValueError
    ensures r.Ok? ==> a <= r.value.0 <= b && r.value.1 == Draw(g).1
  {
    if b < a then Err(ValueError)
    else
      var (d, g1) := RandBelow(g, b - a + 1);
      Ok((a + d, g1))
  }

  const TWO_53: nat := 9007199254740992

  /** `random()`: a fraction in `[0, 1)` with 53 bits of precision. */
  function Random(g: Rng): (r: (real, Rng))
    ensures 0.0 <= r.0 < 1.0
    ensures r.1 == Draw(g).1
  {
    var (d, g1) := Draw(g);
    var m := d % TWO_53;
    ((m as real) / 9007199254740992.0, g1)
  }

  /** `itertools.accumulate`: the running sums of the weights. */
  function Accumulate(w: seq<real>): (r: seq<real>)
    ensures |r| == |w|
    ensures |w| > 0 ==> r[0] == w[0]
    ensures forall k {:trigger w[k]} :: 0 < k < |w| ==> r[k] == r[k - 1] + w[k]
    decreases |w|
  {
    if w == [] then []
    else
      var front := Accumulate(w[..|w| - 1]);
      assert forall k :: 0 <= k < |w| - 1 ==> w[..|w| - 1][k] == w[k];
      front + [(if front == [] then 0.0 else front[|front| - 1]) + w[|w| - 1]]
  }

  /** `bisect.bisect_right(a, x, lo, hi)`, the binary search as written. */
  function Bisect(a: seq<real>, x: real, lo: int, hi: int): (r: int)
    requires 0 <= lo <= hi <= |a|
    ensures lo <= r <= hi
    decreases hi - lo
  {
    if lo >= hi then lo
    else
      var mid := (lo + hi) / 2;
      if x < a[mid] then Bisect(a, x, lo, mid) else Bisect(a, x, mid + 1, hi)
  }

  predicate NonDecreasing(a: seq<real>) {
    forall i, j :: 0 <= i <= j < |a| ==> a[i] <= a[j]
  }

  /** On a sorted list the binary search finds the first element above `x`
      (or `hi` when there is none), the reference meaning of `bisect_right`. */
  lemma {:induction false} BisectFindsFirstAbove(a: seq<real>, x: real, lo: int, hi: int)
    requires 0 <= lo <= hi <= |a| && NonDecreasing(a)
    ensures var r := Bisect(a, x, lo, hi);
            && (forall k :: lo <= k < r ==> a[k] <= x)
            && (r < hi ==> x < a[r])
    decreases hi - lo
  {
    if lo < hi {
      var mid := (lo + hi) / 2;
      if x < a[mid] {
        BisectFindsFirstAbove(a, x, lo, mid);
      } else {
        BisectFindsFirstAbove(a, x, mid + 1, hi);
      }
    }
  }

  /** `choices(population, weights, k=1)[0]`, as the position chosen: an
      empty population is an IndexError and a non-positive total weight a
      ValueError. */
  function Choose(g: Rng, weights: seq<real>): (r: Result<(nat, Rng)>)
    ensures r.Ok? <==> |weights| > 0 && Accumulate(weights)[|weights| - 1] > 0.0
    ensures r.Err? ==> r.error == (if weights == [] then IndexError else ValueError)
    ensures r.Ok? ==> r.value.0 < |weights| && r.value.1 == Draw(g).1
    ensures r.Ok? && (forall k :: 0 <= k < |weights| ==> weights[k] >= 0.0) ==> weights[r.value.0] > 0.0
  {
    if weights == [] then Err(IndexError)
    else
      var cum := Accumulate(weights);
      var total := cum[|cum| - 1];
      if total <= 0.0 then Err(ValueError)
      else
        var u := Random(g);
        var x := u.0 * total;
        ScaleBelow(u.0, total, x);
        PositiveWeightAt(weights, x);
        Ok((Bisect(cum, x, 0, |cum| - 1), u.1))
  }

  /** On a sorted cumulative list the search stops at a position whose own
      weight is positive, for any point below the total. */
  lemma PositiveWeightAt(w: seq<real>, x: real)
    requires |w| > 0 && 0.0 <= x < Accumulate(w)[|w| - 1]
    ensures (forall k :: 0 <= k < |w| ==> w[k] >= 0.0) ==> w[Bisect(Accumulate(w), x, 0, |w| - 1)] > 0.0
  {
    if forall k :: 0 <= k < |w| ==> w[k] >= 0.0 {
      PositiveWeightAtNonNegative(w, x);
    }
  }

  lemma PositiveWeightAtNonNegative(w: seq<real>, x: real)
    requires |w| > 0 && forall k :: 0 <= k < |w| ==> w[k] >= 0.0
    requires 0.0 <= x < Accumulate(w)[|w| - 1]
    ensures w[Bisect(Accumulate(w), x, 0, |w| - 1)] > 0.0
  {
    var cum := Accumulate(w);
    var n := |w|;
    AccumulateSorted(w);
    var i := Bisect(cum, x, 0, n - 1);
    BisectFindsFirstAbove(cum, x, 0, n - 1);
    assert x < cum[i];
    if i > 0 {
      assert cum[i - 1] <= x;
      assert cum[i] == cum[i - 1] + w[i];
    }
  }

  lemma ScaleBelow(u: real, t: real, x: real)
    requires 0.0 <= u < 1.0 && t > 0.0 && x == u * t
    ensures 0.0 <= x < t
  {}

  lemma AccumulateSorted(w: seq<real>)
    requires forall k :: 0 <= k < |w| ==> w[k] >= 0.0
    ensures NonDecreasing(Accumulate(w))
    ensures |w| > 0 ==> Accumulate(w)[0] >= 0.0
  {
    var a := Accumulate(w);
    forall i, j | 0 <= i <= j < |a| ensures a[i] <= a[j] {
      AccumulateStep(w, i, j);
    }
  }

  lemma {:induction false} AccumulateStep(w: seq<real>, i: int, j: int)
    requires forall k :: 0 <= k < |w| ==> w[k] >= 0.0
    requires 0 <= i <= j < |w|
    ensures Accumulate(w)[i] <= Accumulate(w)[j]
    decreases j - i
  {
    if i < j {
      AccumulateStep(w, i, j - 1);
      assert Accumulate(w)[j] == Accumulate(w)[j - 1] + w[j];
    }
  }
}

=== FILE: runner.dfy ===
/** The simulation runner without its clocks: the strategy names, the
    configuration handed to the generator, the replay of one workload on
    each strategy over a fresh disk and free-space manager, the per-operation
    hit/miss score, the seek and blocks-touched estimates taken from the
    emitted events, the totals and the file manifest. */
module Runner {
  import opened Wrappers
  import opened Values
  import opened Scenarios
  import opened RandomSource
  import opened Workload
  import opened Manifests
  import opened Disks
  import opened FreeSpace
  import opened FileSystems
  import Contiguous
  import Indexed

  // ---------------------------------------------------------------------
  // Strategies and configuration
  // ---------------------------------------------------------------------

  datatype Strategy = ContiguousS | LinkedS | IndexedS

  /** The key of a strategy in `STRATEGIES`. */
  function StrategyName(s: Strategy): string {
    match s
    case ContiguousS => "contiguous"
    case LinkedS => "linked"
    case IndexedS => "indexed"
  }

  /** The strategies to run for `strategy_name`: all three in registry
      order for "all", the named one otherwise, and a KeyError for any
      other name. */
  function Strategies(name: string): (r: Result<seq<Strategy>>)
    ensures r.Ok? <==> name in {"contiguous", "linked", "indexed", "all"}
    ensures r.Err? ==> r.error == KeyError
    ensures name == "all" ==> r == Ok([ContiguousS, LinkedS, IndexedS])
    ensures r.Ok? && name != "all" ==> |r.value| == 1 && StrategyName(r.value[0]) == name
  {
    if name == "contiguous" then Ok([ContiguousS])
    else if name == "linked" then Ok([LinkedS])
    else if name == "indexed" then Ok([IndexedS])
    else if name == "all" then Ok([ContiguousS, LinkedS, IndexedS])
    else Err(KeyError)
  }

  /** `build_config`: the named scenario with the overrides applied last;
      no scenario (None or "") gives just the overrides. `scenarios` is
      the table names are looked up in: the built-in scenarios updated with
      the parsed scenario file, as `Combined` builds it. Nothing is
      validated here. */
  function BuildConfig(scenario: string, scenarios: map<string, Config>, overrides: Config): (r: Result<Config>)
    ensures r.Err? <==> scenario != [] && scenario !in scenarios
    ensures r.Err? ==> r.error == KeyError
    ensures scenario == [] ==> r == Ok(overrides)
    ensures r.Ok? ==> forall k :: k in overrides ==> k in r.value && r.value[k] == overrides[k]
    ensures r.Ok? && scenario != [] ==>
              && r.value.Keys == scenarios[scenario].Keys + overrides.Keys
              && forall k :: k in scenarios[scenario] && k !in overrides ==> r.value[k] == scenarios[scenario][k]
  {
    if scenario == [] then Ok(overrides)
    else if scenario !in scenarios then Err(KeyError)
    else Ok(scenarios[scenario] + overrides)
  }

  /** A built-in scenario that the file does not redefine is used as
      built in; one the file defines is used as the file gives it. */
  lemma NamedScenario(name: string, external: map<string, Config>, overrides: Config)
    requires name != []
    ensures name in external ==> BuildConfig(name, Combined(external), overrides) == Ok(external[name] + overrides)
    ensures name !in external && name in Defaults() ==>
              BuildConfig(name, Combined(external), overrides) == Ok(Defaults()[name] + overrides)
    ensures name !in external && name !in Defaults() ==> BuildConfig(name, Combined(external), overrides) == Err(KeyError)
  {
  }

  // ---------------------------------------------------------------------
  // Event accounting
  // ---------------------------------------------------------------------

  /** The seeks of one physical block list: the number of neighbours that
      are not consecutive blocks. */
  function Seeks(phys: seq<int>): nat
    decreases |phys|
  {
    if |phys| < 2 then 0
    else Seeks(phys[..|phys| - 1]) + if phys[|phys| - 1] != phys[|phys| - 2] + 1 then 1 else 0
  }

  /** Block `i + 1` of the list does not follow block `i` on the disk. */
  predicate IsJump(phys: seq<int>, i: int)
    requires 0 <= i < |phys| - 1
  {
    phys[i + 1] != phys[i] + 1
  }

  /** The positions where the list jumps. */
  function Jumps(phys: seq<int>): set<int> {
    set i | 0 <= i < |phys| - 1 && IsJump(phys, i)
  }

  /** The seek count is the number of jumps. */
  lemma {:induction false} SeeksCountJumps(phys: seq<int>)
    ensures Seeks(phys) == |Jumps(phys)|
    decreases |phys|
  {
    if |phys| >= 2 {
      var front := phys[..|phys| - 1];
      SeeksCountJumps(front);
      var i := |phys| - 2;
      assert forall j :: 0 <= j < |front| - 1 ==> (IsJump(phys, j) <==> IsJump(front, j));
      if IsJump(phys, i) {
        assert Jumps(phys) == Jumps(front) + {i};
      } else {
        assert Jumps(phys) == Jumps(front);
      }
    } else {
      assert Jumps(phys) == {};
    }
  }

  /** A run of consecutive blocks costs no seek. */
  lemma {:induction false} ConsecutiveNoSeeks(phys: seq<int>)
    requires forall k :: 0 <= k < |phys| ==> phys[k] == phys[0] + k
    ensures Seeks(phys) == 0
    decreases |phys|
  {
    if |phys| >= 2 {
      ConsecutiveNoSeeks(phys[..|phys| - 1]);
    }
  }

  /** The collector's two counters. */
  datatype Tally = Tally(seeks: nat, blocks: nat)

  /** `on_event`: a non-empty physical list adds its seeks, and a positive
      block count adds itself. */
  function Observe(t: Tally, e: Event): (r: Tally)
    ensures r.seeks == t.seeks + Seeks(e.physical)
    ensures r.blocks == t.blocks + (if e.nBlocks > 0 then e.nBlocks else 0)
  {
    Tally(t.seeks + (if |e.physical| > 0 then Seeks(e.physical) else 0),
          t.blocks + (if e.nBlocks > 0 then e.nBlocks else 0))
  }

  /** The counters after the events of one operation; the collector is
      cleared before every operation. */
  function TallyOf(events: seq<Event>): Tally
    decreases |events|
  {
    if events == [] then Tally(0, 0)
    else Observe(TallyOf(events[..|events| - 1]), events[|events| - 1])
  }

  /** The counters add up over a split of the event list. */
  lemma {:induction false} TallyAppend(a: seq<Event>, b: seq<Event>)
    ensures TallyOf(a + b).seeks == TallyOf(a).seeks + TallyOf(b).seeks
    ensures TallyOf(a + b).blocks == TallyOf(a).blocks + TallyOf(b).blocks
    decreases |b|
  {
    if b == [] {
      assert a + b == a;
    } else {
      var front := b[..|b| - 1];
      assert (a + b)[..|a + b| - 1] == a + front;
      TallyAppend(a, front);
    }
  }

  lemma TallyPair(a: Event, b: Event)
    ensures TallyOf([a, b]) == Observe(Observe(Tally(0, 0), a), b)
  {
    assert [a, b][..1] == [a];
    assert [a][..0] == [];
    assert TallyOf([a]) == Observe(Tally(0, 0), a);
  }

  // ---------------------------------------------------------------------
  // Replaying a workload on one strategy
  // ---------------------------------------------------------------------

  /** One result row: the operation, its score and its event counters. */
  datatype Row = Row(kind: OpKind, hit: nat, miss: nat, seeks: nat, blocks: nat)

  /** The score of one operation: a hit when the strategy call returned,
      a miss when it raised or the operation was unknown. */
  function Score(kind: OpKind, events: seq<Event>, returned: bool): (r: Row)
    ensures r.hit + r.miss == 1
    ensures r.hit == 1 <==> returned
    ensures r.seeks == TallyOf(events).seeks && r.blocks == TallyOf(events).blocks
  {
    var t := TallyOf(events);
    Row(kind, if returned then 1 else 0, if returned then 0 else 1, t.seeks, t.blocks)
  }

  /** A strategy instance being replayed. The linked strategy is a stub
      whose catalog stays empty, so it needs only its bitmap. */
  datatype Machine =
    | ContiguousM(cfs: Contiguous.ContigFs)
    | IndexedM(ifs: Indexed.IndexedFs)
    | LinkedM(lfsm: Fsm)

  function MachineFsm(m: Machine): Fsm {
    match m
    case ContiguousM(fs) => fs.fsm
    case IndexedM(fs) => fs.fsm
    case LinkedM(f) => f
  }

  /** The linked stub: after its argument checks every call raises
      NotImplementedError; create emits its start event first. With an
      empty catalog every other operation fails the existence check. */
  function LinkedCall(op: Op): (r: (seq<Event>, bool))
    ensures !r.1
  {
    match op.kind
    case CreateOp => (if op.sizeBlocks > 0 then [Mark("create:start")] else [], false)
    case _ => ([], false)
  }

  /** The outcome `r` of one operation records a strategy call that left
      `state`, emitted `events` and returned exactly when `returned`. */
  predicate Records(r: (Machine, Row), state: Machine, events: seq<Event>, returned: bool) {
    && r.0 == state
    && (r.1.hit == 1 <==> returned)
    && r.1.seeks == TallyOf(events).seeks
    && r.1.blocks == TallyOf(events).blocks
  }

  /** The dispatch of one operation: create, delete, read (with the access
      mode ignored) and write without data; anything else is not called. */
  function Apply(m: Machine, op: Op): (r: (Machine, Row))
    ensures r.1.kind == op.kind && r.1.hit + r.1.miss == 1
    ensures op.kind.OtherOp? ==> r.0 == m && r.1 == Row(op.kind, 0, 1, 0, 0)
    ensures MachineKind(r.0) == MachineKind(m)
    ensures m.ContiguousM? && op.kind == CreateOp ==>
              var s := Contiguous.Create(m.cfs, op.name, op.sizeBlocks);
              Records(r, ContiguousM(s.state), s.events, s.result.Ok?)
    ensures m.ContiguousM? && op.kind == DeleteOp ==>
              var s := Contiguous.Delete(m.cfs, op.name);
              Records(r, ContiguousM(s.state), s.events, s.result.Ok?)
    ensures m.ContiguousM? && op.kind == ReadOp ==>
              var s := Contiguous.Read(m.cfs, op.name, op.offset, op.nBlocks);
              Records(r, ContiguousM(s.state), s.events, s.result.Ok?)
    ensures m.ContiguousM? && op.kind == WriteOp ==>
              var s := Contiguous.Write(m.cfs, op.name, op.offset, op.nBlocks, None);
              Records(r, ContiguousM(s.state), s.events, s.result.Ok?)
    ensures m.IndexedM? && op.kind == CreateOp ==>
              var s := Indexed.Create(m.ifs, op.name, op.sizeBlocks);
              Records(r, IndexedM(s.state), s.events, s.result.Ok?)
    ensures m.IndexedM? && op.kind == DeleteOp ==>
              var s := Indexed.Delete(m.ifs, op.name);
              Records(r, IndexedM(s.state), s.events, s.result.Ok?)
    ensures m.IndexedM? && op.kind == ReadOp ==>
              var s := Indexed.Read(m.ifs, op.name, op.offset, op.nBlocks);
              Records(r, IndexedM(s.state), s.events, s.result.Ok?)
    ensures m.IndexedM? && op.kind == WriteOp ==>
              var s := Indexed.Write(m.ifs, op.name, op.offset, op.nBlocks, None);
              Records(r, IndexedM(s.state), s.events, s.result.Ok?)
    ensures m.LinkedM? && !op.kind.OtherOp? ==> Records(r, m, LinkedCall(op).0, false)
  {
    match m
    case ContiguousM(fs) =>
      (match op.kind
       case CreateOp =>
         var s := Contiguous.Create(fs, op.name, op.sizeBlocks);
         (ContiguousM(s.state), Score(op.kind, s.events, s.result.Ok?))
       case DeleteOp =>
         var s := Contiguous.Delete(fs, op.name);
         (ContiguousM(s.state), Score(op.kind, s.events, s.result.Ok?))
       case ReadOp =>
         var s := Contiguous.Read(fs, op.name, op.offset, op.nBlocks);
         (ContiguousM(s.state), Score(op.kind, s.events, s.result.Ok?))
       case WriteOp =>
         var s := Contiguous.Write(fs, op.name, op.offset, op.nBlocks, None);
         (ContiguousM(s.state), Score(op.kind, s.events, s.result.Ok?))
       case OtherOp(_) => (m, Score(op.kind, [], false)))
    case IndexedM(fs) =>
      (match op.kind
       case CreateOp =>
         var s := Indexed.Create(fs, op.name, op.sizeBlocks);
         (IndexedM(s.state), Score(op.kind, s.events, s.result.Ok?))
       case DeleteOp =>
         var s := Indexed.Delete(fs, op.name);
         (IndexedM(s.state), Score(op.kind, s.events, s.result.Ok?))
       case ReadOp =>
         var s := Indexed.Read(fs, op.name, op.offset, op.nBlocks);
         (IndexedM(s.state), Score(op.kind, s.events, s.result.Ok?))
       case WriteOp =>
         var s := Indexed.Write(fs, op.name, op.offset, op.nBlocks, None);
         (IndexedM(s.state), Score(op.kind, s.events, s.result.Ok?))
       case OtherOp(_) => (m, Score(op.kind, [], false)))
    case LinkedM(_) =>
      if op.kind.OtherOp? then (m, Score(op.kind, [], false))
      else
        var (events, returned) := LinkedCall(op);
        (m, Score(op.kind, events, returned))
  }

  function MachineKind(m: Machine): Strategy {
    match m
    case ContiguousM(_) => ContiguousS
    case IndexedM(_) => IndexedS
    case LinkedM(_) => LinkedS
  }

  /** The loop over the operations: one row per operation, in order. */
  function Run(m: Machine, ops: seq<Op>): (r: (Machine, seq<Row>))
    ensures |r.1| == |ops|
    ensures forall k :: 0 <= k < |ops| ==> r.1[k].kind == ops[k].kind && r.1[k].hit + r.1[k].miss == 1
    ensures MachineKind(r.0) == MachineKind(m)
    decreases |ops|
  {
    if ops == [] then (m, [])
    else
      var (m1, row) := Apply(m, ops[0]);
      var (m2, rows) := Run(m1, ops[1..]);
      (m2, [row] + rows)
  }

  /** The TOTAL row's counters. */
  datatype Totals = Totals(hits: nat, misses: nat, seeks: nat, blocks: nat)

  function Total(rows: seq<Row>): Totals
    decreases |rows|
  {
    if rows == [] then Totals(0, 0, 0, 0)
    else
      var t := Total(rows[..|rows| - 1]);
      var row := rows[|rows| - 1];
      Totals(t.hits + row.hit, t.misses + row.miss, t.seeks + row.seeks, t.blocks + row.blocks)
  }

  /** Every operation is counted exactly once, as a hit or as a miss. */
  lemma {:induction false} TotalCountsEveryOp(rows: seq<Row>)
    requires forall k :: 0 <= k < |rows| ==> rows[k].hit + rows[k].miss == 1
    ensures Total(rows).hits + Total(rows).misses == |rows|
    decreases |rows|
  {
    if rows != [] {
      TotalCountsEveryOp(rows[..|rows| - 1]);
    }
  }

  /** The per-strategy report that does not depend on clocks. */
  datatype Summary = Summary(strategy: Strategy, rows: seq<Row>, total: Totals, manifest: seq<Record>, bitmap: seq<int>)

  /** The disk geometry handed to `Disk`: the configured size (50000 by
      default) clamped to 50000 blocks, and the block size (4096 by
      default). A non-numeric value fails the first comparison it meets
      (TypeError); a non-positive one is rejected by the disk (ValueError);
      a fractional one is truncated by the disk's `int()`. */
  function DiskGeometry(cfg: Config): (r: Result<(int, int)>)
    ensures var d := Get(cfg, "disk_size", VInt(50000));
            var b := Get(cfg, "block_size", VInt(4096));
            && (r.Ok? <==> IsNumber(d) && RealOf(d) > 0.0 && IsNumber(b) && RealOf(b) > 0.0)
            && (r.Err? ==> r.error == (if !IsNumber(d) then TypeError
                                      else if RealOf(d) <= 0.0 then ValueError
                                      else if !IsNumber(b) then TypeError
                                      else ValueError))
            && (r.Ok? ==> 0 <= r.value.0 <= 50000 && r.value.1 >= 0)
            && (r.Ok? && IsInt(d) ==> r.value.0 == if IntOf(d) > 50000 then 50000 else IntOf(d))
            && (r.Ok? && IsInt(b) ==> r.value.1 == IntOf(b))
  {
    var d := Get(cfg, "disk_size", VInt(50000));
    if !IsNumber(d) then Err(TypeError)
    else
      var n := if RealOf(d) > 50000.0 then 50000.0 else RealOf(d);
      if n <= 0.0 then Err(ValueError)
      else
        var b := Get(cfg, "block_size", VInt(4096));
        if !IsNumber(b) then Err(TypeError)
        else if RealOf(b) <= 0.0 then Err(ValueError)
        else Ok((Trunc(n), Trunc(RealOf(b))))
  }

  /** The geometry yields a disk of at least one block of at least one byte. */
  predicate Buildable(cfg: Config) {
    DiskGeometry(cfg).Ok? && DiskGeometry(cfg).value.0 > 0 && DiskGeometry(cfg).value.1 > 0
  }

  /** The fresh disk and free-space manager each strategy starts from: an
      empty disk of the configured geometry and a bitmap of as many blocks,
      all free. */
  function FreshStorage(cfg: Config): (r: Result<(Disk, Fsm)>)
    ensures DiskGeometry(cfg).Err? ==> r == Err(DiskGeometry(cfg).error)
    ensures r.Ok? <==> Buildable(cfg)
    ensures r.Err? ==> r.error in {TypeError, ValueError}
    ensures r.Ok? ==>
              && NBlocks(r.value.0) == DiskGeometry(cfg).value.0
              && r.value.0.blockSize == DiskGeometry(cfg).value.1
              && r.value.1.NBlocks() == NBlocks(r.value.0)
              && (forall i :: 0 <= i < NBlocks(r.value.0) ==> Payload(r.value.0, i).None?)
              && (forall j :: 0 <= j < r.value.1.NBlocks() ==> !r.value.1.bitmap[j])
  {
    var (n, blockSize) :- DiskGeometry(cfg);
    var disk :- NewDisk(n, blockSize, None);
    match NewFsm(NBlocks(disk), [])
    case Err(e) => Err(e)
    case Ok(fsm) => Ok((disk, fsm))
  }

  /** A strategy's report covers the workload: one row per operation and
      of the same kind, every operation counted once as a hit or a miss,
      and the manifest of the workload. */
  predicate Summarizes(sum: Summary, s: Strategy, ops: seq<Op>) {
    && sum.strategy == s
    && |sum.rows| == |ops|
    && (forall k :: 0 <= k < |ops| ==> sum.rows[k].kind == ops[k].kind)
    && sum.total.hits + sum.total.misses == |ops|
    && sum.manifest == FinalManifest(ops)
  }

  /** One strategy's replay of the workload on the given storage. */
  function SimulateOn(s: Strategy, disk: Disk, fsm: Fsm, ops: seq<Op>): (r: Summary)
    ensures Summarizes(r, s, ops)
  {
    var m := match s
      case ContiguousS => ContiguousM(NewFs(disk, fsm))
      case IndexedS => IndexedM(NewFs(disk, fsm))
      case LinkedS => LinkedM(fsm);
    var (final, rows) := Run(m, ops);
    TotalCountsEveryOp(rows);
    Summary(s, rows, Total(rows), FinalManifest(ops), SnapshotBitmap(MachineFsm(final)))
  }

  /** What a run reports apart from its clocks: the generated operations
      and one summary per strategy. */
  datatype Report = Report(ops: seq<Op>, summaries: seq<Summary>)

  /** What `run_simulation` settles before touching any storage: the
      strategies, the configuration and the workload. */
  datatype Plan = Plan(strategies: seq<Strategy>, cfg: Config, ops: seq<Op>)

  /** The strategy name is checked first (KeyError), then the
      configuration is built (KeyError for an unknown scenario), then the
      workload is generated once for all strategies. */
  function Prepare(strategyName: string, scenario: string, scenarios: map<string, Config>,
                   overrides: Config, users: seq<Value>, respectOnly: bool, rng: Rng): (r: Result<Plan>)
    ensures Strategies(strategyName).Err? ==> r == Err(KeyError)
    ensures Strategies(strategyName).Ok? && BuildConfig(scenario, scenarios, overrides).Err? ==> r == Err(KeyError)
    ensures Strategies(strategyName).Ok? && BuildConfig(scenario, scenarios, overrides).Ok? ==>
              var ops := Generate(BuildConfig(scenario, scenarios, overrides).value, users, respectOnly, rng);
              && (ops.Err? ==> r == Err(ops.error))
              && (ops.Ok? ==> r == Ok(Plan(Strategies(strategyName).value, BuildConfig(scenario, scenarios, overrides).value, ops.value)))
  {
    match Strategies(strategyName)
    case Err(e) => Err(e)
    case Ok(strategies) =>
      match BuildConfig(scenario, scenarios, overrides)
      case Err(e) => Err(e)
      case Ok(cfg) =>
        match Generate(cfg, users, respectOnly, rng)
        case Err(e) => Err(e)
        case Ok(ops) => Ok(Plan(strategies, cfg, ops))
  }

  /** `run_simulation`: every selected strategy replays the same
      operations on its own fresh storage. All strategies share the
      configuration, so the storage either fails for the first one or
      succeeds for all. */
  function RunSimulation(strategyName: string, scenario: string, scenarios: map<string, Config>,
                         overrides: Config, users: seq<Value>, respectOnly: bool, rng: Rng): (r: Result<Report>)
    ensures var plan := Prepare(strategyName, scenario, scenarios, overrides, users, respectOnly, rng);
            && (plan.Err? ==> r == Err(plan.error))
            && (plan.Ok? ==> (r.Ok? <==> Buildable(plan.value.cfg)))
            && (r.Ok? ==>
                  && plan.Ok? && r.value.ops == plan.value.ops
                  && |r.value.summaries| == |plan.value.strategies|
                  && forall k :: 0 <= k < |plan.value.strategies| ==>
                       Summarizes(r.value.summaries[k], plan.value.strategies[k], r.value.ops))
  {
    match Prepare(strategyName, scenario, scenarios, overrides, users, respectOnly, rng)
    case Err(e) => Err(e)
    case Ok(plan) =>
      match FreshStorage(plan.cfg)
      case Err(e) => Err(e)
      case Ok((disk, fsm)) => Ok(Report(plan.ops, SimulateEach(plan.strategies, disk, fsm, plan.ops)))
  }

  /** Every strategy in turn, each from the same fresh storage. */
  function SimulateEach(strategies: seq<Strategy>, disk: Disk, fsm: Fsm, ops: seq<Op>): (r: seq<Summary>)
    ensures |r| == |strategies|
    ensures forall k :: 0 <= k < |strategies| ==> Summarizes(r[k], strategies[k], ops)
  {
    seq(|strategies|, k requires 0 <= k < |strategies| => SimulateOn(strategies[k], disk, fsm, ops))
  }

  // ---------------------------------------------------------------------
  // What the counters measure
  // ---------------------------------------------------------------------

  /** A contiguous read that succeeds costs no seek and counts its blocks
      twice, once for each of its two events. */
  lemma ContiguousReadTally(fs: Contiguous.ContigFs, name: string, offset: int, n: int)
    ensures var s := Contiguous.Read(fs, name, offset, n);
            s.result.Ok? ==> TallyOf(s.events) == Tally(0, 2 * n)
  {
    var s := Contiguous.Read(fs, name, offset, n);
    if s.result.Ok? {
      var phys := Contiguous.ResolveRange(fs, name, offset, n).value;
      ConsecutiveNoSeeks(phys);
      assert s.events == [Event("read:start", phys, n)] + [Event("read:done", phys, n)];
      TallyAppend([Event("read:start", phys, n)], [Event("read:done", phys, n)]);
    }
  }

  /** An indexed read that succeeds costs the seeks of its pointer slice
      and counts its blocks once. */
  lemma IndexedReadTally(fs: Indexed.IndexedFs, name: string, offset: int, n: int)
    ensures var s := Indexed.Read(fs, name, offset, n);
            s.result.Ok? ==> TallyOf(s.events) == Tally(Seeks(Indexed.ResolveRange(fs, name, offset, n).value), n)
  {
    var s := Indexed.Read(fs, name, offset, n);
    if s.result.Ok? {
      assert Indexed.CheckAccess(fs, name, offset, n).Pass?;
      var rr := Indexed.ResolveRange(fs, name, offset, n);
      assert rr.Ok?;
      TallyPair(Event("read:start", rr.value, n), Mark("read:done"));
    }
  }
}

=== FILE: scenario.dfy ===
/** Scenario configurations: the three built-in scenarios, the schema a
    resolved configuration must satisfy, and its normalisation (size ranges
    as integer pairs, the access pattern as a probability distribution).
    Scenarios read from a JSON file are passed in already parsed. */
module Scenarios {
  import opened Wrappers
  import opened Values

  /** The descriptions of the built-in scenarios. */
  const MIX_SMALL_LARGE_DESCRIPTION: string := "Mezcla de archivos pequeños y grandes, 60% secuencial, 40% aleatorio"
  const SEQ_VS_RAND_DESCRIPTION: string := "Comparativa de acceso 90% secuencial vs 90% aleatorio"
  const FRAG_INTENSIVE_DESCRIPTION: string := "Creación/borrado intensivo para inducir fragmentación"

  /** `DEFAULTS`: the built-in scenarios. */
  function Defaults(): (r: map<string, Config>)
    ensures r.Keys == {"mix-small-large", "seq-vs-rand", "frag-intensive"}
  {
    map["mix-small-large" := MixSmallLarge(), "seq-vs-rand" := SeqVsRand(), "frag-intensive" := FragIntensive()]
  }

  function MixSmallLarge(): Config {
    map[
      "description" := VStr(MIX_SMALL_LARGE_DESCRIPTION),
      "disk_size" := VInt(50000),
      "block_size" := VInt(4096),
      "n_files_small" := VInt(200),
      "file_small_range" := VList([VInt(1), VInt(16)]),
      "n_files_large" := VInt(30),
      "file_large_range" := VList([VInt(256), VInt(2048)]),
      "access_pattern" := VDict(map["seq" := VReal(0.6), "rand" := VReal(0.4)]),
      "delete_rate" := VReal(0.1),
      "ops" := VInt(1000)]
  }

  function SeqVsRand(): Config {
    map[
      "description" := VStr(SEQ_VS_RAND_DESCRIPTION),
      "disk_size" := VInt(40000),
      "block_size" := VInt(4096),
      "n_files_small" := VInt(150),
      "file_small_range" := VList([VInt(1), VInt(32)]),
      "n_files_large" := VInt(20),
      "file_large_range" := VList([VInt(128), VInt(1024)]),
      "access_pattern" := VDict(map["seq" := VReal(0.9), "rand" := VReal(0.1)]),
      "delete_rate" := VReal(0.05),
      "ops" := VInt(800)]
  }

  function FragIntensive(): Config {
    map[
      "description" := VStr(FRAG_INTENSIVE_DESCRIPTION),
      "disk_size" := VInt(60000),
      "block_size" := VInt(4096),
      "n_files_small" := VInt(250),
      "file_small_range" := VList([VInt(1), VInt(8)]),
      "n_files_large" := VInt(10),
      "file_large_range" := VList([VInt(512), VInt(1024)]),
      "access_pattern" := VDict(map["seq" := VReal(0.5), "rand" := VReal(0.5)]),
      "delete_rate" := VReal(0.4),
      "ops" := VInt(1500)]
  }

  /** The type a required key must have. */
  datatype Kind = StrKind | IntKind | SeqKind | DictKind | NumberKind

  predicate HasKind(v: Value, k: Kind) {
    match k
    case StrKind => v.VStr?
    case IntKind => IsInt(v)
    case SeqKind => IsSequence(v)
    case DictKind => v.VDict?
    case NumberKind => IsNumber(v)
  }

  /** `_REQUIRED_KEYS`, in the order they are checked. */
  const REQUIRED_KEYS: seq<(string, Kind)> := [
    ("description", StrKind),
    ("disk_size", IntKind),
    ("block_size", IntKind),
    ("n_files_small", IntKind),
    ("file_small_range", SeqKind),
    ("n_files_large", IntKind),
    ("file_large_range", SeqKind),
    ("access_pattern", DictKind),
    ("delete_rate", NumberKind),
    ("ops", IntKind)
  ]

  /** The key-by-key loop of `_validate_schema`: the first missing or
      wrongly typed key is a ValueError. */
  function CheckKeys(cfg: Config, keys: seq<(string, Kind)>): (r: Outcome)
    ensures r.Pass? <==> forall j :: 0 <= j < |keys| ==> keys[j].0 in cfg && HasKind(cfg[keys[j].0], keys[j].1)
    ensures r.Fail? ==> r.error == ValueError
  {
    if keys == [] then Pass
    else if keys[0].0 !in cfg || !HasKind(cfg[keys[0].0], keys[0].1) then Fail(ValueError)
    else
      var rest := CheckKeys(cfg, keys[1..]);
      assert forall j :: 1 <= j < |keys| ==> keys[j] == keys[1..][j - 1];
      rest
  }

  /** Every required key is present with its type, spelled out key by key. */
  predicate WellTyped(cfg: Config) {
    && "description" in cfg && cfg["description"].VStr?
    && "disk_size" in cfg && IsInt(cfg["disk_size"])
    && "block_size" in cfg && IsInt(cfg["block_size"])
    && "n_files_small" in cfg && IsInt(cfg["n_files_small"])
    && "file_small_range" in cfg && IsSequence(cfg["file_small_range"])
    && "n_files_large" in cfg && IsInt(cfg["n_files_large"])
    && "file_large_range" in cfg && IsSequence(cfg["file_large_range"])
    && "access_pattern" in cfg && cfg["access_pattern"].VDict?
    && "delete_rate" in cfg && IsNumber(cfg["delete_rate"])
    && "ops" in cfg && IsInt(cfg["ops"])
  }

  lemma RequiredKeysAreWellTyped(cfg: Config)
    ensures CheckKeys(cfg, REQUIRED_KEYS).Pass? <==> WellTyped(cfg)
  {
    var ks := REQUIRED_KEYS;
    if WellTyped(cfg) {
      forall j | 0 <= j < |ks| ensures ks[j].0 in cfg && HasKind(cfg[ks[j].0], ks[j].1) {
        assert j < 10;
      }
    } else {
      assert !(ks[0].0 in cfg && HasKind(cfg[ks[0].0], ks[0].1))
          || !(ks[1].0 in cfg && HasKind(cfg[ks[1].0], ks[1].1))
          || !(ks[2].0 in cfg && HasKind(cfg[ks[2].0], ks[2].1))
          || !(ks[3].0 in cfg && HasKind(cfg[ks[3].0], ks[3].1))
          || !(ks[4].0 in cfg && HasKind(cfg[ks[4].0], ks[4].1))
          || !(ks[5].0 in cfg && HasKind(cfg[ks[5].0], ks[5].1))
          || !(ks[6].0 in cfg && HasKind(cfg[ks[6].0], ks[6].1))
          || !(ks[7].0 in cfg && HasKind(cfg[ks[7].0], ks[7].1))
          || !(ks[8].0 in cfg && HasKind(cfg[ks[8].0], ks[8].1))
          || !(ks[9].0 in cfg && HasKind(cfg[ks[9].0], ks[9].1));
    }
  }

  /** A size range as `_as_range_pair` accepts it: a list or tuple of two
      integers with `1 <= min <= max`. */
  predicate RangeOk(v: Value) {
    && IsSequence(v) && |v.items| == 2
    && IsInt(v.items[0]) && IsInt(v.items[1])
    && 1 <= IntOf(v.items[0]) <= IntOf(v.items[1])
  }

  /** `_as_range_pair`. */
  function AsRangePair(v: Value): (r: Result<(int, int)>)
    ensures r.Ok? <==> RangeOk(v)
    ensures r.Err? ==> r.error == ValueError
    ensures r.Ok? ==> r.value == (IntOf(v.items[0]), IntOf(v.items[1]))
  {
    if !IsSequence(v) || |v.items| != 2 then Err(ValueError)
    else
      var a := v.items[0];
      var b := v.items[1];
      if !(IsInt(a) && IsInt(b)) then Err(ValueError)
      else if IntOf(a) < 1 || IntOf(b) < 1 || IntOf(a) > IntOf(b) then Err(ValueError)
      else Ok((IntOf(a), IntOf(b)))
  }

  /** `_normalize_access_pattern`: missing keys count as 0; each weight goes
      through `float()`, so numeric strings count too; a total of 0 or less
      gives all weight to sequential access, otherwise both weights are
      divided by the total. The first weight `float()` rejects decides the
      error. */
  function NormalizeAccessPattern(p: Config): (r: Result<(real, real)>)
    ensures r.Ok? <==> AccessNumeric(p)
    ensures r.Err? ==> r.error == AccessError(p)
    ensures r.Ok? ==> r.value.0 + r.value.1 == 1.0
    ensures r.Ok? ==> r.value == Weights(FloatOf(Get(p, "seq", VReal(0.0))), FloatOf(Get(p, "rand", VReal(0.0))))
  {
    var s :- ToReal(Get(p, "seq", VReal(0.0)));
    var q :- ToReal(Get(p, "rand", VReal(0.0)));
    Ok(Weights(s, q))
  }

  /** Two weights as shares of their total: all to the first when the total
      is 0 or less, otherwise proportional to the weights. */
  function Weights(s: real, q: real): (r: (real, real))
    ensures r.0 + r.1 == 1.0
    ensures s + q <= 0.0 ==> r == (1.0, 0.0)
    ensures s + q > 0.0 ==> r.0 * (s + q) == s && r.1 * (s + q) == q
  {
    var total := s + q;
    if total <= 0.0 then (1.0, 0.0)
    else
      Shares(s, q, total);
      (s / total, q / total)
  }

  /** Dividing two weights by their positive total gives shares that add
      up to one and scale back to the weights. */
  lemma Shares(s: real, q: real, t: real)
    requires t == s + q && t > 0.0
    ensures (s / t) * t == s && (q / t) * t == q
    ensures s / t + q / t == 1.0
  {
    var a := s / t;
    var b := q / t;
    assert a * t == s;
    assert b * t == q;
    assert (a + b) * t == a * t + b * t;
    assert (a + b) * t == t;
    assert (a + b - 1.0) * t == 0.0;
  }

  /** The access-pattern entries `float()` accepts. */
  predicate AccessNumeric(p: Config) {
    RealConvertible(Get(p, "seq", VReal(0.0))) && RealConvertible(Get(p, "rand", VReal(0.0)))
  }

  /** The error of the first access-pattern entry `float()` rejects. */
  function AccessError(p: Config): Error {
    var s := Get(p, "seq", VReal(0.0));
    if !RealConvertible(s) then ConversionError(s) else ConversionError(Get(p, "rand", VReal(0.0)))
  }

  /** Everything `_validate_schema` demands of a configuration. */
  predicate Valid(cfg: Config) {
    && WellTyped(cfg)
    && IntOf(cfg["disk_size"]) > 0
    && IntOf(cfg["block_size"]) > 0
    && IntOf(cfg["n_files_small"]) >= 0 && IntOf(cfg["n_files_large"]) >= 0
    && IntOf(cfg["ops"]) > 0
    && RangeOk(cfg["file_small_range"]) && RangeOk(cfg["file_large_range"])
    && 0.0 <= RealOf(cfg["delete_rate"]) <= 1.0
  }

  /** `_validate_schema`: every violation is a ValueError. */
  function ValidateSchema(cfg: Config): (r: Outcome)
    ensures r.Pass? <==> Valid(cfg)
    ensures r.Fail? ==> r.error == ValueError
  {
    RequiredKeysAreWellTyped(cfg);
    var keys := CheckKeys(cfg, REQUIRED_KEYS);
    if keys.Fail? then keys
    else if IntOf(cfg["disk_size"]) <= 0 then Fail(ValueError)
    else if IntOf(cfg["block_size"]) <= 0 then Fail(ValueError)
    else if IntOf(cfg["n_files_small"]) < 0 || IntOf(cfg["n_files_large"]) < 0 then Fail(ValueError)
    else if IntOf(cfg["ops"]) <= 0 then Fail(ValueError)
    else if AsRangePair(cfg["file_small_range"]).Err? then Fail(ValueError)
    else if AsRangePair(cfg["file_large_range"]).Err? then Fail(ValueError)
    else if !(0.0 <= RealOf(cfg["delete_rate"]) <= 1.0) then Fail(ValueError)
    else Need(cfg["access_pattern"].VDict?, ValueError)
  }

  /** The value a normalised range is stored as: an integer pair. */
  function PairValue(p: (int, int)): Value {
    VTuple([VInt(p.0), VInt(p.1)])
  }

  /** `_normalize_config`: a copy with the two size ranges as integer pairs
      and the access pattern as normalised weights; a missing key is a
      KeyError, a malformed range a ValueError, and a weight `float()`
      rejects the error it raises. An access pattern that is not a
      dictionary never arrives here, because validation rejects it first. */
  function NormalizeConfig(cfg: Config): (r: Result<Config>)
    ensures Valid(cfg) && AccessNumeric(cfg["access_pattern"].entries) ==> r.Ok?
    ensures r.Ok? ==>
              && "file_small_range" in cfg && RangeOk(cfg["file_small_range"])
              && "file_large_range" in cfg && RangeOk(cfg["file_large_range"])
              && "access_pattern" in cfg && cfg["access_pattern"].VDict?
              && AccessNumeric(cfg["access_pattern"].entries)
    ensures r.Ok? ==> r.value.Keys == cfg.Keys
    ensures r.Ok? ==> forall k :: k in cfg && k !in {"file_small_range", "file_large_range", "access_pattern"} ==> r.value[k] == cfg[k]
    ensures r.Ok? ==>
              && r.value["file_small_range"] == PairValue(AsRangePair(cfg["file_small_range"]).value)
              && r.value["file_large_range"] == PairValue(AsRangePair(cfg["file_large_range"]).value)
              && var ap := NormalizeAccessPattern(cfg["access_pattern"].entries).value;
                 r.value["access_pattern"] == VDict(map["seq" := VReal(ap.0), "rand" := VReal(ap.1)])
  {
    match Need("file_small_range" in cfg, KeyError)
    case Fail(e) => Err(e)
    case Pass =>
      var small :- AsRangePair(cfg["file_small_range"]);
      :- Need("file_large_range" in cfg, KeyError);
      var large :- AsRangePair(cfg["file_large_range"]);
      :- Need("access_pattern" in cfg, KeyError);
      :- Need(cfg["access_pattern"].VDict?, TypeError);
      var ap :- NormalizeAccessPattern(cfg["access_pattern"].entries);
      Ok(cfg["file_small_range" := PairValue(small)]
            ["file_large_range" := PairValue(large)]
            ["access_pattern" := VDict(map["seq" := VReal(ap.0), "rand" := VReal(ap.1)])])
  }

  /** The built-in scenarios updated with the external ones: an external
      scenario replaces a built-in one of the same name. */
  function Combined(external: map<string, Config>): (r: map<string, Config>)
    ensures r.Keys == Defaults().Keys + external.Keys
    ensures forall k :: k in external ==> r[k] == external[k]
    ensures forall k :: k in Defaults() && k !in external ==> r[k] == Defaults()[k]
  {
    Defaults() + external
  }

  /** `available_scenarios`: every known scenario with its description, or
      `""` when it has none. */
  function AvailableScenarios(external: map<string, Config>): (r: map<string, Value>)
    ensures r.Keys == Defaults().Keys + external.Keys
    ensures forall k :: k in r ==> r[k] == Get(Combined(external)[k], "description", VStr(""))
  {
    var combined := Combined(external);
    map k | k in combined :: Get(combined[k], "description", VStr(""))
  }

  /** Python's truthiness of an optional scenario name: `None` and `""`
      select no scenario. */
  predicate Named(scenario: Option<string>) {
    scenario.Some? && scenario.value != ""
  }

  /** The raw configuration `get_config` resolves before validating: the
      named scenario (KeyError when unknown) updated with the overrides;
      nothing at all is a ValueError. */
  function Resolve(scenario: Option<string>, external: map<string, Config>, overrides: Config): (r: Result<Config>)
    ensures Named(scenario) && scenario.value !in Combined(external) ==> r == Err(KeyError)
    ensures r.Err? ==> r.error in {KeyError, ValueError}
    ensures r.Ok? ==> |r.value| > 0
    ensures r.Ok? ==> forall k :: k in overrides ==> k in r.value && r.value[k] == overrides[k]
    ensures r.Ok? && Named(scenario) ==>
              forall k :: k in Combined(external)[scenario.value] && k !in overrides ==>
                k in r.value && r.value[k] == Combined(external)[scenario.value][k]
    ensures r.Ok? ==> forall k :: k in r.value ==> k in overrides || (Named(scenario) && k in Combined(external)[scenario.value])
    ensures Named(scenario) && scenario.value in Combined(external) ==>
              var cfg := Combined(external)[scenario.value] + overrides;
              r == if |cfg| == 0 then Err(ValueError) else Ok(cfg)
    ensures !Named(scenario) ==> r == if |overrides| == 0 then Err(ValueError) else Ok(overrides)
  {
    if !Named(scenario) then
      if |overrides| == 0 then Err(ValueError) else Ok(overrides)
    else
      var combined := Combined(external);
      if scenario.value !in combined then Err(KeyError)
      else
        var cfg := combined[scenario.value] + overrides;
        if |cfg| == 0 then Err(ValueError) else Ok(cfg)
  }

  /** `get_config`: resolve, validate, normalise. */
  function GetConfig(scenario: Option<string>, external: map<string, Config>, overrides: Config): (r: Result<Config>)
    ensures Named(scenario) && scenario.value !in Combined(external) ==> r == Err(KeyError)
    ensures r.Ok? ==> Resolve(scenario, external, overrides).Ok? && Valid(Resolve(scenario, external, overrides).value)
    ensures Resolve(scenario, external, overrides).Ok? && !Valid(Resolve(scenario, external, overrides).value) ==> r == Err(ValueError)
    ensures r.Err? ==> r.error in {KeyError, ValueError, TypeError}
    ensures r.Ok? ==> r.value.Keys == Resolve(scenario, external, overrides).value.Keys
    ensures r.Ok? ==> forall k :: k in overrides && k !in {"file_small_range", "file_large_range", "access_pattern"} ==>
              r.value[k] == overrides[k]
  {
    var cfg :- Resolve(scenario, external, overrides);
    var valid := ValidateSchema(cfg);
    if valid.Fail? then Err(valid.error) else NormalizeConfig(cfg)
  }

  /** `get_config` succeeds on every resolved configuration that passes
      validation and whose access weights `float()` accepts. */
  lemma GetConfigSucceeds(scenario: Option<string>, external: map<string, Config>, overrides: Config)
    requires Resolve(scenario, external, overrides).Ok?
    requires Valid(Resolve(scenario, external, overrides).value)
    requires AccessNumeric(Resolve(scenario, external, overrides).value["access_pattern"].entries)
    ensures GetConfig(scenario, external, overrides).Ok?
  {
    var cfg := Resolve(scenario, external, overrides).value;
    assert ValidateSchema(cfg).Pass?;
    assert NormalizeConfig(cfg).Ok?;
  }

  /** Each built-in scenario resolves to a valid configuration. */
  lemma DefaultsAreValid(name: string)
    requires name in Defaults()
    ensures GetConfig(Some(name), map[], map[]).Ok?
  {
    ResolveBuiltIn(name);
    DefaultValid(name);
    GetConfigSucceeds(Some(name), map[], map[]);
  }

  /** Without a file or overrides a built-in name resolves to its entry. */
  lemma ResolveBuiltIn(name: string)
    requires name in Defaults()
    ensures Resolve(Some(name), map[], map[]) == Ok(Defaults()[name])
  {
    var base := Defaults()[name];
    BuiltInNonEmpty(name);
    assert base + map[] == base;
  }

  lemma BuiltInNonEmpty(name: string)
    requires name in Defaults()
    ensures |Defaults()[name]| > 0
  {
    assert "disk_size" in Defaults()[name];
  }

  lemma DefaultValid(name: string)
    requires name in Defaults()
    ensures Valid(Defaults()[name]) && AccessNumeric(Defaults()[name]["access_pattern"].entries)
  {
    if name == "mix-small-large" {
      MixSmallLargeValid();
    } else if name == "seq-vs-rand" {
      SeqVsRandValid();
    } else {
      FragIntensiveValid();
    }
  }

  lemma MixSmallLargeValid()
    ensures Valid(MixSmallLarge()) && AccessNumeric(MixSmallLarge()["access_pattern"].entries)
  {}

  lemma SeqVsRandValid()
    ensures Valid(SeqVsRand()) && AccessNumeric(SeqVsRand()["access_pattern"].entries)
  {}

  lemma FragIntensiveValid()
    ensures Valid(FragIntensive()) && AccessNumeric(FragIntensive()["access_pattern"].entries)
  {}
}

=== FILE: values.dfy ===
/** The dynamically typed values a scenario configuration is made of, as
    Python holds them after parsing JSON or receiving keyword overrides,
    and the conversions (`int(...)`, `float(...)`, `isinstance`) the
    simulator applies to them. */
module Values {
  import opened Wrappers
  import opened Literals
  import opened Names

  datatype Value =
    | VNone
    | VBool(b: bool)
    | VInt(i: int)
    | VReal(r: real)
    | VStr(s: string)
    | VList(items: seq<Value>)
    | VTuple(items: seq<Value>)
    | VDict(entries: map<string, Value>)

  /** A configuration dictionary. */
  type Config = map<string, Value>

  /** `isinstance(v, int)`: Python's `bool` is a subclass of `int`. */
  predicate IsInt(v: Value) {
    v.VInt? || v.VBool?
  }

  /** The integer an `int` (or `bool`) value stands for. */
  function IntOf(v: Value): int
    requires IsInt(v)
  {
    if v.VInt? then v.i else if v.b then 1 else 0
  }

  /** `isinstance(v, (int, float))`. */
  predicate IsNumber(v: Value) {
    IsInt(v) || v.VReal?
  }

  /** The number a numeric value stands for, as a real. */
  function RealOf(v: Value): real
    requires IsNumber(v)
  {
    if v.VReal? then v.r else IntOf(v) as real
  }

  /** `isinstance(v, (list, tuple))`. */
  predicate IsSequence(v: Value) {
    v.VList? || v.VTuple?
  }

  /** `d.get(key, default)`. */
  function Get(d: Config, key: string, default: Value): (r: Value)
    ensures key in d ==> r == d[key]
    ensures key !in d ==> r == default
  {
    if key in d then d[key] else default
  }

  /** Truncation toward zero, the rounding of Python's `int()` on a float. */
  function Trunc(x: real): (r: int)
    ensures x >= 0.0 ==> r as real <= x < r as real + 1.0
    ensures x < 0.0 ==> r as real - 1.0 < x <= r as real
  {
    if x >= 0.0 then x.Floor else -((-x).Floor)
  }

  /** `int(v)` succeeds: `v` is a number, or a string `int()` accepts. */
  predicate IntConvertible(v: Value) {
    IsNumber(v) || (v.VStr? && ParseInt(v.s).Some?)
  }

  /** `float(v)` succeeds: `v` is a number, or a string `float()` accepts. */
  predicate RealConvertible(v: Value) {
    IsNumber(v) || (v.VStr? && ParseReal(v.s).Some?)
  }

  /** What `int(v)` or `float(v)` raises when it fails: ValueError for a
      string it cannot read, TypeError for any other kind of value. */
  function ConversionError(v: Value): Error {
    if v.VStr? then ValueError else TypeError
  }

  /** The real `float(v)` returns. */
  function FloatOf(v: Value): real
    requires RealConvertible(v)
  {
    if IsNumber(v) then RealOf(v) else ParseReal(v.s).value
  }

  /** `int(v)`: an integer (or bool) as it is, a float truncated toward
      zero, a string read as a decimal integer; a string it cannot read is
      a ValueError and any other value a TypeError. */
  function ToInt(v: Value): (r: Result<int>)
    ensures r.Ok? <==> IntConvertible(v)
    ensures r.Err? ==> r.error == ConversionError(v)
    ensures IsInt(v) ==> r == Ok(IntOf(v))
    ensures v.VReal? ==> r == Ok(Trunc(v.r))
    ensures v.VStr? && r.Ok? ==> r.value == ParseInt(v.s).value
  {
    if IsInt(v) then Ok(IntOf(v))
    else if v.VReal? then Ok(Trunc(v.r))
    else if v.VStr? then
      if ParseInt(v.s).Some? then Ok(ParseInt(v.s).value) else Err(ValueError)
    else Err(TypeError)
  }

  /** `float(v)`: a number as a real, a string read as a decimal literal;
      a string it cannot read is a ValueError and any other value a
      TypeError. */
  function ToReal(v: Value): (r: Result<real>)
    ensures r.Ok? <==> RealConvertible(v)
    ensures r.Err? ==> r.error == ConversionError(v)
    ensures IsNumber(v) ==> r == Ok(RealOf(v))
    ensures r.Ok? ==> r.value == FloatOf(v)
  {
    if IsNumber(v) then Ok(RealOf(v))
    else if v.VStr? then
      if ParseReal(v.s).Some? then Ok(ParseReal(v.s).value) else Err(ValueError)
    else Err(TypeError)
  }

  /** A value `int()` accepts, `float()` accepts with the same number:
      `float("4") == int("4") == 4`. */
  lemma RealAcceptsInt(v: Value)
    requires ToInt(v).Ok? && !v.VReal?
    ensures ToReal(v) == Ok(ToInt(v).value as real)
  {
    if v.VStr? {
      ParseRealExtendsInt(v.s);
    }
  }

  /** `int("4") == 4`. */
  lemma IntOfString()
    ensures ToInt(VStr("4")) == Ok(4)
  {
    IntTextRoundTrip(4);
    assert IntText(4) == "4";
  }

  /** `float("a.b")` for digit strings `a` and `b`: the value minus `a`,
      shifted up by the number of digits of `b`, is `b` (so `float("0.6")`
      is 6 shifted down by one place). */
  lemma RealOfDecimalString(m: string, f: string, a: nat, b: nat)
    requires |m| > 0 && forall k :: 0 <= k < |m| ==> IsDigit(m[k])
    requires |f| > 0 && forall k :: 0 <= k < |f| ==> IsDigit(f[k])
    requires ValueOf(m) == a && ValueOf(f) == b
    ensures ToReal(VStr(m + "." + f)).Ok?
    ensures Shift(ToReal(VStr(m + "." + f)).value - a as real, |f|) == b as real
  {
    ParseRealFraction(m, f, a, b);
  }

  /** `int("x")` raises ValueError. */
  lemma IntRejectsString()
    ensures ToInt(VStr("x")) == Err(ValueError)
  {
    IntRejectsOther("x", 0);
  }

  /** `int("\x1c4")` raises ValueError: the file separator U+001C is not
      whitespace to `int()`, although `str.isspace` says it is. */
  lemma IntRejectsSeparator()
    ensures ToInt(VStr("\U{1C}4")) == Err(ValueError)
  {
    IntRejectsOther("\U{1C}4", 0);
  }
}

=== FILE: workload.dfy ===
/** The workload generator: a population of files followed by a stream of
    create/delete/read/write operations drawn at random. The random source
    is an explicit stream of draws, so the generator is a pure function of
    the configuration, the user files and that stream. */
module Workload {
  import opened Wrappers
  import opened Values
  import opened Names
  import opened RandomSource

  datatype OpKind = CreateOp | DeleteOp | ReadOp | WriteOp | OtherOp(tag: string)

  datatype Mode = SeqMode | RandMode

  /** One emitted operation (the dictionary with keys `op`, `name`,
      `size_blocks`, `offset`, `n_blocks`, `access_mode`). */
  datatype Op = Op(kind: OpKind, name: string, sizeBlocks: int, offset: int, nBlocks: int, mode: Mode)

  function CreateOf(name: string, size: int): Op {
    Op(CreateOp, name, size, 0, 0, SeqMode)
  }

  function Min(a: int, b: int): int {
    if b < a then b else a
  }

  /** The number of iterations of `range(n)`. */
  function Times(n: int): nat {
    if n < 0 then 0 else n
  }

  // ---------------------------------------------------------------------
  // Operation weights and I/O ranges
  // ---------------------------------------------------------------------

  /** `_ensure_min_ops_weights`: the weights of create, delete, read and
      write. Delete grows with the delete rate up to 0.45; read and write
      share what is left. */
  function OpWeights(deleteRate: real): (w: seq<real>)
    ensures |w| == 4
    ensures w[0] == 0.25
    ensures w[1] == if 0.45 < 0.1 + 0.8 * deleteRate then 0.45 else 0.1 + 0.8 * deleteRate
    ensures w[2] == w[3]
  {
    var create := 0.25;
    var delete := if 0.45 < 0.1 + 0.8 * deleteRate then 0.45 else 0.1 + 0.8 * deleteRate;
    var remaining := if 1.0 - (create + delete) < 0.0 then 0.0 else 1.0 - (create + delete);
    [create, delete, remaining * 0.5, remaining * 0.5]
  }

  /** The weights always form a distribution over the four operations
      (the clamp to 0 never applies), and none is negative for a delete
      rate in [0, 1]. */
  lemma OpWeightsDistribution(deleteRate: real)
    ensures var w := OpWeights(deleteRate);
            && w[0] + w[1] + w[2] + w[3] == 1.0
            && w[1] <= 0.45
            && (0.0 <= deleteRate <= 1.0 ==> forall k :: 0 <= k < 4 ==> w[k] >= 0.0)
  {
    var w := OpWeights(deleteRate);
    assert 1.0 - (0.25 + w[1]) >= 0.3;
  }

  /** `(lo, hi)` is a pair of integers and `s` lies between them. */
  predicate InPair(pair: seq<Value>, s: int) {
    |pair| == 2 && IsInt(pair[0]) && IsInt(pair[1]) && IntOf(pair[0]) <= s <= IntOf(pair[1])
  }

  /** `_rand_size`: unpacking anything but two values is a ValueError,
      `randint` on a non-integer bound a TypeError (as Python 3.12 does) and
      on an empty range a ValueError. */
  function RandSize(g: Rng, pair: seq<Value>): (r: Result<(int, Rng)>)
    ensures |pair| != 2 ==> r == Err(ValueError)
    ensures |pair| == 2 && !(IsInt(pair[0]) && IsInt(pair[1])) ==> r == Err(TypeError)
    ensures |pair| == 2 && IsInt(pair[0]) && IsInt(pair[1]) ==>
              (r.Ok? <==> IntOf(pair[0]) <= IntOf(pair[1])) && (r.Err? ==> r.error == ValueError)
    ensures r.Ok? ==> InPair(pair, r.value.0) && r.value.1 == Draw(g).1
  {
    if |pair| != 2 then Err(ValueError)
    else if !(IsInt(pair[0]) && IsInt(pair[1])) then Err(TypeError)
    else RandInt(g, IntOf(pair[0]), IntOf(pair[1]))
  }

  /** The range `[offset, offset + n)` fits a file of `size` blocks; a
      file without blocks is only ever given the empty range at 0. */
  predicate InBounds(size: int, offset: int, n: int) {
    if size > 0 then 0 <= offset && 1 <= n && offset + n <= size
    else offset == 0 && n == 0
  }

  /** `_compute_offset_and_len`: the offset, the block count and the new
      sequential cursor of one read or write. */
  function ComputeOffsetAndLen(g: Rng, size: int, mode: Mode, cursor: int, maxIo: int): (r: Result<(int, int, int, Rng)>)
    ensures size <= 0 ==> r == Ok((0, 0, cursor, g))
    ensures size > 0 ==> (r.Ok? <==> maxIo >= 1)
    ensures r.Err? ==> r.error == ValueError
    ensures r.Ok? && cursor >= 0 ==> InBounds(size, r.value.0, r.value.1) && r.value.2 >= 0
    ensures r.Ok? && size > 0 ==> r.value.1 <= Min(maxIo, size)
    ensures r.Ok? && size > 0 && mode == SeqMode && cursor >= 0 ==>
              && r.value.0 == (if cursor < size then cursor else 0)
              && r.value.2 == (r.value.0 + r.value.1) % size
    ensures r.Ok? && mode == RandMode ==> r.value.2 == cursor && (r.value.1 == size ==> r.value.0 == 0)
  {
    if size <= 0 then Ok((0, 0, cursor, g))
    else
      var (n, g1) :- RandInt(g, 1, Min(maxIo, size));
      match mode
      case SeqMode =>
        var cur := if cursor >= size then 0 else cursor;
        var (cur, n) :=
          if cur + n > size then
            (if size - cur <= 0 then (0, 1) else (cur, size - cur))
          else (cur, n);
        Ok((cur, n, (cur + n) % size, g1))
      case RandMode =>
        if n >= size then Ok((0, size, cursor, g1))
        else
          var (offset, g2) :- RandInt(g1, 0, size - n);
          Ok((offset, n, cursor, g2))
  }

  // ---------------------------------------------------------------------
  // Generator parameters
  // ---------------------------------------------------------------------

  /** The values `generate_workload` reads from its configuration. */
  datatype Params = Params(
    ops: int, nSmall: int, nLarge: int,
    small: seq<Value>, large: seq<Value>,
    seqProb: real, deleteRate: real, maxIo: int)

  /** `tuple(v)`: a list or a tuple gives its items, a string its
      characters one by one. */
  function TupleOf(v: Value): (r: Result<seq<Value>>)
    ensures r.Ok? <==> IsSequence(v) || v.VStr?
    ensures IsSequence(v) ==> r == Ok(v.items)
    ensures v.VStr? ==> r.Ok? && |r.value| == |v.s| && forall k :: 0 <= k < |v.s| ==> r.value[k] == VStr([v.s[k]])
    ensures r.Err? ==> r.error == TypeError
  {
    if IsSequence(v) then Ok(v.items)
    else if v.VStr? then Ok(seq(|v.s|, k requires 0 <= k < |v.s| => VStr([v.s[k]])))
    else Err(TypeError)
  }

  /** The access pattern's `seq` weight through `float(...)`, 0.5 when
      absent; anything but a dictionary has no `get`. */
  function SeqWeight(pattern: Value): (r: Result<real>)
    ensures r.Ok? <==> pattern.VDict? && RealConvertible(Get(pattern.entries, "seq", VReal(0.5)))
    ensures r.Err? ==> r.error == (if pattern.VDict? then ConversionError(Get(pattern.entries, "seq", VReal(0.5))) else TypeError)
    ensures r.Ok? ==> r.value == FloatOf(Get(pattern.entries, "seq", VReal(0.5)))
    ensures pattern.VDict? && "seq" !in pattern.entries ==> r == Ok(0.5)
  {
    if pattern.VDict? then ToReal(Get(pattern.entries, "seq", VReal(0.5))) else Err(TypeError)
  }

  /** The parameters read with `cfg.get` and their defaults, in the order
      the generator reads them; the first value that does not convert stops
      it with the error its conversion raises. */
  function ParamsOf(cfg: Config): (r: Result<Params>)
    ensures r.Ok? <==>
              && IntConvertible(Get(cfg, "ops", VInt(1000)))
              && IntConvertible(Get(cfg, "n_files_small", VInt(0)))
              && IntConvertible(Get(cfg, "n_files_large", VInt(0)))
              && TupleOf(Get(cfg, "file_small_range", VTuple([VInt(1), VInt(4)]))).Ok?
              && TupleOf(Get(cfg, "file_large_range", VTuple([VInt(16), VInt(128)]))).Ok?
              && SeqWeight(Get(cfg, "access_pattern", VDict(map[]))).Ok?
              && RealConvertible(Get(cfg, "delete_rate", VReal(0.1)))
              && IntConvertible(Get(cfg, "max_io_blocks", VInt(8)))
    ensures r.Err? ==> r.error == TypeError || r.error == ValueError
    ensures !IntConvertible(Get(cfg, "ops", VInt(1000))) ==> r == Err(ConversionError(Get(cfg, "ops", VInt(1000))))
    ensures r.Ok? ==>
              && ToInt(Get(cfg, "ops", VInt(1000))) == Ok(r.value.ops)
              && ToInt(Get(cfg, "n_files_small", VInt(0))) == Ok(r.value.nSmall)
              && ToInt(Get(cfg, "n_files_large", VInt(0))) == Ok(r.value.nLarge)
              && TupleOf(Get(cfg, "file_small_range", VTuple([VInt(1), VInt(4)]))) == Ok(r.value.small)
              && TupleOf(Get(cfg, "file_large_range", VTuple([VInt(16), VInt(128)]))) == Ok(r.value.large)
              && SeqWeight(Get(cfg, "access_pattern", VDict(map[]))) == Ok(r.value.seqProb)
              && ToReal(Get(cfg, "delete_rate", VReal(0.1))) == Ok(r.value.deleteRate)
              && ToInt(Get(cfg, "max_io_blocks", VInt(8))) == Ok(r.value.maxIo)
  {
    var ops :- ToInt(Get(cfg, "ops", VInt(1000)));
    var nSmall :- ToInt(Get(cfg, "n_files_small", VInt(0)));
    var nLarge :- ToInt(Get(cfg, "n_files_large", VInt(0)));
    var small :- TupleOf(Get(cfg, "file_small_range", VTuple([VInt(1), VInt(4)])));
    var large :- TupleOf(Get(cfg, "file_large_range", VTuple([VInt(16), VInt(128)])));
    var seqProb :- SeqWeight(Get(cfg, "access_pattern", VDict(map[])));
    var deleteRate :- ToReal(Get(cfg, "delete_rate", VReal(0.1)));
    var maxIo :- ToInt(Get(cfg, "max_io_blocks", VInt(8)));
    Ok(Params(ops, nSmall, nLarge, small, large, seqProb, deleteRate, maxIo))
  }

  /** An empty configuration gives the documented defaults. */
  lemma ParamsOfEmpty()
    ensures ParamsOf(map[]) == Ok(Params(1000, 0, 0, [VInt(1), VInt(4)], [VInt(16), VInt(128)], 0.5, 0.1, 8))
  {
    assert SeqWeight(VDict(map[])) == Ok(0.5);
  }

  // ---------------------------------------------------------------------
  // Generator state and its consistency
  // ---------------------------------------------------------------------

  datatype FileInfo = FileInfo(size: int, cursor: int)

  /** The generator's local state: `files`, `live_names`, `existing_names`,
      the two name counters, the emitted operations and the random source. */
  datatype Gen = Gen(
    files: map<string, FileInfo>, live: seq<string>, existing: set<string>,
    counterSmall: nat, counterLarge: nat, ops: seq<Op>, rng: Rng)

  predicate Unique<T(==)>(s: seq<T>) {
    forall i, j :: 0 <= i < j < |s| ==> s[i] != s[j]
  }

  /** The position of the first occurrence of `x`. */
  function IndexOf<T(==)>(s: seq<T>, x: T): (i: nat)
    requires x in s
    ensures i < |s| && s[i] == x && x !in s[..i]
  {
    if s[0] == x then 0
    else
      assert x in s[1..];
      var i := IndexOf(s[1..], x);
      assert s[..i + 1] == [s[0]] + s[1..][..i];
      i + 1
  }

  /** `list.remove(x)`: drops the first occurrence. */
  function RemoveFirst<T(==)>(s: seq<T>, x: T): (r: seq<T>)
    requires x in s
  {
    var i := IndexOf(s, x);
    s[..i] + s[i + 1..]
  }

  lemma RemoveFirstUnique<T>(s: seq<T>, x: T)
    requires x in s && Unique(s)
    ensures Unique(RemoveFirst(s, x))
    ensures forall y :: y in RemoveFirst(s, x) <==> y in s && y != x
  {
    var i := IndexOf(s, x);
    var r := RemoveFirst(s, x);
    assert forall k :: 0 <= k < |r| ==> r[k] == if k < i then s[k] else s[k + 1];
    forall y | y in s && y != x ensures y in r {
      var k :| 0 <= k < |s| && s[k] == y;
      assert k != i;
      if k < i { assert r[k] == y; } else { assert r[k - 1] == y; }
    }
  }

  /** The size of every file the generator believes alive. */
  function Sizes(files: map<string, FileInfo>): map<string, int> {
    map x | x in files :: files[x].size
  }

  /** The file sizes after replaying `ops` against an empty catalog, or
      None once an operation is invalid: a create of a live name, a delete,
      read or write of a name that is not live, or a read or write range
      outside its file. */
  function Replay(ops: seq<Op>): Option<map<string, int>>
    decreases |ops|
  {
    if ops == [] then Some(map[])
    else
      match Replay(ops[..|ops| - 1])
      case None => None
      case Some(live) => ReplayStep(live, ops[|ops| - 1])
  }

  function ReplayStep(live: map<string, int>, op: Op): Option<map<string, int>> {
    match op.kind
    case CreateOp => if op.name in live then None else Some(live[op.name := op.sizeBlocks])
    case DeleteOp => if op.name in live then Some(live - {op.name}) else None
    case ReadOp => if op.name in live && InBounds(live[op.name], op.offset, op.nBlocks) then Some(live) else None
    case WriteOp => if op.name in live && InBounds(live[op.name], op.offset, op.nBlocks) then Some(live) else None
    case OtherOp(_) => None
  }

  lemma ReplayAppend(ops: seq<Op>, op: Op)
    ensures Replay(ops + [op]) == if Replay(ops).None? then None else ReplayStep(Replay(ops).value, op)
  {
    assert (ops + [op])[..|ops|] == ops;
  }

  /** A successful replay means that every operation was valid when it
      came: a create named a file that was not live, a delete, read or write
      named a live file, and a read or write range lay inside that file. */
  lemma {:induction false} ReplayValid(ops: seq<Op>, k: nat)
    requires Replay(ops).Some? && k < |ops|
    ensures Replay(ops[..k]).Some?
    ensures var live := Replay(ops[..k]).value;
            var op := ops[k];
            && (op.kind == CreateOp ==> op.name !in live)
            && (op.kind != CreateOp ==> op.name in live && !op.kind.OtherOp?)
            && (op.kind == ReadOp || op.kind == WriteOp ==> InBounds(live[op.name], op.offset, op.nBlocks))
    decreases |ops|
  {
    var front := ops[..|ops| - 1];
    if k == |ops| - 1 {
      assert ops[..k] == front;
    } else {
      assert front[..k] == ops[..k];
      assert front[k] == ops[k];
      ReplayValid(front, k);
    }
  }

  /** The generator's bookkeeping agrees with itself and with what it
      emitted: the live names are distinct and are exactly the files and the
      existing names, cursors are never negative, and replaying the emitted
      operations yields the current file sizes. */
  ghost predicate Consistent(g: Gen) {
    && Unique(g.live)
    && (forall x :: x in g.live <==> x in g.files)
    && g.existing == g.files.Keys
    && (forall x :: x in g.files ==> g.files[x].cursor >= 0)
    && Replay(g.ops) == Some(Sizes(g.files))
  }

  /** A new file with its create operation. */
  function WithFile(g: Gen, name: string, size: int): Gen {
    g.(files := g.files[name := FileInfo(size, 0)], live := g.live + [name],
       existing := g.existing + {name}, ops := g.ops + [CreateOf(name, size)])
  }

  /** A deleted file with its delete operation. */
  function WithoutFile(g: Gen, victim: string): Gen
    requires victim in g.live
  {
    g.(files := g.files - {victim}, live := RemoveFirst(g.live, victim),
       existing := g.existing - {victim}, ops := g.ops + [Op(DeleteOp, victim, 0, 0, 0, SeqMode)])
  }

  /** A read or write of `target` and the cursor it leaves behind. */
  function Touched(g: Gen, target: string, kind: OpKind, offset: int, n: int, mode: Mode, cursor: int): Gen
    requires target in g.files
  {
    g.(files := g.files[target := g.files[target].(cursor := cursor)],
       ops := g.ops + [Op(kind, target, 0, offset, n, mode)])
  }

  lemma WithFileConsistent(g: Gen, name: string, size: int)
    ensures Consistent(g) && name !in g.existing ==> Consistent(WithFile(g, name, size))
  {
    if Consistent(g) && name !in g.existing {
      WithFileKeeps(g, name, size);
    }
  }

  lemma WithFileKeeps(g: Gen, name: string, size: int)
    requires Consistent(g) && name !in g.existing
    ensures Consistent(WithFile(g, name, size))
  {
    var h := WithFile(g, name, size);
    ReplayAppend(g.ops, CreateOf(name, size));
    assert Sizes(h.files) == Sizes(g.files)[name := size];
    assert forall x :: x in h.live <==> x in g.live || x == name;
  }

  lemma WithoutFileConsistent(g: Gen, victim: string)
    requires victim in g.live
    ensures Consistent(g) ==> Consistent(WithoutFile(g, victim))
  {
    if Consistent(g) {
      WithoutFileKeeps(g, victim);
    }
  }

  lemma WithoutFileKeeps(g: Gen, victim: string)
    requires Consistent(g) && victim in g.live
    ensures Consistent(WithoutFile(g, victim))
  {
    var h := WithoutFile(g, victim);
    ReplayAppend(g.ops, Op(DeleteOp, victim, 0, 0, 0, SeqMode));
    RemoveFirstUnique(g.live, victim);
    assert Sizes(h.files) == Sizes(g.files) - {victim};
  }

  lemma TouchedConsistent(g: Gen, target: string, kind: OpKind, offset: int, n: int, mode: Mode, cursor: int)
    requires target in g.files && (kind == ReadOp || kind == WriteOp)
    ensures Consistent(g) && InBounds(g.files[target].size, offset, n) && cursor >= 0 ==>
              Consistent(Touched(g, target, kind, offset, n, mode, cursor))
  {
    if Consistent(g) && InBounds(g.files[target].size, offset, n) && cursor >= 0 {
      TouchedKeeps(g, target, kind, offset, n, mode, cursor);
    }
  }

  lemma TouchedKeeps(g: Gen, target: string, kind: OpKind, offset: int, n: int, mode: Mode, cursor: int)
    requires Consistent(g) && target in g.files && (kind == ReadOp || kind == WriteOp)
    requires InBounds(g.files[target].size, offset, n) && cursor >= 0
    ensures Consistent(Touched(g, target, kind, offset, n, mode, cursor))
  {
    var h := Touched(g, target, kind, offset, n, mode, cursor);
    ReplayAppend(g.ops, Op(kind, target, 0, offset, n, mode));
    assert Sizes(h.files) == Sizes(g.files);
  }

  // ---------------------------------------------------------------------
  // One step of the generator
  // ---------------------------------------------------------------------

  /** Every create emitted from position `from` on has a size drawn from
      one of the two configured ranges. */
  predicate SizedCreates(p: Params, ops: seq<Op>, from: int) {
    forall k :: 0 <= from <= k < |ops| && ops[k].kind == CreateOp ==>
      InPair(p.small, ops[k].sizeBlocks) || InPair(p.large, ops[k].sizeBlocks)
  }

  /** `ops` extends `before` by exactly `n` operations. */
  predicate Extends(ops: seq<Op>, before: seq<Op>, n: nat) {
    |ops| == |before| + n && ops[..|before|] == before
  }

  /** A synthetic file of the given kind: the next free name of that kind
      and a size drawn from the kind's range. */
  function CreateOfKind(p: Params, g: Gen, large: bool): (r: Result<Gen>)
    ensures r.Err? ==> r.error == ValueError || r.error == TypeError
    ensures r.Ok? ==>
              && Extends(r.value.ops, g.ops, 1)
              && var op := r.value.ops[|g.ops|];
              && op.kind == CreateOp && op.name !in g.existing
              && InPair(if large then p.large else p.small, op.sizeBlocks)
              && (large ==> r.value.counterLarge > g.counterLarge && op.name == NewName("large", r.value.counterLarge - 1))
              && (!large ==> r.value.counterSmall > g.counterSmall && op.name == NewName("small", r.value.counterSmall - 1))
    ensures r.Ok? && Consistent(g) ==> Consistent(r.value)
    ensures Runnable(p) ==> r.Ok?
  {
    var kind := if large then "large" else "small";
    var (name, counter) := NextUniqueName(kind, if large then g.counterLarge else g.counterSmall, g.existing);
    match RandSize(g.rng, if large then p.large else p.small)
    case Err(e) => Err(e)
    case Ok((size, rng)) =>
      CreatedFacts(g, name, size, large, counter, rng);
      Ok(MakeCreated(WithFile(g, name, size), large, counter, rng))
  }

  function MakeCreated(h: Gen, large: bool, counter: nat, rng: Rng): Gen {
    if large then h.(counterLarge := counter, rng := rng) else h.(counterSmall := counter, rng := rng)
  }

  /** Adding a file and advancing one counter appends exactly its create
      and keeps the state consistent when the name is new. */
  lemma CreatedFacts(g: Gen, name: string, size: int, large: bool, counter: nat, rng: Rng)
    ensures var r := MakeCreated(WithFile(g, name, size), large, counter, rng);
            && Extends(r.ops, g.ops, 1) && r.ops[|g.ops|] == CreateOf(name, size)
            && (large ==> r.counterLarge == counter) && (!large ==> r.counterSmall == counter)
            && (Consistent(g) && name !in g.existing ==> Consistent(r))
  {
    var h := WithFile(g, name, size);
    assert h.ops[..|g.ops|] == g.ops;
    WithFileConsistent(g, name, size);
  }

  /** A create of a small (weight 0.75) or large (weight 0.25) file. */
  function CreateStep(p: Params, g: Gen): (r: Result<Gen>)
    ensures r.Ok? ==> Extends(r.value.ops, g.ops, 1) && r.value.ops[|g.ops|].kind == CreateOp
    ensures r.Ok? ==> SizedCreates(p, r.value.ops, |g.ops|)
    ensures r.Ok? && Consistent(g) ==> Consistent(r.value)
    ensures Runnable(p) ==> r.Ok?
  {
    assert Accumulate([0.75, 0.25])[1] == 1.0;
    match Choose(g.rng, [0.75, 0.25])
    case Err(e) => Err(e)
    case Ok((k, rng)) =>
      var r := CreateOfKind(p, g.(rng := rng), k == 1);
      RngIrrelevant(g, rng);
      if r.Ok? then
        SizedOne(p, r.value.ops, |g.ops|);
        r
      else r
  }

  /** Consistency does not depend on the random stream. */
  lemma RngIrrelevant(g: Gen, rng: Rng)
    ensures Consistent(g) ==> Consistent(g.(rng := rng))
  {}

  lemma SizedOne(p: Params, ops: seq<Op>, from: nat)
    requires |ops| == from + 1
    requires InPair(p.small, ops[from].sizeBlocks) || InPair(p.large, ops[from].sizeBlocks)
    ensures SizedCreates(p, ops, from)
  {}

  /** `_pick_existing`: a live name chosen uniformly, or None when there is
      none. */
  function PickExisting(g: Rng, names: seq<string>): (r: Option<(string, Rng)>)
    ensures r.None? <==> names == []
    ensures r.Some? ==> r.value.0 in names && r.value.1 == Draw(g).1
  {
    if names == [] then None
    else
      var (i, g1) := RandBelow(g, |names|);
      Some((names[i], g1))
  }

  /** A delete of a live file (a create when there is none). */
  function DeleteStep(p: Params, g: Gen): (r: Result<Gen>)
    ensures g.live != [] ==> r.Ok?
    ensures r.Ok? ==> Extends(r.value.ops, g.ops, 1) && SizedCreates(p, r.value.ops, |g.ops|)
    ensures r.Ok? && g.live != [] ==>
              var op := r.value.ops[|g.ops|];
              op.kind == DeleteOp && op.name in g.live
    ensures r.Ok? && Consistent(g) ==> Consistent(r.value)
    ensures Runnable(p) ==> r.Ok?
  {
    match PickExisting(g.rng, g.live)
    case None => CreateStep(p, g)
    case Some((victim, rng)) =>
      var h := WithoutFile(g, victim);
      assert h.ops[..|g.ops|] == g.ops;
      WithoutFileConsistent(g, victim);
      Ok(h.(rng := rng))
  }

  /** A read or write of a live file: the access mode is sequential with
      probability `seqProb`, and the range comes from the file's size and
      cursor (a create when there is no live file). */
  function ReadWriteStep(p: Params, g: Gen, kind: OpKind): (r: Result<Gen>)
    requires kind == ReadOp || kind == WriteOp
    ensures r.Err? ==> r.error == ValueError || r.error == TypeError || r.error == KeyError
    ensures r.Ok? ==> Extends(r.value.ops, g.ops, 1) && SizedCreates(p, r.value.ops, |g.ops|)
    ensures r.Ok? && g.live != [] ==>
              var op := r.value.ops[|g.ops|];
              op.kind == kind && op.name in g.live
    ensures r.Ok? && Consistent(g) ==> Consistent(r.value)
    ensures Runnable(p) && Consistent(g) ==> r.Ok?
  {
    match PickExisting(g.rng, g.live)
    case None => CreateStep(p, g)
    case Some((target, rng1)) =>
      if target !in g.files then Err(KeyError)
      else
        var info := g.files[target];
        var (u, rng2) := Random(rng1);
        var mode := if u < p.seqProb then SeqMode else RandMode;
        var (offset, n, cursor, rng3) :- ComputeOffsetAndLen(rng2, info.size, mode, info.cursor, p.maxIo);
        var h := Touched(g, target, kind, offset, n, mode, cursor);
        assert h.ops[..|g.ops|] == g.ops;
        TouchedConsistent(g, target, kind, offset, n, mode, cursor);
        Ok(h.(rng := rng3))
  }

  /** One iteration of the operation loop: with no live file a create,
      otherwise an operation chosen by the weights of the delete rate. */
  function Iterate(p: Params, g: Gen): (r: Result<Gen>)
    ensures r.Ok? ==> Extends(r.value.ops, g.ops, 1) && SizedCreates(p, r.value.ops, |g.ops|)
    ensures r.Ok? && g.live == [] ==> r.value.ops[|g.ops|].kind == CreateOp
    ensures r.Ok? && Consistent(g) ==> Consistent(r.value)
    ensures Runnable(p) && Consistent(g) ==> r.Ok?
  {
    if g.live == [] then CreateStep(p, g)
    else
      OpChoiceSucceeds(g.rng, p.deleteRate);
      match Choose(g.rng, OpWeights(p.deleteRate))
      case Err(e) => Err(e)
      case Ok((i, rng)) =>
        RngIrrelevant(g, rng);
        Dispatch(p, g.(rng := rng), i)
  }

  /** The operation at position `i` of create, delete, read, write. */
  function Dispatch(p: Params, g: Gen, i: nat): (r: Result<Gen>)
    ensures r.Ok? ==> Extends(r.value.ops, g.ops, 1) && SizedCreates(p, r.value.ops, |g.ops|)
    ensures r.Ok? && Consistent(g) ==> Consistent(r.value)
    ensures Runnable(p) && Consistent(g) ==> r.Ok?
  {
    if i == 0 then CreateStep(p, g)
    else if i == 1 then DeleteStep(p, g)
    else if i == 2 then ReadWriteStep(p, g, ReadOp)
    else ReadWriteStep(p, g, WriteOp)
  }

  // ---------------------------------------------------------------------
  // The whole generator
  // ---------------------------------------------------------------------

  lemma ExtendsTrans(a: seq<Op>, b: seq<Op>, c: seq<Op>, m: nat, n: nat)
    requires Extends(b, a, m) && Extends(c, b, n)
    ensures Extends(c, a, m + n)
  {
    assert c[..|a|] == c[..|b|][..|a|];
  }

  lemma SizedTrans(p: Params, a: seq<Op>, b: seq<Op>, c: seq<Op>, n: nat)
    requires Extends(b, a, 1) && Extends(c, b, n)
    requires SizedCreates(p, b, |a|) && SizedCreates(p, c, |b|)
    ensures SizedCreates(p, c, |a|)
  {
    assert c[..|b|] == b;
    forall k | |a| <= k < |b|
      ensures c[k] == b[k]
    {
      assert c[..|b|][k] == c[k];
    }
  }

  /** Every operation from position `from` on is a create. */
  predicate AllCreates(ops: seq<Op>, from: nat) {
    forall k :: from <= k < |ops| ==> ops[k].kind == CreateOp
  }

  lemma CreatesTrans(a: seq<Op>, b: seq<Op>, c: seq<Op>, n: nat)
    requires Extends(b, a, 1) && Extends(c, b, n)
    requires b[|a|].kind == CreateOp && AllCreates(c, |b|)
    ensures AllCreates(c, |a|)
  {
    assert c[|a|] == c[..|b|][|a|];
  }

  /** `for _ in range(count)`: `count` synthetic files of one kind. */
  function Populate(p: Params, g: Gen, large: bool, count: nat): (r: Result<Gen>)
    ensures r.Err? ==> r.error == ValueError || r.error == TypeError
    ensures r.Ok? ==> Extends(r.value.ops, g.ops, count) && SizedCreates(p, r.value.ops, |g.ops|)
    ensures r.Ok? ==> AllCreates(r.value.ops, |g.ops|)
    ensures r.Ok? && Consistent(g) ==> Consistent(r.value)
    ensures Runnable(p) ==> r.Ok?
    decreases count
  {
    if count == 0 then
      assert g.ops[..|g.ops|] == g.ops;
      Ok(g)
    else
      var h :- CreateOfKind(p, g, large);
      var r := Populate(p, h, large, count - 1);
      if r.Ok? then
        ExtendsTrans(g.ops, h.ops, r.value.ops, 1, count - 1);
        SizedTrans(p, g.ops, h.ops, r.value.ops, count - 1);
        CreatesTrans(g.ops, h.ops, r.value.ops, count - 1);
        r
      else r
  }

  /** The operation loop, `count` iterations. */
  function Loop(p: Params, g: Gen, count: nat): (r: Result<Gen>)
    ensures r.Ok? ==> Extends(r.value.ops, g.ops, count) && SizedCreates(p, r.value.ops, |g.ops|)
    ensures r.Ok? && Consistent(g) ==> Consistent(r.value)
    ensures Runnable(p) && Consistent(g) ==> r.Ok?
    decreases count
  {
    if count == 0 then
      assert g.ops[..|g.ops|] == g.ops;
      Ok(g)
    else
      var h :- Iterate(p, g);
      var r := Loop(p, h, count - 1);
      if r.Ok? then
        ExtendsTrans(g.ops, h.ops, r.value.ops, 1, count - 1);
        SizedTrans(p, g.ops, h.ops, r.value.ops, count - 1);
        r
      else r
  }

  /** A `user_files` entry: a dictionary whose `name` is a non-empty string
      and whose `size_blocks` is a positive integer. */
  predicate UserEntryOk(v: Value) {
    && v.VDict?
    && Get(v.entries, "name", VNone).VStr?
    && Get(v.entries, "name", VNone).s != []
    && IsInt(Get(v.entries, "size_blocks", VNone))
    && IntOf(Get(v.entries, "size_blocks", VNone)) > 0
  }

  function UserName(v: Value): string
    requires UserEntryOk(v)
  {
    v.entries["name"].s
  }

  function UserSize(v: Value): int
    requires UserEntryOk(v)
  {
    IntOf(v.entries["size_blocks"])
  }

  /** Every entry is well formed and no name repeats. */
  predicate ValidUsers(uf: seq<Value>) {
    && (forall k :: 0 <= k < |uf| ==> UserEntryOk(uf[k]))
    && (forall j, k :: 0 <= j < k < |uf| ==> UserName(uf[j]) != UserName(uf[k]))
  }

  /** The generator state after the user files `uf`: one create and one
      live name per entry, in order, and nothing drawn from `rng`. */
  ghost predicate UsersState(uf: seq<Value>, g: Gen, rng: Rng)
    requires ValidUsers(uf)
  {
    && Consistent(g) && g.rng == rng
    && g.counterSmall == 0 && g.counterLarge == 0
    && |g.ops| == |uf| && |g.live| == |uf|
    && (forall k :: 0 <= k < |uf| ==> g.ops[k] == CreateOf(UserName(uf[k]), UserSize(uf[k])))
    && (forall k :: 0 <= k < |uf| ==> g.live[k] == UserName(uf[k]))
  }

  /** One `user_files` entry. */
  function AddUser(g: Gen, v: Value): (r: Result<Gen>)
    ensures r.Ok? <==> UserEntryOk(v) && UserName(v) !in g.existing
    ensures r.Err? ==> r.error == ValueError
    ensures r.Ok? ==> r.value == WithFile(g, UserName(v), UserSize(v))
  {
    if !UserEntryOk(v) || UserName(v) in g.existing then Err(ValueError)
    else Ok(WithFile(g, UserName(v), UserSize(v)))
  }

  /** The user files, in order, as creates; any malformed or repeated entry
      is a ValueError. */
  function AddUsers(uf: seq<Value>, rng: Rng): (r: Result<Gen>)
    ensures r.Ok? <==> ValidUsers(uf)
    ensures r.Err? ==> r.error == ValueError
    ensures r.Ok? ==> UsersState(uf, r.value, rng)
    decreases |uf|
  {
    if uf == [] then
      assert Sizes(map[]) == map[];
      Ok(Gen(map[], [], {}, 0, 0, [], rng))
    else
      var prefix := uf[..|uf| - 1];
      match AddUsers(prefix, rng)
      case Err(e) =>
        assert !ValidUsers(prefix);
        assert forall k :: 0 <= k < |prefix| ==> prefix[k] == uf[k];
        Err(e)
      case Ok(g) =>
        UsersStep(uf, g, rng);
        AddUser(g, uf[|uf| - 1])
  }

  lemma UsersStep(uf: seq<Value>, g: Gen, rng: Rng)
    requires |uf| > 0 && ValidUsers(uf[..|uf| - 1]) && UsersState(uf[..|uf| - 1], g, rng)
    ensures AddUser(g, uf[|uf| - 1]).Ok? <==> ValidUsers(uf)
    ensures AddUser(g, uf[|uf| - 1]).Ok? ==> UsersState(uf, AddUser(g, uf[|uf| - 1]).value, rng)
  {
    var v := uf[|uf| - 1];
    if UserEntryOk(v) {
      if UserName(v) in g.existing {
        UserRepeated(uf, g, rng);
      } else {
        UserAdded(uf, g, rng);
      }
    }
  }

  /** A name already among the earlier entries makes the list invalid. */
  lemma UserRepeated(uf: seq<Value>, g: Gen, rng: Rng)
    requires |uf| > 0 && ValidUsers(uf[..|uf| - 1]) && UsersState(uf[..|uf| - 1], g, rng)
    requires UserEntryOk(uf[|uf| - 1]) && UserName(uf[|uf| - 1]) in g.existing
    ensures !ValidUsers(uf)
  {
    var prefix := uf[..|uf| - 1];
    var v := uf[|uf| - 1];
    assert UserName(v) in g.live;
    var k :| 0 <= k < |g.live| && g.live[k] == UserName(v);
    assert prefix[k] == uf[k];
    assert UserName(uf[k]) == UserName(v);
  }

  /** A well-formed entry with a new name extends the state by one file. */
  lemma UserAdded(uf: seq<Value>, g: Gen, rng: Rng)
    requires |uf| > 0 && ValidUsers(uf[..|uf| - 1]) && UsersState(uf[..|uf| - 1], g, rng)
    requires UserEntryOk(uf[|uf| - 1]) && UserName(uf[|uf| - 1]) !in g.existing
    ensures ValidUsers(uf)
    ensures UsersState(uf, WithFile(g, UserName(uf[|uf| - 1]), UserSize(uf[|uf| - 1])), rng)
  {
    var prefix := uf[..|uf| - 1];
    var v := uf[|uf| - 1];
    forall j | 0 <= j < |prefix|
      ensures UserName(uf[j]) != UserName(v)
    {
      assert prefix[j] == uf[j];
      assert g.live[j] == UserName(uf[j]);
    }
    UserAddedValid(prefix, v, uf);
    WithFileConsistent(g, UserName(v), UserSize(v));
    UserAddedState(prefix, v, uf, g, WithFile(g, UserName(v), UserSize(v)), rng);
  }

  lemma UserAddedValid(prefix: seq<Value>, v: Value, uf: seq<Value>)
    requires uf == prefix + [v] && ValidUsers(prefix) && UserEntryOk(v)
    requires forall j :: 0 <= j < |prefix| ==> UserName(uf[j]) != UserName(v)
    ensures ValidUsers(uf)
  {
    assert forall k :: 0 <= k < |prefix| ==> prefix[k] == uf[k];
  }

  lemma UserAddedState(prefix: seq<Value>, v: Value, uf: seq<Value>, g: Gen, h: Gen, rng: Rng)
    requires uf == prefix + [v] && ValidUsers(prefix) && ValidUsers(uf) && UsersState(prefix, g, rng)
    requires UserEntryOk(v) && h == WithFile(g, UserName(v), UserSize(v)) && Consistent(h)
    ensures UsersState(uf, h, rng)
  {
    assert forall k :: 0 <= k < |prefix| ==> prefix[k] == uf[k] && h.ops[k] == g.ops[k] && h.live[k] == g.live[k];
  }

  /** `generate_workload(cfg, seed, user_files=..., respect_user_files_only=...)`
      with the seeded generator replaced by the stream `rng`: the parameters,
      then the rest of the generator. */
  function Generate(cfg: Config, uf: seq<Value>, respectOnly: bool, rng: Rng): (r: Result<seq<Op>>)
    ensures ParamsOf(cfg).Err? ==> r == Err(ParamsOf(cfg).error)
    ensures ParamsOf(cfg).Ok? && !ValidUsers(uf) ==> r == Err(ValueError)
    ensures r.Ok? ==> ParamsOf(cfg).Ok? && WellFormed(ParamsOf(cfg).value, uf, respectOnly, r.value)
    ensures ParamsOf(cfg).Ok? && Runnable(ParamsOf(cfg).value) && ValidUsers(uf) ==> r.Ok?
  {
    var p :- ParamsOf(cfg);
    GenerateWith(p, uf, respectOnly, rng)
  }

  /** What the generator promises about its output: the user files come
      first as creates in the given order, the count of operations is the
      population plus the loop iterations, every later create has a size
      from a configured range, and the whole sequence replays successfully
      against an empty catalog. */
  ghost predicate WellFormed(p: Params, uf: seq<Value>, respectOnly: bool, ops: seq<Op>) {
    && ValidUsers(uf)
    && |ops| == |uf| + (if respectOnly then 0 else Times(p.nSmall) + Times(p.nLarge)) + Times(p.ops)
    && (forall k :: 0 <= k < |uf| ==> ops[k] == CreateOf(UserName(uf[k]), UserSize(uf[k])))
    && SizedCreates(p, ops, |uf|)
    && Replay(ops).Some?
  }

  /** The user files, the synthetic population (small files, then large
      ones) unless only user files are wanted, then `ops` loop iterations. */
  function GenerateWith(p: Params, uf: seq<Value>, respectOnly: bool, rng: Rng): (r: Result<seq<Op>>)
    ensures !ValidUsers(uf) ==> r == Err(ValueError)
    ensures r.Ok? ==> WellFormed(p, uf, respectOnly, r.value)
    ensures ValidUsers(uf) && Runnable(p) ==> r.Ok?
  {
    var g0 :- AddUsers(uf, rng);
    var g1 :- Populations(p, g0, respectOnly);
    var g2 :- Loop(p, g1, Times(p.ops));
    Assemble(p, uf, respectOnly, g0, g1, g2);
    Ok(g2.ops)
  }

  lemma Assemble(p: Params, uf: seq<Value>, respectOnly: bool, g0: Gen, g1: Gen, g2: Gen)
    requires ValidUsers(uf) && UsersState(uf, g0, g0.rng)
    requires Extends(g1.ops, g0.ops, if respectOnly then 0 else Times(p.nSmall) + Times(p.nLarge))
    requires SizedCreates(p, g1.ops, |g0.ops|)
    requires Extends(g2.ops, g1.ops, Times(p.ops)) && SizedCreates(p, g2.ops, |g1.ops|)
    requires Consistent(g2)
    ensures WellFormed(p, uf, respectOnly, g2.ops)
  {
    ExtendsTrans(g0.ops, g1.ops, g2.ops, |g1.ops| - |g0.ops|, Times(p.ops));
    assert forall k :: 0 <= k < |uf| ==> g2.ops[k] == g2.ops[..|g0.ops|][k];
    SizedAfter(p, g0.ops, g1.ops, g2.ops, Times(p.ops));
  }

  /** The synthetic population, or nothing when only user files are wanted. */
  function Populations(p: Params, g: Gen, respectOnly: bool): (r: Result<Gen>)
    ensures r.Ok? ==>
              && Extends(r.value.ops, g.ops, if respectOnly then 0 else Times(p.nSmall) + Times(p.nLarge))
              && SizedCreates(p, r.value.ops, |g.ops|)
    ensures r.Ok? && Consistent(g) ==> Consistent(r.value)
    ensures Runnable(p) ==> r.Ok?
  {
    if respectOnly then
      assert g.ops[..|g.ops|] == g.ops;
      Ok(g)
    else
      var h :- Populate(p, g, false, Times(p.nSmall));
      var r := Populate(p, h, true, Times(p.nLarge));
      if r.Ok? then
        ExtendsTrans(g.ops, h.ops, r.value.ops, Times(p.nSmall), Times(p.nLarge));
        SizedAfter(p, g.ops, h.ops, r.value.ops, Times(p.nLarge));
        r
      else r
  }

  lemma SizedAfter(p: Params, a: seq<Op>, b: seq<Op>, c: seq<Op>, n: nat)
    requires |a| <= |b| && Extends(c, b, n)
    requires SizedCreates(p, b, |a|) && SizedCreates(p, c, |b|)
    ensures SizedCreates(p, c, |a|)
  {
    forall k | |a| <= k < |b|
      ensures c[k] == b[k]
    {
      assert c[..|b|][k] == c[k];
    }
  }

  // ---------------------------------------------------------------------
  // When the generator succeeds
  // ---------------------------------------------------------------------

  /** A size range `randint` accepts: two integers, the first not above
      the second. */
  predicate GoodRange(pair: seq<Value>) {
    |pair| == 2 && IsInt(pair[0]) && IsInt(pair[1]) && IntOf(pair[0]) <= IntOf(pair[1])
  }

  /** Parameters under which no step of the generator can fail: both size
      ranges are usable and at least one block may be read or written. */
  predicate Runnable(p: Params) {
    GoodRange(p.small) && GoodRange(p.large) && p.maxIo >= 1
  }

  /** The operation weights always have a positive total, so the choice
      of an operation never fails. */
  lemma OpChoiceSucceeds(g: Rng, deleteRate: real)
    ensures Choose(g, OpWeights(deleteRate)).Ok?
  {
    var w := OpWeights(deleteRate);
    OpWeightsDistribution(deleteRate);
    var a := Accumulate(w);
    assert a[1] == w[0] + w[1] && a[2] == a[1] + w[2] && a[3] == a[2] + w[3];
  }

}

=== FILE: wrappers.dfy ===
/** Failure-compatible wrappers shared by every module of the simulator.
    The error kinds are named after the Python exception classes that the
    simulator raises, so that a model result can be compared with the
    exception the original code would have raised. */
module Wrappers {

  datatype Option<+T> = None | Some(value: T) {
    function GetOr(default: T): T {
      match this
      case Some(v) => v
      case None => default
    }
  }

  /** The exception kinds raised by the simulator core. */
  datatype Error =
    | ValueError      // invalid argument or malformed input
    | IndexError      // block index outside the disk or the bitmap
    | MemoryError     // the allocator cannot satisfy a request
    | IOError         // an index block is absent or cannot be decoded/encoded
    | KeyError        // unknown scenario or strategy name
    | TypeError       // a configuration value of the wrong type
    | FileExists      // create of a name that is already in the catalog
    | FileNotFound    // delete/read/write of a name that is not in the catalog
    | NotImplemented  // the unfinished linked strategy

  datatype Result<+T> = Ok(value: T) | Err(error: Error) {
    predicate IsFailure() {
      Err?
    }

    function PropagateFailure<U>(): Result<U>
      requires Err?
    {
      Err(error)
    }

    function Extract(): T
      requires Ok?
    {
      value
    }
  }

  /** A check that either passes or fails with an error. */
  datatype Outcome = Pass | Fail(error: Error) {
    predicate IsFailure() {
      Fail?
    }

    function PropagateFailure<U>(): Result<U>
      requires Fail?
    {
      Err(error)
    }
  }

  function Need(condition: bool, error: Error): (r: Outcome)
    ensures r.Pass? <==> condition
    ensures r.Fail? ==> r.error == error
  {
    if condition then Pass else Fail(error)
  }
}
